=== FILE: README.md ===
# plapperkasten in Dafny

plapperkasten is a music box for a Raspberry Pi. A supervisor process
(`Plapperkasten`, and its older prototype `BoxHead`) starts plugins as
separate processes. It routes events between them through queues. A plugin
subscribes to event names. The supervisor puts every emitted event on the
queue of every subscriber, and heals the subscription table when a
subscriber's queue is gone or closed. Plugins send events back to the
supervisor. The supervisor counts busy plugins, handles `busy`, `idle`,
`shutdown` and `interrupt` itself, translates `raw` key input through the
event map, and re-emits the rest according to its passthrough list.

The project models the following parts:

- the key-map file format (`KeyMap`, `MapFile`, `Text`), that is,
  `KEY|VALUE|name=value` lines read with `readlines()`, `strip()` and
  `split()`, and rewritten by `update` and `remove`;
- the event map and the status map built on it (`EventMap`, `StatusMap`),
  and `Event` (`Events`);
- the subscription table and the queues (`Registry`);
- `emit` in both supervisors (`Dispatch`, `Boxhead`);
- the supervisor's handlers, `process_event`, its main loop and `shutdown`
  (`Supervisor`);
- the plugin base class: its `send_*` calls, busy and idle signalling,
  registration and its event loop (`Worker`);
- the layered configuration (`Config`);
- the volume rules shared by the ALSA, PipeWire and amixer plugins
  (`Volume`), and each of those plugins (`SoundAlsa`, `SoundPwwp`);
- the auto-shutdown countdown (`AutoShutdown`);
- the keyboard input plugin (`InputDev`).

Python exceptions that escape a modelled operation are the `Err` side of a
`Result`, with the exception's class in `Fault`. An exception the source
catches is modelled as the path it takes instead. Files are their text.
Queues are sequences, and a queue of capacity 0 is unbounded, as in
`multiprocessing.Queue()`. Volume readings and subprocess answers are
parameters.

A few notes on where the model follows the code:

- `process_event` re-emits an event whose name is NOT in the passthrough
  list. Its docstring says it re-emits events the list allows. The model
  follows the code.
- `emit` walks the live subscriber list by index, as a Python `for` loop
  does. So when a subscriber is healed away, the next one moves under the
  cursor and misses the event. The model keeps this behaviour, and
  `Dispatch.EmitSkipsAfterHeal` exhibits it.
- The delimiter of a map file is modelled as one character (see "Left
  out").
- Where a Findings row below corrects the code, the operations built on
  the corrected helper use the corrected behaviour. The lines under "Left
  out" that start with those members' names say so.

## Model

| member | source | states |
|---|---|---|
| Text.Strip | src/plapperkasten/keymap.py:89 | `strip()` leaves no whitespace at either end, never lengthens the line, and gives the empty string only for an all-whitespace line |
| Text.StripInfix | src/plapperkasten/keymap.py:89 | `strip()` returns the infix of the line that lies between its leading and its trailing whitespace |
| Text.StripIdempotent | src/plapperkasten/keymap.py:125-126 | stripping a field that `_load` already stripped changes nothing |
| Text.StripSnocSpace | src/plapperkasten/keymap.py:81-89 | the newline `readlines()` leaves on a line makes no difference once the line is stripped |
| Text.IndexOf | src/plapperkasten/keymap.py:127 | the first `=` of a field is found exactly when the field holds one, and nothing before it is `=` |
| Text.Split | src/plapperkasten/keymap.py:121 | `split(delimiter)` yields at least one field, and no field holds the delimiter |
| Text.SplitJoin | src/plapperkasten/keymap.py:150-161 | splitting a line joined from delimiter-free fields gives the fields back |
| Text.JoinSplit | src/plapperkasten/keymap.py:121 | joining the fields of a split line gives the line back |
| KeyMap.ProcessLine | src/plapperkasten/keymap.py:104-133 | only the empty line raises `ValueError`; the key is the text before the first delimiter |
| KeyMap.ToMapLine | src/plapperkasten/keymap.py:150-160 | `_to_map_line` joins key, values and `name=value` params with the delimiter; `KeyMap.ParseWrittenLine` proves `_process_line` reads it back |
| KeyMap.ParseWrittenLine | src/plapperkasten/keymap.py:104-161 | `_process_line` inverts `_to_map_line`: key, values in order and params come back when no field holds the delimiter, surrounding whitespace or a stray `=` |
| KeyMap.EntryOfWrittenLine | src/plapperkasten/keymap.py:83-96 | a line written by `update`, newline included, is read by `_load` as exactly the item written |
| KeyMap.Entries | src/plapperkasten/keymap.py:83-96 | `_load` treats each line independently: one parse result per line, in order |
| KeyMap.Load | src/plapperkasten/keymap.py:69-102 | `_map.update(mapping)`: the file's keys replace whole items, and keys only in the old map stay |
| KeyMap.LoadedKeys | src/plapperkasten/keymap.py:83-96 | a key is loaded exactly when some line of the file defines it |
| KeyMap.LoadIgnoresOtherKeys | src/plapperkasten/keymap.py:83-96 | a file with no line for a key loads nothing for it |
| KeyMap.LoadLastWins | src/plapperkasten/keymap.py:91-93 | the item a line defines is what is loaded, unless a later line defines the same key |
| KeyMap.Get | src/plapperkasten/keymap.py:135-148 | `get` never raises: the stored item, or the empty item for a missing key |
| KeyMap.ParamFields | src/plapperkasten/keymap.py:159 | one `name=value` field per keyword argument, in call order |
| KeyMap.FirstMatch | src/plapperkasten/keymap.py:191-192 | finds the first line that starts with the key and the delimiter; no earlier line matches, and no line matches when it finds none |
| KeyMap.Update | src/plapperkasten/keymap.py:149-220 | a param called `self`, `path`, `mapkey` or `key` raises `TypeError` before anything is written; otherwise the loop over the lines computes the edit: replace or delete the first matching line, otherwise append when there is data |
| KeyMap.Remove | src/plapperkasten/keymap.py:222-229 | `remove` changes nothing without a matching line, and otherwise deletes exactly the first matching line, keeping the others in order |
| KeyMap.WrittenLineMatches | src/plapperkasten/keymap.py:192-199 | a line `update` wrote for a key is matched by the next `update` of that key |
| KeyMap.MatchesOneKey | src/plapperkasten/keymap.py:192-195 | the delimiter in the match keeps a key from matching a longer key it is a prefix of |
| KeyMap.UpdateIdempotent | src/plapperkasten/keymap.py:163-211 | updating twice with the same data is updating once |
| KeyMap.UpdateThenLoad | src/plapperkasten/keymap.py:163-211 | after `update` with params that bind and a reload, the key maps to exactly the item written, unless a later line defines the key again |
| KeyMap.RemoveThenLoad | src/plapperkasten/keymap.py:222-229 | after `remove` and a reload the key is gone, when the removed line was its only one |
| KeyMap.UpdateKeepsOtherKeys | src/plapperkasten/keymap.py:163-211 | `update` of one key leaves what a reload reads for every other key as it was |
| KeyMap.ReplaceKeepsOther | src/plapperkasten/keymap.py:198-199 | replacing a line that defines neither before nor after a key leaves that key's loaded item alone |
| KeyMap.DeleteKeepsOther | src/plapperkasten/keymap.py:203 | deleting a line that does not define a key leaves that key's loaded item alone |
| KeyMap.AppendKeepsOther | src/plapperkasten/keymap.py:208-210 | appending a line that does not define a key leaves that key's loaded item alone |
| KeyMap.MatchedLineKey | src/plapperkasten/keymap.py:85-92 | a line `update` matches for a well-formed key is a line `_load` reads as defining that key |
| MapFile.ConcatReadLines | src/plapperkasten/keymap.py:183-217 | writing back the lines `readlines()` read reproduces the file |
| MapFile.ReadLinesShaped | src/plapperkasten/keymap.py:81 | `readlines()` yields non-empty lines, each holding a single newline at its end, except perhaps the last |
| MapFile.ReadLinesConcat | src/plapperkasten/keymap.py:183-217 | reading back written lines of that shape gives the same lines |
| MapFile.ConcatAppend | src/plapperkasten/keymap.py:217 | `''.join` distributes over concatenation |
| MapFile.UpdateTextAsWritten | src/plapperkasten/keymap.py:163-220 | the source's `update` on the file text: the lines `readlines()` gives, edited by `update`, joined back; `MapFile.AppendGluesToLastLine` shows its flaw and `MapFile.UpdateTextAgrees` where it agrees with the corrected one |
| MapFile.RemoveText | src/plapperkasten/keymap.py:222-229 | `remove` on the file text is the source's `update` with no data; `MapFile.TextRemoveThenLoad` states its effect |
| MapFile.AppendGluesToLastLine | src/plapperkasten/keymap.py:208-210 | appending to a file whose last line lacks a newline glues the entry onto that line, so a reload finds no entry for the new key |
| MapFile.UpdateTextAgrees | src/plapperkasten/keymap.py:181-217 | on a file that ends with a newline, the corrected `update` does exactly what the source does |
| MapFile.TerminateSame | src/plapperkasten/keymap.py:85-92 | ending the last line with a newline changes neither which line `update` matches nor what `_load` reads |
| MapFile.UpdateLinesComplete | src/plapperkasten/keymap.py:191-210 | `update` keeps every line newline-terminated when the entry it writes is one line |
| MapFile.TextUpdateThenLoad | src/plapperkasten/keymap.py:163-220 | after the corrected `update` with params that bind and a reload, the key maps to the item written, whatever the file ended with |
| MapFile.TextUpdateKeepsOtherKeys | src/plapperkasten/keymap.py:163-220 | the corrected `update` leaves every other key's loaded item as it was |
| MapFile.TextRemoveThenLoad | src/plapperkasten/keymap.py:222-229 | after `remove` on the file, as the source does it, and a reload, the key is gone, whatever the file ended with |
| Events.Make | src/plapperkasten/event.py:19-32 | an event is built exactly when no param is called `name` or `self`, which would collide with the constructor's own parameters; it holds the name, values and params given |
| EventMap.Load | src/plapperkasten/eventmap.py:56-64 | the built-in map is read first, then the user's map, whose items replace built-in ones per key |
| EventMap.GetEvent | src/plapperkasten/eventmap.py:66-84 | the first value names the event, and the rest and the params go with it; a missing key or an entry without values gives `Event('')`; a param `name` or `self` raises `TypeError` |
| EventMap.UpdateEvent | src/plapperkasten/eventmap.py:86-100 | a param called `self`, `key`, `event_name`, `path` or `mapkey` raises `TypeError`; any other call succeeds |
| EventMap.UpdateEventThenGet | src/plapperkasten/eventmap.py:86-100 | with the corrected `update`: mapping a key to an event with params that bind succeeds, and reloading gives back that event |
| EventMap.EmptyNameMapsToNoOp | src/plapperkasten/eventmap.py:97-100 | with the corrected `update`: with params that bind, an empty event name removes the line and then still writes the key with an empty first value, which reads back as an event named `''` |
| EventMap.RemoveEvent | src/plapperkasten/eventmap.py:102-108 | `remove_event` is `remove` on the user's map; `EventMap.RemoveEventThenGet` states its effect |
| EventMap.RemoveEventThenGet | src/plapperkasten/eventmap.py:102-108 | after `remove_event` the key yields the built-in event, or `Event('')` when there is none |
| StatusMap.Load | src/plapperkasten/plugins/mpdclient/statusmap.py:82-85 | a key is loaded exactly when some line of the user's status file defines it |
| StatusMap.GetStatus | src/plapperkasten/plugins/mpdclient/statusmap.py:87-105 | two stored values give position and elapsed time; fewer, or a missing key, give the default status |
| StatusMap.UpdateStatusThenGet | src/plapperkasten/plugins/soundpwwp/statusmap.py:107-115 | with the corrected `update`: storing a status and reloading gives it back, except the state, which is not stored |
| StatusMap.UpdateStatus | src/plapperkasten/plugins/soundpwwp/statusmap.py:107-115 | with the corrected `update`: the key with position and elapsed time as its two values; `StatusMap.UpdateStatusThenGet` states the round trip |
| StatusMap.RemoveStatus | src/plapperkasten/plugins/soundpwwp/statusmap.py:117-124 | `remove_status` is `remove` on the user's status map; `StatusMap.RemoveStatusThenGet` states its effect |
| StatusMap.RemoveStatusThenGet | src/plapperkasten/plugins/soundpwwp/statusmap.py:117-124 | after `remove_status` and a reload the default status comes back |
| Registry.Touch | src/plapperkasten/plapperkasten.py:312-330 | `get_subscribers` adds an empty list for an unknown event and changes nothing else |
| Registry.RemoveFirst | src/plapperkasten/plapperkasten.py:352-365 | removing a name shortens the list by one when it is there, and leaves the list as it was otherwise |
| Registry.Register | src/plapperkasten/plapperkasten.py:332-350 | an exclusive registration leaves only `who`; any other keeps the list as a prefix and adds `who` at the end unless it is already there; other events are untouched |
| Registry.Unregister | src/plapperkasten/plapperkasten.py:352-365 | the event's list is created if missing; other events are untouched; a name that is not subscribed changes nothing else |
| Registry.UnregisterCount | src/plapperkasten/plapperkasten.py:352-365 | exactly one occurrence of `who` leaves that event's list when it holds one |
| Registry.RemoveFirstCount | src/plapperkasten/plapperkasten.py:363 | `list.remove` takes exactly one occurrence of the name out when there is one |
| Registry.UnregisterFromAll | src/boxhead/boxhead.py:174-185 | every event keeps its list, and no list grows |
| Registry.UnregisterFromAllCounts | src/plapperkasten/plapperkasten.py:367-378 | exactly one occurrence of `who` leaves every list that holds one |
| Registry.UnregisterFromAllRemoves | src/plapperkasten/plapperkasten.py:367-378 | on duplicate-free lists `who` is in no list afterwards, and the other names keep their order |
| Registry.Broadcast | src/plapperkasten/plapperkasten.py:396-400 | each subscriber's queue gets the event at its end, and every other queue stays |
| Registry.Heal | src/plapperkasten/plapperkasten.py:403-411 | healing drops exactly the subscriber's queue, keeps every event and grows no list |
| Registry.HealRemoves | src/plapperkasten/plapperkasten.py:403-411 | after healing, the subscriber has no queue and is on no list, and all else is as it was |
| Registry.RegisterIdempotent | src/plapperkasten/plapperkasten.py:332-350 | registering the same pair twice is registering it once |
| Registry.RegisterKeepsValid | src/plapperkasten/plapperkasten.py:332-350 | `register` never puts a name twice on a list |
| Registry.UnregisterKeepsValid | src/plapperkasten/plapperkasten.py:352-365 | `unregister` keeps lists duplicate-free |
| Registry.UnregisterFromAllKeepsValid | src/plapperkasten/plapperkasten.py:367-378 | `unregister_from_all` keeps lists duplicate-free |
| Registry.UnregisterUndoesRegister | src/plapperkasten/plapperkasten.py:332-365 | `unregister` undoes a registration of a name that was not subscribed |
| Registry.UnregisterNonMember | src/plapperkasten/plapperkasten.py:352-365 | unregistering a name that is not subscribed changes nothing |
| Dispatch.Step | src/plapperkasten/plapperkasten.py:396-412 | one turn raises only `TypeError`, and only for a param `name` or `self` to a subscriber that has a queue; keys are kept and no list grows |
| Dispatch.StepOutcome | src/plapperkasten/plapperkasten.py:396-412 | a missing or closed queue heals; a queue with room gets the event; a full one drops it; no other queue changes |
| Dispatch.EmitFrom | src/plapperkasten/plapperkasten.py:396-412 | the loop fails only with `TypeError` on a param `name` or `self`, and never adds queues |
| Dispatch.Emit | src/plapperkasten/plapperkasten.py:380-412 | a param `event` or `self` raises `TypeError` at the call; with no subscribers only the table entry is created; otherwise it succeeds unless a param is called `name` |
| Dispatch.Notify | src/plapperkasten/plapperkasten.py:380-412 | emitting a bare name always succeeds and creates the event's entry |
| Dispatch.EmitDelivers | src/plapperkasten/plapperkasten.py:380-412 | when every subscriber has a live queue with room, each gets exactly the one event at the end of its queue, and nothing else changes |
| Dispatch.EmitSkipsAfterHeal | src/plapperkasten/plapperkasten.py:396-411 | a subscriber healed away makes the next subscriber miss the event, although its queue is fine |
| Boxhead.Step | src/boxhead/boxhead.py:187-215 | one turn keeps the event keys, never grows a list and never adds a queue |
| Boxhead.StepOutcome | src/boxhead/boxhead.py:187-215 | a missing or closed queue heals; a live one gets the name at its end; no other queue changes |
| Boxhead.Emit | src/boxhead/boxhead.py:187-215 | creates the event's entry; with no subscribers nothing else changes |
| Boxhead.EmitDelivers | src/boxhead/boxhead.py:187-215 | when every subscriber's queue is live, each gets the event name exactly once at its end |
| Boxhead.OnInterrupt | src/boxhead/boxhead.py:217-227 | the terminate flag is set; the table gains only the `terminate` entry and no queue is added |
| Boxhead.OnInterruptDelivers | src/boxhead/boxhead.py:217-227 | when every plugin subscribed to `terminate` has a live queue, each finds `terminate` at the end of its queue and no other queue changes |
| Supervisor.Apply | src/plapperkasten/plapperkasten.py:426-442 | a handler leaves its flags behind, and a handler that emits nothing leaves the queues alone |
| Supervisor.OnBusy | src/plapperkasten/plapperkasten.py:542-553 | the counter goes up by one, and `busy` goes out only when the first plugin reports |
| Supervisor.AllIdle | src/plapperkasten/plapperkasten.py:574-581 | `idle` goes out and the answer is true exactly when the counter is not positive |
| Supervisor.OnIdle | src/plapperkasten/plapperkasten.py:555-572 | the counter goes down by one, even below zero, and `idle` goes out when it reaches zero or less |
| Supervisor.OnInterrupt | src/plapperkasten/plapperkasten.py:414-424 | `terminate` goes out and the loop ends; the shutdown is not armed |
| Supervisor.OnShutdown | src/plapperkasten/plapperkasten.py:426-442 | `shutdown` then `terminate` go out, and both flags are set |
| Supervisor.Start | src/plapperkasten/plapperkasten.py:64-90 | the counter and flags start cleared, and `finished_loading` then `idle` are emitted |
| Supervisor.Shutdown | src/plapperkasten/plapperkasten.py:444-456 | a power-off with the configured minutes is issued exactly when both flags are set and debugging is off |
| Supervisor.Handler | src/plapperkasten/plapperkasten.py:527-532 | `busy`, `idle` and `shutdown` fail with `TypeError` exactly on a param `self`, and an `interrupt` exactly when its arguments do not bind; the flags move as the four handlers say; other names have no handler |
| Supervisor.Translate | src/plapperkasten/plapperkasten.py:519-521 | a `raw` event is looked up by its first value (none raises `IndexError`) and marked new; other events pass unchanged |
| Supervisor.Reemit | src/plapperkasten/plapperkasten.py:539-540 | re-emitting keeps the flags, adds only the event's entry and no queue; it can fail only with `TypeError` from a param called `event`, `name` or `self`, and cannot fail without one |
| Supervisor.ReemitDelivers | src/plapperkasten/plapperkasten.py:539-540 | when every subscriber has a live queue with room, the event itself lands once at the end of each of their queues and nothing else changes, flags included |
| Supervisor.ProcessEvent | src/plapperkasten/plapperkasten.py:503-540 | only `IndexError` or `TypeError` escape |
| Supervisor.PlainEventRouting | src/plapperkasten/plapperkasten.py:538-540 | an event not from the event map and with no handler is re-emitted exactly when its name is not in the passthrough list |
| Supervisor.MappedEventRouting | src/plapperkasten/plapperkasten.py:519-540 | an event from the event map is re-emitted whatever the passthrough list says |
| Supervisor.BusyIdleNotReemitted | src/plapperkasten/plapperkasten.py:534-536 | `busy` and `idle` only drive the counter and are never re-emitted; with a param `self` their handler raises `TypeError` |
| Supervisor.EmptyEventDropped | src/plapperkasten/plapperkasten.py:523-526 | the empty event, an unmapped key among them, changes nothing |
| Supervisor.Run | src/plapperkasten/plapperkasten.py:92-102 | the loop stops only once the terminate flag is set, takes events from the front of the queue, and never clears the shutdown flag |
| Supervisor.BusyIdleRound | src/plapperkasten/plapperkasten.py:542-572 | from zero, `n` busy reports emit one `busy` and `n` idle reports one `idle`, ending at zero |
| Supervisor.ShutdownNeedsBothFlags | src/plapperkasten/plapperkasten.py:414-456 | after an interrupt alone `shutdown` does nothing; after `on_shutdown` it powers off unless debugging |
| Worker.Init | src/plapperkasten/plugin.py:51-58 | a new plugin is idle, not terminating, ticks every second and wants no events |
| Worker.SendToMain | src/plapperkasten/plugin.py:115-127 | a param `name` or `self` raises `TypeError` and a closed queue `ValueError`; a queue with room gets the event at its end; a full one drops it |
| Worker.Signal | src/plapperkasten/plugin.py:129-139 | the flag becomes the wanted one, and a message goes out exactly when it changes |
| Worker.SendBusy | src/plapperkasten/plugin.py:129-139 | no change sends nothing; a change sends `busy` or `idle` and flips the flag, even when a full queue drops the message; only a closed queue fails |
| Worker.BusyIdleAlternate | src/plapperkasten/plugin.py:129-139 | whatever calls a fresh plugin makes, the messages alternate strictly starting with `busy`, and it ends busy exactly after an odd number of them |
| Worker.DroppedBusyStillFlips | src/plapperkasten/plugin.py:129-133 | a `busy` lost to a full queue still flips the flag, so the next `send_busy` sends nothing |
| Worker.RegisterFor | src/plapperkasten/plugin.py:149-156 | the name goes at the end of the wanted list, with no check for a duplicate, and nothing else changes |
| Worker.GetRegisteredEvents | src/plapperkasten/plugin.py:158-165 | the wanted names, in the order registered; `Worker.RegisteredInOrder` states it over many calls |
| Worker.RegisteredInOrder | src/plapperkasten/plugin.py:149-165 | a fresh plugin reports exactly the names it registered, in order, repetitions kept |
| Worker.OnTerminate | src/plapperkasten/plugin.py:85-94 | only the terminate flag is set |
| Worker.OnInterrupt | src/plapperkasten/plugin.py:104-113 | only the terminate flag is set |
| Worker.Handlers | src/plapperkasten/plugin.py:188-190 | the subclass's handlers plus the inherited `on_terminate` |
| Worker.Step | src/plapperkasten/plugin.py:185-197 | a timeout, a closed queue or an event without handler changes nothing; a handler's `ValueError` is swallowed and other errors escape |
| Worker.Run | src/plapperkasten/plugin.py:183-197 | a terminating plugin does nothing; the loop consumes from the front and stops early only when terminating |
| Worker.TerminateStopsLoop | src/plapperkasten/plugin.py:85-94 | a `terminate` event stops the loop right after it, unless the subclass overrides `on_terminate` |
| Worker.NothingReceivedContinues | src/plapperkasten/plugin.py:183-197 | a timeout, a closed queue or an unhandled event only costs a tick |
| Config.Merge | src/plapperkasten/config.py:123-157 | the merge holds the keys of both dictionaries |
| Config.MergeEmpty | src/plapperkasten/config.py:114-115 | merging into an empty dictionary gives the merged-in one |
| Config.MergeOverrides | src/plapperkasten/config.py:142-151 | a value `b` holds at the end of a path wins the merge |
| Config.MergeKeeps | src/plapperkasten/config.py:142-156 | where `b` is silent on a path, the merge reads what `a` holds |
| Config.Walk | src/plapperkasten/config.py:159-189 | a path of one key raises `ValueError`; otherwise the walk succeeds exactly when no step of the branch part is a leaf, a leaf as the last branch included (which the source returns, see "## Left out") |
| Config.WalkFinds | src/plapperkasten/config.py:159-189 | the last branch holds the last key exactly when the path leads to a node, and holds that node |
| Config.WalkPuts | src/plapperkasten/config.py:343-345 | writing through the last branch stores the value at the path |
| Config.LookupOpen | src/plapperkasten/config.py:172-185 | a path that leads to a node can be walked |
| Config.Consolidate | src/plapperkasten/config.py:102-121 | the active tree is the defaults, then the user's settings, then the input, merged in that order; it is up to date afterwards |
| Config.LayerOrder | src/plapperkasten/config.py:102-121 | a value from the input wins, then one from the user's file, then the default |
| Config.LoadInto | src/plapperkasten/config.py:72-100 | the parsed file is merged into its layer only, and the active tree is out of date |
| Config.Get | src/plapperkasten/config.py:191-232 | a path of at most two keys raises `ValueError`; a bad default's error always escapes; a stored value is converted, and the default is used when it is missing or raises `ValueError` |
| Config.Set | src/plapperkasten/config.py:312-346 | a path of at most two keys raises `ValueError`; otherwise the converted value is at the path in the target layer only, and the active tree is out of date |
| Config.SetKeepsOtherPaths | src/plapperkasten/config.py:312-346 | every path of the target layer that parts from the written path reads as it did before |
| Config.WalkPutKeeps | src/plapperkasten/config.py:159-189 | writing through the last branch leaves every path that parts from the walked one as it was |
| Config.FreshGetDefault | tests/test_config.py:23-32 | an empty configuration reads the converted default anywhere |
| Config.SetThenGet | tests/test_config.py:34-37 | a value that is set reads back when no higher layer holds one on that path |
| Config.ConvertList | src/plapperkasten/config.py:450-466 | each item is converted in order; the first exception stops it, with `TypeError` surfacing as `ValueError`; a non-iterable value raises `ValueError` (the source iterates its argument, so a string or a dict is converted item by item) |
| Config.ConvertItems | src/plapperkasten/config.py:462-466 | the conversion succeeds exactly itemwise, and fails with the surfaced error of some item |
| Config.ConvertDict | src/plapperkasten/config.py:468-489 | a value that is not a dictionary raises `AttributeError`, which `_get` does not turn into the default; a dictionary converts exactly when every key and value does, a failure is the first bad item's exception, and on success the keys are exactly the converted keys |
| Config.ConvertEntries | src/plapperkasten/config.py:483-486 | on success every key and value converted, the keys are exactly the converted keys, and the last item's key holds its value |
| Config.ConvertDictOk | src/plapperkasten/config.py:468-489 | the conversion succeeds exactly when every key and every value converts |
| Config.ConvertDictFirstFault | src/plapperkasten/config.py:468-489 | a failure lets out the exception of the first item that does not convert, its key's before its value's, with `TypeError` surfacing as `ValueError` |
| Config.ConvertDictLastWins | src/plapperkasten/config.py:468-489 | each converted key holds the value of the last item whose key converts to it |
| Volume.Direction | src/plapperkasten/plugins/volumealsa/volumealsa.py:176-206 | only `+` and `-` are directions, and `+` means up |
| Volume.ClampMax | src/plapperkasten/plugins/volumealsa/volumealsa.py:95-108 | the new maximum is forced into 0..100 and kept when it is already there |
| Volume.SetLevel | src/plapperkasten/plugins/volumealsa/volumealsa.py:154-174 | the volume is set absolutely, clamped into 0..max |
| Volume.ChangeLevel | src/plapperkasten/plugins/volumealsa/volumealsa.py:176-206 | the mixer ends at the step, saturated at 0 going down and at the maximum going up; the step is relative unless it hits a bound |
| Volume.SetVolume | src/plapperkasten/plugins/volumealsa/volumealsa.py:154-174 | sets the clamped level and records the reading taken afterwards |
| Volume.SetMaxVolume | src/plapperkasten/plugins/volumealsa/volumealsa.py:95-108 | stores the clamped maximum, and lowers the volume to it exactly when the last reading is above it |
| Volume.ChangeVolume | src/plapperkasten/plugins/volumealsa/volumealsa.py:176-206 | an unknown direction does nothing; a missing step is the configured one |
| Volume.ChangeStaysInRange | src/plapperkasten/plugins/volumealsa/volumealsa.py:176-206 | a change never leaves the mixer outside 0..max |
| Volume.MaxRequestAsWritten | src/plapperkasten/plugins/volumealsa/volumealsa.py:87-93 | the source's reading of the value: `IndexError` exactly when there is none, otherwise the parse of the first value |
| Volume.VolumeMaxWithoutValueCrashes | src/plapperkasten/plugins/volumealsa/volumealsa.py:87-93 | `volume_max` without a value raises `IndexError`, which the handler does not catch |
| Volume.MaxRequest | src/plapperkasten/plugins/volumealsa/volumealsa.py:87-93 | a request is made exactly when there is a value that parses; it agrees with the source wherever the source does not raise |
| Volume.OnVolumeMax | src/plapperkasten/plugins/volumealsa/volumealsa.py:77-93 | with the corrected request parse: a parsed value becomes the new maximum; without one nothing happens |
| SoundAlsa.Init | src/plapperkasten/plugins/soundalsa/soundalsa.py:34-71 | the current profile starts as the default, and the volume starts at 0 |
| SoundAlsa.GetControlAsWritten | src/plapperkasten/plugins/soundalsa/soundalsa.py:162-171 | the source's lookup: the card's control when it has one, `KeyError` otherwise |
| SoundAlsa.UnmappedCardRaises | src/plapperkasten/plugins/soundalsa/soundalsa.py:162-171 | a card without a configured control raises `KeyError` instead of falling back to `Master` |
| SoundAlsa.GetControl | src/plapperkasten/plugins/soundalsa/soundalsa.py:162-171 | the card's control, or `Master`; it agrees with the source wherever the source does not raise |
| SoundAlsa.SetVolume | src/plapperkasten/plugins/soundalsa/soundalsa.py:192-213 | the shared rule, on the control the corrected lookup gives |
| SoundAlsa.SetMaxVolume | src/plapperkasten/plugins/soundalsa/soundalsa.py:122-135 | the shared rule, each call on the control the corrected lookup gives |
| SoundAlsa.ChangeVolume | src/plapperkasten/plugins/soundalsa/soundalsa.py:215-248 | the shared rule on the control the corrected lookup gives, and `feedback` is sent after a valid change |
| SoundAlsa.ToggleProfile | src/plapperkasten/plugins/soundalsa/soundalsa.py:266-280 | the default profile when asked for the current or the default one, the asked-for profile otherwise; the state is kept |
| SoundAlsa.OnToggleProfile | src/plapperkasten/plugins/soundalsa/soundalsa.py:250-264 | toggles the first value; without a value nothing happens |
| SoundAlsa.ToggleNeverSwitchesBack | src/plapperkasten/plugins/soundalsa/soundalsa.py:266-280 | the current profile is never updated, so toggling another profile activates it every time and never switches back |
| SoundPwwp.Init | src/plapperkasten/plugins/soundpwwp/soundpwwp.py:32-59 | only the `default` sink is known, and it is the current one |
| SoundPwwp.SetVolume | src/plapperkasten/plugins/soundpwwp/soundpwwp.py:171-193 | the clamped level is set, and the reading goes to the mixer's current volume |
| SoundPwwp.SetMaxVolumeAsWritten | src/plapperkasten/plugins/soundpwwp/soundpwwp.py:112-125 | the source's `set_max_volume`: the maximum is clamped and stored, and a command goes out exactly when the never-updated `_current_volume` is above it |
| SoundPwwp.MaxNeverLowersVolume | src/plapperkasten/plugins/soundpwwp/soundpwwp.py:112-125 | lowering the maximum below the volume the mixer is at issues no command |
| SoundPwwp.SetMaxVolume | src/plapperkasten/plugins/soundpwwp/soundpwwp.py:112-125 | corrected `set_max_volume`: it compares with the last reading, so the volume is lowered exactly when that reading is above the new maximum |
| SoundPwwp.ChangeVolume | src/plapperkasten/plugins/soundpwwp/soundpwwp.py:195-228 | the shared rule, and `beep` is sent after a valid change |
| SoundPwwp.ToggleSink | src/plapperkasten/plugins/soundpwwp/soundpwwp.py:246-270 | an unknown sink does nothing; the current sink toggles to the default sink, whose missing id raises `KeyError`; another sink is selected |
| SoundPwwp.OnToggleSink | src/plapperkasten/plugins/soundpwwp/soundpwwp.py:230-244 | toggles the first value; without a value nothing happens |
| SoundPwwp.ToggleTwiceReturns | src/plapperkasten/plugins/soundpwwp/soundpwwp.py:246-270 | toggling a sink twice selects it and then goes back to the default sink |
| AutoShutdown.Init | src/plapperkasten/plugins/autoshutdown/autoshutdown.py:22-38 | the countdown starts at the full idle time, not idle |
| AutoShutdown.OnIdle | src/plapperkasten/plugins/autoshutdown/autoshutdown.py:40-48 | the countdown starts running from where it is, and is not reset |
| AutoShutdown.OnBusy | src/plapperkasten/plugins/autoshutdown/autoshutdown.py:51-60 | the countdown stops and goes back to the full idle time |
| AutoShutdown.OnTick | src/plapperkasten/plugins/autoshutdown/autoshutdown.py:62-71 | while idle the countdown drops by the tick, and `shutdown` is sent whenever it is at or below zero |
| AutoShutdown.IdleCountdown | src/plapperkasten/plugins/autoshutdown/autoshutdown.py:40-71 | once idle at `t`, `n` ticks leave `t - n` and send `shutdown` once per tick from the `t`-th on |
| AutoShutdown.TicksWhileBusy | src/plapperkasten/plugins/autoshutdown/autoshutdown.py:62-71 | ticks while not idle do nothing |
| AutoShutdown.BusyStopsCountdown | src/plapperkasten/plugins/autoshutdown/autoshutdown.py:51-71 | after `busy` no tick sends anything |
| InputDev.Init | src/plapperkasten/plugins/inputdevinputevent/inputdevinputevent.py:46-61 | every device starts with an empty buffer |
| InputDev.OnKey | src/plapperkasten/plugins/inputdevinputevent/inputdevinputevent.py:69-78 | only key presses count; ENTER sends a non-empty buffer as `raw` and empties it; another key appends its character; a code beyond the layout raises `IndexError` |
| InputDev.OtherDevicesUntouched | src/plapperkasten/plugins/inputdevinputevent/inputdevinputevent.py:66-78 | one device's events change only its own buffer |
| InputDev.TypingAppends | src/plapperkasten/plugins/inputdevinputevent/inputdevinputevent.py:76-78 | typing printable keys appends their characters and sends nothing |
| InputDev.OnEventsSplit | src/plapperkasten/plugins/inputdevinputevent/inputdevinputevent.py:69-78 | events are processed one after another, from where the previous ones left the buffers; an exception among the first ones ends the tick, keeping what they sent |
| InputDev.SentBeforeFault | src/plapperkasten/plugins/inputdevinputevent/inputdevinputevent.py:69-78 | typing `a`, ENTER and then a code beyond the layout sends `raw` with `a` and then raises `IndexError` |
| InputDev.OnEvents | src/plapperkasten/plugins/inputdevinputevent/inputdevinputevent.py:66-78 | one device's events in order; an exception ends the tick there and what was sent before it stays sent (`InputDev.OnEventsSplit`, `InputDev.SentBeforeFault`) |
| InputDev.TypeThenEnter | src/plapperkasten/plugins/inputdevinputevent/inputdevinputevent.py:69-78 | typing some keys and pressing ENTER sends exactly one `raw` event with what was typed, and empties the buffer |

## Left out

- File, subprocess and network I/O are left out. `amixer`, `wpctl`, `pw-dump` output parsing, `query_volume`, `query_sinks` and `query_current_sink` are not modelled: their answers are parameters (the readings and the sink `wpctl` reports).
- `activate_profile` and its handling of the `~/.asoundrc` symlink are not modelled. A toggle returns the profile it would activate.
- Plugin discovery and loading, process start and join, signal installation, the logging processes, `main` and the command line are not modelled, because they are process management. `mpdclient.py` is not part of this model: it is a network client.
- The YAML parsing in `load_from_path` is not modelled, and neither are its `FileNotFoundError` and `YAMLError` paths. `LoadInto` takes the parsed tree.
- Config.Merge: the model's merge is a new value. The source merges in place and copies only the top level of what it takes from `b`, so later writes can alias lower layers. That aliasing is not modelled.
- Config.Walk and Config.Get: when the last branch on the path is a leaf, the model raises `TypeError`. The source's `_get_last_branch` returns that leaf (config.py:181-185), and `_get` applies `in` to it, which may answer for a string or list instead of raising; a `False` answer gives the default.
- Config.Set: with a leaf as the last branch, the model reports `TypeError`. The source converts the value before the item assignment fails (config.py:345), so a conversion that raises lets its own exception out first.
- Config.Set: when the conversion raises after the walk created missing branches, the model returns the error without those new empty branches.
- Worker.Step: a handler that changes the plugin and then raises is modelled as returning only the error, so the partial change is not carried.
- Worker.Handlers: the inherited methods other than `on_terminate` are not in the handler table. So an event named `tick`, `init` or `interrupt` is treated as having no handler.
- Boxhead.Step: the blocking `put` of the prototype is treated as always succeeding, so a full live queue never blocks.
- InputDev.OnKey: the key name comes from evdev's code table. Only `KEY_ENTER` (code 28) is distinguished, and a code evdev does not know (which raises `KeyError` in the source) is treated like any other key.
- EventMap.UpdateEventThenGet: it describes the corrected `update`, which ends an unterminated last line before appending. On a user map without a final newline the source glues the new line onto the last one and the key does not read back (see `MapFile.AppendGluesToLastLine`). On a user map ending in a newline the two agree (`MapFile.UpdateTextAgrees`).
- EventMap.EmptyNameMapsToNoOp: it describes the corrected `update`. On a user map without a final newline the source glues the new line onto the last one, and the key then reads back from the built-in map or as `Event('')`.
- StatusMap.UpdateStatusThenGet: it describes the corrected `update`. On a status file without a final newline the source glues the new line onto the last one and the status does not read back.
- KeyMap.UpdateThenLoad: it states the round trip for params that bind. A param called `self`, `path`, `mapkey` or `key` makes `update` raise `TypeError` instead, as `KeyMap.Update` states.
- MapFile.TextUpdateThenLoad: it states the round trip for params that bind, like `KeyMap.UpdateThenLoad`.
- EventMap.UpdateEvent: with an empty event name and a param called `path` or `mapkey`, the source has already removed the key's line when `update` raises `TypeError`. The model's error does not carry that removal.
- EventMap.UpdateEventThenGet: it requires params that bind. With a param called `self`, `key`, `event_name`, `path` or `mapkey` the call raises `TypeError`, as `EventMap.UpdateEvent` states.
- EventMap.EmptyNameMapsToNoOp: it requires params that bind, like `EventMap.UpdateEventThenGet`.
- EventMap.UpdateEvent and StatusMap.UpdateStatus are built on the corrected `MapFile.UpdateText`, not on `MapFile.UpdateTextAsWritten`.
- Volume.OnVolumeMax: it is built on the corrected `Volume.MaxRequest`. So without a value nothing happens, where the source raises `IndexError` at volumealsa.py:88 and ends the plugin loop (`Volume.VolumeMaxWithoutValueCrashes`).
- SoundAlsa.SetVolume: it is built on the corrected `SoundAlsa.GetControl`. So an unmapped card falls back to `Master`, where the source raises `KeyError` at soundalsa.py:169 (`SoundAlsa.UnmappedCardRaises`).
- SoundAlsa.SetMaxVolume: it uses the corrected control lookup, with the same `KeyError` difference for an unmapped card.
- SoundAlsa.ChangeVolume: it uses the corrected control lookup, with the same `KeyError` difference for an unmapped card.
- The delimiter is modelled as one character. The source reads it from the configuration as a string of any length. With a longer delimiter, the test `line[:key_length + 1] == mapkey + delimiter` of `update` (keymap.py:192) never matches, so `update` and `remove` never find an existing line; the model does not cover that case.
- Map files are modelled as split at `\n` only. Python opens them in text mode with universal newlines, so `\r` and `\r\n` also end a line and are read back as `\n`. The model covers files with LF line ends only.
- Supervisor.Run: the source enters the main loop only when at least one plugin is loaded (plapperkasten.py:92). With no plugins it goes straight to shutdown; the model always runs the loop.
- Timeouts and the tick interval are left out. A timeout is a `TimedOut` receive, and `on_tick` is a parameter of the plugin loop.
- Integer widths are not modelled. Volumes, counters and countdowns are unbounded integers, as in Python.

## Findings

| source | as written | input that shows it | evidently intended | confidence | as-written member | corrected member |
|---|---|---|---|---|---|---|
| src/plapperkasten/keymap.py:208-210 | a new entry is appended to the lines as read, and the last line may lack its newline | a map file `a\|x` with no final newline; `update(path, 'b', 'y')` writes `a\|xb\|y`, and a reload finds no `b` | the new entry starts a line of its own | high (not executed) | MapFile.AppendGluesToLastLine | MapFile.TextUpdateThenLoad |
| src/plapperkasten/plugins/volumealsa/volumealsa.py:87-93 | `values[0]` is read inside `try ... except KeyError` | an event `volume_max` with no values raises `IndexError`, which ends the plugin's loop | a missing value is logged like an unparsable one | high (not executed) | Volume.VolumeMaxWithoutValueCrashes | Volume.MaxRequest |
| src/plapperkasten/plugins/soundalsa/soundalsa.py:168-171 | the control is looked up in a dictionary inside `try ... except IndexError` | a card with no entry in the controls raises `KeyError` on every volume call | fall back to the `Master` control | high (not executed) | SoundAlsa.UnmappedCardRaises | SoundAlsa.GetControl |
| src/plapperkasten/plugins/soundpwwp/soundpwwp.py:124-125 | `set_max_volume` compares with `_current_volume`, which only `on_init` writes (to 0) | volume at 80 after `change_volume`; `set_max_volume(50)` issues no command and the volume stays at 80 | compare with `_volume_current`, the last reading | high (not executed) | SoundPwwp.MaxNeverLowersVolume | SoundPwwp.SetMaxVolume |

=== FILE: autoshutdown.dfy ===
/**
 * The autoshutdown plugin: a countdown that runs while the supervisor
 * reports everything idle and asks for a shutdown once it has run out.
 */
module AutoShutdown {

  /** The configured idle time, the remaining countdown, whether everything is idle, and the tick interval. */
  datatype Countdown = Countdown(idleTime: int, countdown: int, idle: bool, tick: int)

  /** `on_init`: the full idle time, not idle, a receive timeout of one second. */
  function Init(idleTime: int): (r: Countdown)
    ensures r.countdown == r.idleTime == idleTime && !r.idle && r.tick == 1
  {
    Countdown(idleTime, idleTime, false, 1)
  }

  /** `on_idle`: the countdown starts running from where it is; it is not reset. */
  function OnIdle(c: Countdown): (r: Countdown)
    ensures r.idle && r.(idle := c.idle) == c
  {
    c.(idle := true)
  }

  /** `on_busy`: stops the countdown and puts it back to the full idle time. */
  function OnBusy(c: Countdown): (r: Countdown)
    ensures !r.idle && r.countdown == c.idleTime && r.(idle := c.idle, countdown := c.countdown) == c
  {
    c.(idle := false, countdown := c.idleTime)
  }

  /**
   * `on_tick`: nothing unless idle; then the countdown drops by the tick
   * interval and `shutdown` is sent whenever it is at or below zero, on
   * this tick and every later one.
   */
  function OnTick(c: Countdown): (r: (Countdown, seq<string>))
    ensures !c.idle ==> r == (c, [])
    ensures c.idle ==> r.0 == c.(countdown := c.countdown - c.tick)
    ensures c.idle ==> r.1 == (if c.countdown - c.tick <= 0 then ["shutdown"] else [])
  {
    if !c.idle then (c, [])
    else
      var c := c.(countdown := c.countdown - c.tick);
      (c, if c.countdown <= 0 then ["shutdown"] else [])
  }

  /** `n` ticks in a row: the final state and how many `shutdown` messages were sent. */
  function Ticks(c: Countdown, n: nat): (Countdown, nat)
    decreases n
  {
    if n == 0 then (c, 0)
    else
      var (c1, sent) := OnTick(c);
      var (c2, k) := Ticks(c1, n - 1);
      (c2, |sent| + k)
  }

  lemma {:induction false} TicksWhileIdle(c: Countdown, n: nat)
    requires c.idle && c.tick == 1
    ensures Ticks(c, n).0 == c.(countdown := c.countdown - n)
    ensures Ticks(c, n).1 == if n > c.countdown - 1 then n - (if c.countdown > 1 then c.countdown - 1 else 0) else 0
    decreases n
  {
    if n > 0 {
      var (c1, sent) := OnTick(c);
      TicksWhileIdle(c1, n - 1);
    }
  }

  /**
   * Once idle with the countdown at `t`, `n` ticks (iterations of the
   * plugin loop, which also tick after every event received) leave it at
   * `t - n` and send `shutdown` once for every tick from the `t`-th on
   * (from the first when `t` is at most 1).
   */
  lemma IdleCountdown(c: Countdown, n: nat)
    requires c.tick == 1
    ensures var (c', sent) := Ticks(OnIdle(c), n);
            && c'.countdown == c.countdown - n
            && sent == (if n >= c.countdown then n - (if c.countdown > 1 then c.countdown - 1 else 0) else 0)
  {
    TicksWhileIdle(OnIdle(c), n);
  }

  lemma {:induction false} TicksWhileBusy(c: Countdown, n: nat)
    requires !c.idle
    ensures Ticks(c, n) == (c, 0)
    decreases n
  {
    if n > 0 {
      TicksWhileBusy(c, n - 1);
    }
  }

  /** After `busy` no tick sends anything and the countdown stays at the full idle time. */
  lemma BusyStopsCountdown(c: Countdown, n: nat)
    ensures Ticks(OnBusy(c), n) == (OnBusy(c), 0)
    ensures OnBusy(c).countdown == c.idleTime
  {
    TicksWhileBusy(OnBusy(c), n);
  }
}

=== FILE: boxhead.dfy ===
/**
 * The boxhead prototype's supervisor, which keeps the same subscription
 * table as plapperkasten (see `Registry`) but whose `emit` only takes an
 * event name: the name itself is put on each subscriber's queue, with a
 * blocking `put`, so a full queue is never reported.
 */
module Boxhead {
  import opened Registry

  /**
   * One turn of boxhead's `emit` loop: a missing queue (`KeyError`) or a
   * closed one (`ValueError`) is healed, any other queue gets the name.
   */
  function Step(h: Hub<string>, who: string, ev: string): (r: Hub<string>)
    ensures r.table.Keys == h.table.Keys
    ensures forall k :: k in h.table ==> |r.table[k]| <= |h.table[k]|
    ensures r.queues.Keys <= h.queues.Keys
  {
    if who !in h.queues then Heal(h, who)
    else match h.queues[who]
      case Closed => Heal(h, who)
      case Live(items, capacity) => h.(queues := h.queues[who := Live(items + [ev], capacity)])
  }

  /** The loop over the live subscriber list from position `i` on. */
  function EmitFrom(h: Hub<string>, ev: string, i: nat): (r: Hub<string>)
    requires ev in h.table
    ensures r.table.Keys == h.table.Keys && r.queues.Keys <= h.queues.Keys
    decreases |h.table[ev]| - i
  {
    if i >= |h.table[ev]| then h
    else EmitFrom(Step(h, h.table[ev][i], ev), ev, i + 1)
  }

  /** boxhead's `emit(event)`: creates the event's list if needed, then walks it. */
  function Emit(h: Hub<string>, ev: string): (r: Hub<string>)
    ensures r.table.Keys == h.table.Keys + {ev} && r.queues.Keys <= h.queues.Keys
    ensures Touch(h.table, ev)[ev] == [] ==> r == Hub(Touch(h.table, ev), h.queues)
  {
    var h := h.(table := Touch(h.table, ev));
    if |h.table[ev]| == 0 then h
    else EmitFrom(h, ev, 0)
  }

  /** What one turn does: a live queue gets the name, a missing or closed one is healed, no other queue changes. */
  lemma StepOutcome(h: Hub<string>, who: string, ev: string)
    ensures var r := Step(h, who, ev);
            && (forall w :: w != who && w in h.queues ==> w in r.queues && r.queues[w] == h.queues[w])
            && (who !in h.queues || h.queues[who].Closed? ==> r == Heal(h, who))
            && (who in h.queues && h.queues[who].Live? ==> r == Hub(h.table, h.queues[who := Append(h.queues[who], ev)]))
  {
  }

  lemma {:induction false} EmitFromDelivers(h0: Hub<string>, h: Hub<string>, ev: string, i: nat)
    requires ev in h0.table && h.table == h0.table && i <= |h0.table[ev]|
    requires NoDup(h0.table[ev])
    requires forall w :: w in h0.table[ev] ==> w in h0.queues && h0.queues[w].Live?
    requires h.queues == Broadcast(h0.queues, h0.table[ev][..i], ev)
    ensures EmitFrom(h, ev, i) == Hub(h0.table, Broadcast(h0.queues, h0.table[ev], ev))
    decreases |h0.table[ev]| - i
  {
    var subs := h0.table[ev];
    if i == |subs| {
      assert subs[..i] == subs;
    } else {
      var who := subs[i];
      NoDupFresh(subs, i);
      var h1 := Hub(h.table, h.queues[who := Append(h.queues[who], ev)]);
      assert Step(h, who, ev) == h1;
      assert subs[..i + 1] == subs[..i] + [who];
      BroadcastSnoc(h0.queues, subs[..i], who, ev);
      EmitFromDelivers(h0, h1, ev, i + 1);
    }
  }

  /**
   * When every subscriber has a live queue, each gets the event name exactly
   * once at the end of its queue and no other queue changes.
   */
  lemma EmitDelivers(h: Hub<string>, ev: string)
    requires NoDup(Touch(h.table, ev)[ev])
    requires forall w :: w in Touch(h.table, ev)[ev] ==> w in h.queues && h.queues[w].Live?
    ensures Emit(h, ev) == Hub(Touch(h.table, ev), Broadcast(h.queues, Touch(h.table, ev)[ev], ev))
  {
    var t := Touch(h.table, ev);
    var h0 := Hub(t, h.queues);
    assert t[ev][..0] == [];
    assert h.queues == Broadcast(h.queues, [], ev);
    if |t[ev]| > 0 {
      EmitFromDelivers(h0, h0, ev, 0);
    }
  }

  /** boxhead's `on_interrupt`: `terminate` goes to the plugins and the terminate flag is set. */
  function OnInterrupt(h: Hub<string>): (r: (Hub<string>, bool))
    ensures r.1
    ensures r.0.table.Keys == h.table.Keys + {"terminate"} && r.0.queues.Keys <= h.queues.Keys
  {
    (Emit(h, "terminate"), true)
  }

  /**
   * When every plugin subscribed to `terminate` has a live queue, each of
   * them finds `terminate` at the end of its queue and no other queue changes.
   */
  lemma OnInterruptDelivers(h: Hub<string>)
    requires NoDup(Touch(h.table, "terminate")["terminate"])
    requires forall w :: w in Touch(h.table, "terminate")["terminate"] ==> w in h.queues && h.queues[w].Live?
    ensures var subs := Touch(h.table, "terminate")["terminate"];
            OnInterrupt(h) == (Hub(Touch(h.table, "terminate"), Broadcast(h.queues, subs, "terminate")), true)
  {
    EmitDelivers(h, "terminate");
  }
}

=== FILE: config.dfy ===
/**
 * plapperkasten's configuration (`Config` in config.py): three layers of
 * nested dictionaries (built-in defaults, the user's file, command-line
 * input) merged into an active tree, read and written by paths of keys
 * with a conversion applied on the way.
 */
module Config {
  import opened Wrappers

  /** A leaf of the parsed configuration. */
  datatype Value = Str(s: string) | Int(i: int) | Bool(b: bool) | Items(items: seq<Value>)

  /** A dictionary (`Branch`) or anything else (`Leaf`). */
  datatype Node = Branch(children: map<string, Node>) | Leaf(value: Value)

  /** A dictionary of the configuration. */
  type Tree = map<string, Node>

  /** A conversion such as `int` or `str`: a value or the exception it raises. */
  type Convert = Node -> Result<Node>

  /**
   * `merge_dicts(a, b)`: every key of `b` goes into `a`; where both sides
   * hold a dictionary they are merged recursively, otherwise `b`'s value
   * replaces `a`'s. Keys only in `a` stay.
   */
  function Merge(a: Tree, b: Tree): (r: Tree)
    ensures r.Keys == a.Keys + b.Keys
    decreases Branch(b)
  {
    map k | k in a.Keys + b.Keys ::
      if k !in b then a[k]
      else if k in a && a[k].Branch? && b[k].Branch? then Branch(Merge(a[k].children, b[k].children))
      else b[k]
  }

  /** The node at the end of `p`, if every earlier step is a dictionary holding the next key. */
  function Lookup(t: Tree, p: seq<string>): Option<Node>
    decreases |p|
  {
    if |p| == 0 || p[0] !in t then None
    else if |p| == 1 then Some(t[p[0]])
    else if t[p[0]].Leaf? then None
    else Lookup(t[p[0]].children, p[1..])
  }

  /** No step of `p` reaches anything in `t`: it holds no value there and no leaf on the way. */
  predicate Absent(t: Tree, p: seq<string>)
    decreases |p|
  {
    |p| == 0 || p[0] !in t || (|p| > 1 && t[p[0]].Branch? && Absent(t[p[0]].children, p[1..]))
  }

  /** Every step of the path `p` that exists in `t` is a dictionary, so it can be walked. */
  predicate Open(t: Tree, p: seq<string>)
    decreases |p|
  {
    |p| == 0 || p[0] !in t || (t[p[0]].Branch? && Open(t[p[0]].children, p[1..]))
  }

  /**
   * `_get_last_branch(*path, config_part=t)`, with `f` applied to the last
   * branch (the caller's writes through the returned dictionary). Missing
   * branches on the way are created empty; a path of one key raises
   * `ValueError`, and stepping into a leaf is modelled as `TypeError`.
   * Returns the new tree and the last branch as it was found.
   */
  function Walk(t: Tree, path: seq<string>, f: Tree -> Tree): (r: Result<(Tree, Tree)>)
    ensures |path| < 2 ==> r == Err(ValueError)
    ensures |path| >= 2 ==> (r.Ok? <==> Open(t, path[..|path| - 1]))
    ensures r.Err? ==> r.fault == (if |path| < 2 then ValueError else TypeError)
    decreases |path|
  {
    if |path| < 2 then Err(ValueError)
    else
      var child := if path[0] in t then t[path[0]] else Branch(map[]);
      if child.Leaf? then
        assert path[..|path| - 1][0] == path[0];
        Err(TypeError)
      else if |path| == 2 then Ok((t[path[0] := Branch(f(child.children))], child.children))
      else
        assert path[..|path| - 1][0] == path[0] && path[..|path| - 1][1..] == path[1..][..|path| - 2];
        match Walk(child.children, path[1..], f)
        case Err(e) => Err(e)
        case Ok((sub, last)) => Ok((t[path[0] := Branch(sub)], last))
  }

  /** The layers `_set` can write to. */
  datatype Layer = Default | User | Input

  /** The three source layers, the active tree and whether it is up to date. */
  datatype Config = Config(default: Tree, user: Tree, input: Tree, active: Tree, consolidated: bool)

  /** A new `Config` before anything is loaded: all dictionaries empty, nothing to consolidate. */
  const Fresh: Config := Config(map[], map[], map[], map[], true)

  function LayerOf(c: Config, target: Layer): Tree {
    match target
    case Default => c.default
    case User => c.user
    case Input => c.input
  }

  function WithLayer(c: Config, target: Layer, t: Tree): Config {
    match target
    case Default => c.(default := t)
    case User => c.(user := t)
    case Input => c.(input := t)
  }

  /** `consolidate_config`: an empty tree, then the defaults, then the user's settings, then the input merged on top. */
  function Consolidate(c: Config): (r: Config)
    ensures r.consolidated && r.(active := c.active, consolidated := c.consolidated) == c
    ensures r.active == Merge(Merge(c.default, c.user), c.input)
  {
    MergeEmpty(c.default);
    c.(active := Merge(Merge(Merge(map[], c.default), c.user), c.input), consolidated := true)
  }

  /** The tree `_get` reads: consolidated first when it is out of date. */
  function Active(c: Config): Tree {
    if c.consolidated then c.active else Consolidate(c).active
  }

  /** `load_from_path` once the file is parsed: merged into its layer; the active tree is then out of date. */
  function LoadInto(c: Config, target: Layer, parsed: Tree): (r: Config)
    ensures !r.consolidated && r.active == c.active
    ensures LayerOf(r, target) == Merge(LayerOf(c, target), parsed)
    ensures forall l :: l != target ==> LayerOf(r, l) == LayerOf(c, l)
  {
    var merged := Merge(LayerOf(c, target), parsed);
    match target
    case Default => c.(default := merged, consolidated := false)
    case User => c.(user := merged, consolidated := false)
    case Input => c.(input := merged, consolidated := false)
  }

  /**
   * `_get(*path, default=d, convert=convert)`: a path of at most two keys
   * raises `ValueError`. Otherwise the active tree is consolidated if
   * needed and walked, then the default is converted (its error escapes
   * even when a value is stored); a stored value is converted, and falls
   * back to the converted default when that raises `ValueError`. Returns
   * the value and the configuration afterwards.
   */
  function Get(c: Config, path: seq<string>, d: Node, convert: Convert): (r: Result<(Node, Config)>)
    ensures |path| <= 2 ==> r == Err(ValueError)
    ensures |path| > 2 && !Open(Active(c), path[..|path| - 1]) ==> r == Err(TypeError)
    ensures |path| > 2 && Open(Active(c), path[..|path| - 1]) ==>
              var found := Lookup(Active(c), path);
              if convert(d).Err? then r == Err(convert(d).fault)
              else if found.None? then r.Ok? && r.value.0 == convert(d).value
              else if convert(found.value).Ok? then r.Ok? && r.value.0 == convert(found.value).value
              else if convert(found.value).fault == ValueError then r.Ok? && r.value.0 == convert(d).value
              else r == Err(convert(found.value).fault)
    ensures r.Ok? ==> r.value.1.consolidated
  {
    if |path| <= 2 then Err(ValueError)
    else
      var c := if c.consolidated then c else Consolidate(c);
      match Walk(c.active, path, b => b)
      case Err(e) => Err(e)
      case Ok((active, last)) =>
        WalkFinds(c.active, path, b => b);
        var c := c.(active := active);
        match convert(d)
        case Err(e) => Err(e)
        case Ok(value) =>
          var k := path[|path| - 1];
          if k !in last then Ok((value, c))
          else match convert(last[k])
            case Ok(v) => Ok((v, c))
            case Err(e) => if e == ValueError then Ok((value, c)) else Err(e)
  }

  /**
   * `_set(*path, value=v, convert=convert, target=target)`: a path of at
   * most two keys raises `ValueError`; otherwise the path is walked in the
   * target layer, creating branches, the converted value is stored under
   * the last key and the active tree is marked out of date.
   */
  function Set(c: Config, path: seq<string>, v: Node, convert: Convert, target: Layer): (r: Result<Config>)
    ensures |path| <= 2 ==> r == Err(ValueError)
    ensures |path| > 2 ==>
              (r.Ok? <==> Open(LayerOf(c, target), path[..|path| - 1]) && convert(v).Ok?)
    ensures r.Ok? ==>
              && !r.value.consolidated
              && Lookup(LayerOf(r.value, target), path) == Some(convert(v).value)
              && forall l :: l != target ==> LayerOf(r.value, l) == LayerOf(c, l)
  {
    if |path| <= 2 then Err(ValueError)
    else
      var t := LayerOf(c, target);
      match Walk(t, path, b => b)
      case Err(e) => Err(e)
      case Ok(_) =>
        match convert(v)
        case Err(e) => Err(e)
        case Ok(x) => Ok(WithLayer(c, target, PutAt(t, path, x)).(consolidated := false))
  }

  /** The tree after `_set` stores `x` under the last key of `path`, through the walked branches. */
  function PutAt(t: Tree, path: seq<string>, x: Node): (r: Tree)
    requires Walk(t, path, b => b).Ok?
    ensures Lookup(r, path) == Some(x)
  {
    WalkPuts(t, path, x);
    Walk(t, path, b => b[path[|path| - 1] := x]).value.0
  }

  /** The walk reaches the last branch `Lookup` reads through: the last key is in it exactly when `Lookup` finds a node, and that node. */
  lemma {:induction false} WalkFinds(t: Tree, path: seq<string>, f: Tree -> Tree)
    requires Walk(t, path, f).Ok?
    ensures var last := Walk(t, path, f).value.1;
            var k := path[|path| - 1];
            (k in last <==> Lookup(t, path).Some?) && (k in last ==> Lookup(t, path) == Some(last[k]))
    decreases |path|
  {
    var k := path[|path| - 1];
    if |path| == 2 {
      assert path[1..] == [k];
    } else if path[0] in t {
      WalkFinds(t[path[0]].children, path[1..], f);
      assert path[1..][|path| - 2] == k;
    } else {
      WalkFinds(map[], path[1..], f);
      assert path[1..][|path| - 2] == k;
      AbsentLookup(map[], path[1..]);
    }
  }

  /** Writing through the last branch stores the value at the path. */
  lemma {:induction false} WalkPuts(t: Tree, path: seq<string>, x: Node)
    requires Walk(t, path, b => b).Ok?
    ensures var k := path[|path| - 1];
            Walk(t, path, b => b[k := x]).Ok? && Lookup(Walk(t, path, b => b[k := x]).value.0, path) == Some(x)
    decreases |path|
  {
    var k := path[|path| - 1];
    if |path| > 2 {
      var child := if path[0] in t then t[path[0]] else Branch(map[]);
      WalkPuts(child.children, path[1..], x);
      assert path[1..][|path| - 2] == k;
    }
  }

  /** Neither path is a prefix of the other: they part at some key. */
  predicate Diverge(p: seq<string>, q: seq<string>)
    decreases |p|
  {
    |p| > 0 && |q| > 0 && (p[0] != q[0] || Diverge(p[1..], q[1..]))
  }

  /** Writing through the walk leaves every path that parts from the walked one as it was. */
  lemma {:induction false} WalkPutKeeps(t: Tree, path: seq<string>, x: Node, q: seq<string>)
    requires Walk(t, path, b => b).Ok? && Diverge(path, q)
    ensures var k := path[|path| - 1];
            Walk(t, path, b => b[k := x]).Ok? && Lookup(Walk(t, path, b => b[k := x]).value.0, q) == Lookup(t, q)
    decreases |path|
  {
    var k := path[|path| - 1];
    var child := if path[0] in t then t[path[0]] else Branch(map[]);
    if path[0] == q[0] {
      if |path| == 2 {
        assert path[1..] == [k];
        assert Diverge(path[1..], q[1..]);
        assert path[1..][0] == k;
        assert |path[1..][1..]| == 0;
        assert !Diverge(path[1..][1..], q[1..][1..]);
        assert q[1..][0] != k;
        LookupUpdateOther(child.children, k, x, q[1..]);
      } else {
        WalkPutKeeps(child.children, path[1..], x, q[1..]);
        assert path[1..][|path| - 2] == k;
      }
      if path[0] !in t {
        assert Lookup(map[], q[1..]).None?;
      }
    }
  }

  lemma LookupUpdateOther(t: Tree, k: string, x: Node, q: seq<string>)
    requires |q| > 0 && q[0] != k
    ensures Lookup(t[k := x], q) == Lookup(t, q)
  {
  }

  /** `_set` leaves every path of the target layer that parts from the written path as it was. */
  lemma SetKeepsOtherPaths(c: Config, path: seq<string>, v: Node, convert: Convert, target: Layer, q: seq<string>)
    requires Set(c, path, v, convert, target).Ok? && Diverge(path, q)
    ensures Lookup(LayerOf(Set(c, path, v, convert, target).value, target), q) == Lookup(LayerOf(c, target), q)
  {
    WalkPutKeeps(LayerOf(c, target), path, convert(v).value, q);
  }

  lemma MergeEmpty(b: Tree)
    ensures Merge(map[], b) == b
  {
  }

  /** A value `b` holds at the end of a path wins the merge, unless both sides hold dictionaries there. */
  lemma {:induction false} MergeOverrides(a: Tree, b: Tree, p: seq<string>)
    requires Lookup(b, p).Some? && Lookup(b, p).value.Leaf?
    ensures Lookup(Merge(a, b), p) == Lookup(b, p)
    decreases |p|
  {
    if |p| > 1 {
      var k := p[0];
      if k in a && a[k].Branch? {
        MergeOverrides(a[k].children, b[k].children, p[1..]);
      }
    }
  }

  lemma {:induction false} AbsentLookup(b: Tree, p: seq<string>)
    requires Absent(b, p)
    ensures Lookup(b, p).None?
    decreases |p|
  {
    if |p| > 1 && p[0] in b {
      AbsentLookup(b[p[0]].children, p[1..]);
    }
  }

  /** Where `b` is silent on a path, the merge reads what `a` holds there. */
  lemma {:induction false} MergeKeeps(a: Tree, b: Tree, p: seq<string>)
    requires Absent(b, p)
    ensures Lookup(Merge(a, b), p) == Lookup(a, p)
    decreases |p|
  {
    if |p| > 1 && p[0] in b {
      var k := p[0];
      if k in a && a[k].Branch? {
        MergeKeeps(a[k].children, b[k].children, p[1..]);
      } else {
        AbsentLookup(b[k].children, p[1..]);
      }
    }
  }

  /**
   * The layer order of consolidation: a value the input holds at a path
   * wins, then one the user's file holds, then the default.
   */
  lemma LayerOrder(c: Config, p: seq<string>)
    ensures Lookup(c.input, p).Some? && Lookup(c.input, p).value.Leaf? ==>
              Lookup(Consolidate(c).active, p) == Lookup(c.input, p)
    ensures Absent(c.input, p) && Lookup(c.user, p).Some? && Lookup(c.user, p).value.Leaf? ==>
              Lookup(Consolidate(c).active, p) == Lookup(c.user, p)
    ensures Absent(c.input, p) && Absent(c.user, p) ==>
              Lookup(Consolidate(c).active, p) == Lookup(c.default, p)
  {
    var du := Merge(c.default, c.user);
    if Lookup(c.input, p).Some? && Lookup(c.input, p).value.Leaf? {
      MergeOverrides(du, c.input, p);
    }
    if Absent(c.input, p) {
      MergeKeeps(du, c.input, p);
      if Lookup(c.user, p).Some? && Lookup(c.user, p).value.Leaf? {
        MergeOverrides(c.default, c.user, p);
      }
      if Absent(c.user, p) {
        MergeKeeps(c.default, c.user, p);
      }
    }
  }

  /** An empty configuration reads the converted default anywhere. */
  lemma FreshGetDefault(path: seq<string>, d: Node, convert: Convert)
    requires |path| > 2 && convert(d).Ok?
    ensures Get(Fresh, path, d, convert).Ok? && Get(Fresh, path, d, convert).value.0 == convert(d).value
  {
    assert Lookup(map[], path).None?;
  }

  /**
   * Setting a leaf value and reading it back gives the converted value, when
   * no higher layer holds anything on that path and converting it again
   * leaves it as it is.
   */
  lemma SetThenGet(c: Config, path: seq<string>, v: Node, x: Node, d: Node, convert: Convert, target: Layer)
    requires Set(c, path, v, convert, target).Ok?
    requires convert(v) == Ok(x) && x.Leaf? && convert(x) == Ok(x) && convert(d).Ok?
    requires target != Input ==> Absent(c.input, path)
    requires target == Default ==> Absent(c.user, path)
    ensures var c' := Set(c, path, v, convert, target).value;
            Get(c', path, d, convert).Ok? && Get(c', path, d, convert).value.0 == x
  {
    var c' := Set(c, path, v, convert, target).value;
    LayerOrder(c', path);
    var act := Consolidate(c').active;
    assert Lookup(act, path) == Some(x);
    LookupOpen(act, path);
  }

  lemma {:induction false} LookupOpen(t: Tree, p: seq<string>)
    requires |p| >= 1 && Lookup(t, p).Some?
    ensures Open(t, p[..|p| - 1])
    decreases |p|
  {
    if |p| > 1 {
      LookupOpen(t[p[0]].children, p[1..]);
      assert p[..|p| - 1][1..] == p[1..][..|p| - 2];
    }
  }

  /**
   * `_convert_list`: each item converted in order, the first exception
   * stopping the conversion; a `TypeError` surfaces as `ValueError`. The
   * source iterates whatever it is given, so a string or a dict is converted
   * item by item; `None` stands for a value that is not iterable, on which
   * the iteration itself raises `TypeError`.
   */
  function ConvertList<T, U>(xs: Option<seq<T>>, convert: T -> Result<U>): (r: Result<seq<U>>)
    ensures xs.None? ==> r == Err(ValueError)
    ensures r.Ok? ==> xs.Some? && |r.value| == |xs.value|
                      && forall i :: 0 <= i < |xs.value| ==> convert(xs.value[i]) == Ok(r.value[i])
    ensures r.Err? && xs.Some? ==>
              exists i :: 0 <= i < |xs.value| && convert(xs.value[i]).Err? && r.fault == Surface(convert(xs.value[i]).fault)
  {
    match xs
    case None => Err(ValueError)
    case Some(s) => ConvertItems(s, convert)
  }

  /** The exception `_convert_list` and `_convert_dict` let out for one raised inside. */
  function Surface(f: Fault): Fault {
    if f == TypeError then ValueError else f
  }

  function ConvertItems<T, U>(s: seq<T>, convert: T -> Result<U>): (r: Result<seq<U>>)
    ensures r.Ok? ==> |r.value| == |s| && forall i :: 0 <= i < |s| ==> convert(s[i]) == Ok(r.value[i])
    ensures r.Err? ==> exists i :: 0 <= i < |s| && convert(s[i]).Err? && r.fault == Surface(convert(s[i]).fault)
    decreases |s|
  {
    if |s| == 0 then Ok([])
    else match convert(s[0])
      case Err(e) => Err(Surface(e))
      case Ok(y) =>
        match ConvertItems(s[1..], convert)
        case Err(e) =>
          ghost var i :| 0 <= i < |s[1..]| && convert(s[1..][i]).Err? && e == Surface(convert(s[1..][i]).fault);
          assert s[1..][i] == s[i + 1];
          Err(e)
        case Ok(ys) =>
          assert forall i :: 0 < i < |s| ==> s[i] == s[1..][i - 1];
          Ok([y] + ys)
  }

  /**
   * `_convert_dict(convert_from, ...)`: the source calls
   * `convert_from.items()`, so a value that is not a dictionary, given as
   * `None`, raises `AttributeError`, which neither its own `except
   * TypeError` nor `_get`'s `except ValueError` catches. A dictionary is
   * converted item by item, and a failure is the first bad item's.
   */
  function ConvertDict<K, V, K2(==), V2>(d: Option<seq<(K, V)>>, ck: K -> Result<K2>, cv: V -> Result<V2>): (r: Result<map<K2, V2>>)
    ensures d.None? ==> r == Err(AttributeError)
    ensures d.Some? ==> (r.Ok? <==> forall i :: 0 <= i < |d.value| ==> ItemOk(d.value[i], ck, cv))
    ensures d.Some? && r.Err? ==> exists i :: FirstBad(d.value, ck, cv, i) && r.fault == ItemFault(d.value[i], ck, cv)
    ensures r.Ok? ==> r.value.Keys == set i | 0 <= i < |d.value| :: ck(d.value[i].0).value
  {
    match d
    case None => Err(AttributeError)
    case Some(items) =>
      ConvertDictOk(items, ck, cv);
      if ConvertEntries(items, ck, cv).Err? then
        ConvertDictFirstFault(items, ck, cv);
        ConvertEntries(items, ck, cv)
      else ConvertEntries(items, ck, cv)
  }

  /**
   * The item loop of `_convert_dict`, over the dictionary's items in
   * iteration order: each key is converted before its value, the first
   * exception stops it (`TypeError` surfacing as `ValueError`), and keys
   * that convert alike keep the value of the later item.
   */
  function ConvertEntries<K, V, K2(==), V2>(items: seq<(K, V)>, ck: K -> Result<K2>, cv: V -> Result<V2>): (r: Result<map<K2, V2>>)
    ensures r.Ok? ==> forall i :: 0 <= i < |items| ==> ck(items[i].0).Ok? && cv(items[i].1).Ok?
    ensures r.Ok? ==> r.value.Keys == set i | 0 <= i < |items| :: ck(items[i].0).value
    ensures r.Ok? && |items| > 0 ==> r.value[ck(items[|items| - 1].0).value] == cv(items[|items| - 1].1).value
    decreases |items|
  {
    if |items| == 0 then Ok(map[])
    else
      var init := items[..|items| - 1];
      var (k, v) := items[|items| - 1];
      match ConvertEntries(init, ck, cv)
      case Err(e) => Err(e)
      case Ok(m) =>
        match ck(k)
        case Err(e) => Err(Surface(e))
        case Ok(k2) =>
          match cv(v)
          case Err(e) => Err(Surface(e))
          case Ok(v2) =>
            assert forall i :: 0 <= i < |init| ==> items[i] == init[i];
            assert (set i | 0 <= i < |items| :: ck(items[i].0).value)
                   == (set i | 0 <= i < |init| :: ck(init[i].0).value) + {k2};
            Ok(m[k2 := v2])
  }

  /** One item of a dictionary whose key and value both convert. */
  predicate ItemOk<K, V, K2, V2>(x: (K, V), ck: K -> Result<K2>, cv: V -> Result<V2>) {
    ck(x.0).Ok? && cv(x.1).Ok?
  }

  /** The exception an item that does not convert lets out: its key's, else its value's. */
  function ItemFault<K, V, K2, V2>(x: (K, V), ck: K -> Result<K2>, cv: V -> Result<V2>): Fault
    requires !ItemOk(x, ck, cv)
  {
    if ck(x.0).Err? then Surface(ck(x.0).fault) else Surface(cv(x.1).fault)
  }

  /** Item `i` is the first one that does not convert. */
  predicate FirstBad<K, V, K2, V2>(items: seq<(K, V)>, ck: K -> Result<K2>, cv: V -> Result<V2>, i: int) {
    && 0 <= i < |items| && !ItemOk(items[i], ck, cv)
    && forall j :: 0 <= j < i ==> ItemOk(items[j], ck, cv)
  }

  /** `_convert_dict` succeeds exactly when every key and every value converts. */
  lemma {:induction false} ConvertDictOk<K, V, K2, V2>(items: seq<(K, V)>, ck: K -> Result<K2>, cv: V -> Result<V2>)
    ensures ConvertEntries(items, ck, cv).Ok? <==> forall i :: 0 <= i < |items| ==> ItemOk(items[i], ck, cv)
    decreases |items|
  {
    if |items| > 0 {
      var init := items[..|items| - 1];
      ConvertDictOk(init, ck, cv);
      assert forall i :: 0 <= i < |init| ==> init[i] == items[i];
    }
  }

  /** A failed `_convert_dict` lets out the exception of the first item that does not convert. */
  lemma {:induction false} ConvertDictFirstFault<K, V, K2, V2>(items: seq<(K, V)>, ck: K -> Result<K2>, cv: V -> Result<V2>)
    requires ConvertEntries(items, ck, cv).Err?
    ensures exists i :: FirstBad(items, ck, cv, i) && ConvertEntries(items, ck, cv).fault == ItemFault(items[i], ck, cv)
    decreases |items|
  {
    var init := items[..|items| - 1];
    assert forall i :: 0 <= i < |init| ==> init[i] == items[i];
    if ConvertEntries(init, ck, cv).Err? {
      ConvertDictFirstFault(init, ck, cv);
      var i :| FirstBad(init, ck, cv, i) && ConvertEntries(init, ck, cv).fault == ItemFault(init[i], ck, cv);
      assert FirstBad(items, ck, cv, i);
    } else {
      ConvertDictOk(init, ck, cv);
      assert FirstBad(items, ck, cv, |items| - 1);
    }
  }

  /** Each converted key holds the value of the last item whose key converts to it. */
  lemma {:induction false} ConvertDictLastWins<K, V, K2, V2>(items: seq<(K, V)>, ck: K -> Result<K2>, cv: V -> Result<V2>, i: nat)
    requires ConvertEntries(items, ck, cv).Ok? && i < |items|
    requires forall j :: i < j < |items| ==> ck(items[j].0) != ck(items[i].0)
    ensures ck(items[i].0).Ok? && cv(items[i].1).Ok?
    ensures ConvertEntries(items, ck, cv).value[ck(items[i].0).value] == cv(items[i].1).value
    decreases |items|
  {
    if i < |items| - 1 {
      var init := items[..|items| - 1];
      assert init[i] == items[i];
      assert forall j :: i < j < |init| ==> init[j] == items[j];
      ConvertDictLastWins(init, ck, cv, i);
    }
  }
}

=== FILE: dispatch.dfy ===
/**
 * `emit` of plapperkasten's supervisor: an event is put on the queue of
 * every subscriber of its name, walking the live subscriber list by index
 * the way Python's list iterator does, so that a subscriber removed while
 * healing shifts the next one under the cursor.
 */
module Dispatch {
  import opened Wrappers
  import opened Events
  import opened Registry

  /**
   * One turn of the loop in `emit`, for subscriber `who`. The queue lookup
   * comes first (a missing queue raises `KeyError`), then the event is built
   * (a param called `name` or `self` raises `TypeError`, which nothing catches), then
   * `put_nowait` (a closed queue raises `ValueError`, a full one
   * `queue.Full`). Missing and closed queues are healed, a full one drops the
   * event.
   */
  function Step(h: Hub<Event>, who: string, ev: string, values: seq<string>, params: map<string, string>): (r: Result<Hub<Event>>)
    ensures r.Err? <==> who in h.queues && ("name" in params || "self" in params)
    ensures r.Err? ==> r.fault == TypeError
    ensures r.Ok? ==> r.value.table.Keys == h.table.Keys
    ensures r.Ok? ==> forall k :: k in h.table ==> |r.value.table[k]| <= |h.table[k]|
    ensures r.Ok? ==> r.value.queues.Keys <= h.queues.Keys
  {
    if who !in h.queues then Ok(Heal(h, who))
    else match Make(ev, values, params)
      case None => Err(TypeError)
      case Some(e) =>
        match h.queues[who]
        case Closed => Ok(Heal(h, who))
        case Live(items, capacity) =>
          if capacity > 0 && |items| >= capacity then Ok(h)
          else Ok(h.(queues := h.queues[who := Live(items + [e], capacity)]))
  }

  /**
   * What one turn does: a healthy queue gets the event, a full one drops it
   * and the table stays, a missing or closed one is healed; no other queue
   * changes.
   */
  lemma StepOutcome(h: Hub<Event>, who: string, ev: string, values: seq<string>, params: map<string, string>)
    requires "name" !in params && "self" !in params
    ensures var r := Step(h, who, ev, values, params);
            && r.Ok?
            && (forall w :: w != who && w in h.queues ==> w in r.value.queues && r.value.queues[w] == h.queues[w])
            && (who !in h.queues || h.queues[who].Closed? ==> r.value == Heal(h, who))
            && (who in h.queues && HasRoom(h.queues[who]) ==>
                  r.value == Hub(h.table, h.queues[who := Append(h.queues[who], Event(ev, values, params))]))
            && (who in h.queues && h.queues[who].Live? && !HasRoom(h.queues[who]) ==> r.value == h)
  {
  }

  /** The `for subscriber in subscribers` loop from position `i` of the live list on. */
  function EmitFrom(h: Hub<Event>, ev: string, values: seq<string>, params: map<string, string>, i: nat): (r: Result<Hub<Event>>)
    requires ev in h.table
    ensures r.Ok? ==> r.value.table.Keys == h.table.Keys && r.value.queues.Keys <= h.queues.Keys
    ensures r.Err? ==> r.fault == TypeError && ("name" in params || "self" in params)
    ensures "name" !in params && "self" !in params ==> r.Ok?
    decreases |h.table[ev]| - i
  {
    if i >= |h.table[ev]| then Ok(h)
    else match Step(h, h.table[ev][i], ev, values, params)
      case Err(f) => Err(f)
      case Ok(h1) => EmitFrom(h1, ev, values, params, i + 1)
  }

  /** The named parameters of the bound method `emit(self, event, *values, **params)`. */
  const EmitArgs: set<string> := {"self", "event"}

  /**
   * `emit(event, *values, **params)`: a param called `event` or `self`
   * clashes with the method's own parameters and raises `TypeError` at the
   * call. Otherwise the event's
   * list is created if missing and walked.
   */
  function Emit(h: Hub<Event>, ev: string, values: seq<string>, params: map<string, string>): (r: Result<Hub<Event>>)
    ensures "event" in params || "self" in params ==> r == Err(TypeError)
    ensures r.Err? ==> r.fault == TypeError && ("event" in params || "name" in params || "self" in params)
    ensures "event" !in params && "name" !in params && "self" !in params ==> r.Ok?
    ensures r.Ok? ==> r.value.table.Keys == h.table.Keys + {ev} && r.value.queues.Keys <= h.queues.Keys
    ensures "event" !in params && "self" !in params && Touch(h.table, ev)[ev] == [] ==> r == Ok(Hub(Touch(h.table, ev), h.queues))
  {
    if !FreeOf(params, EmitArgs) then Err(TypeError)
    else
      var h := h.(table := Touch(h.table, ev));
      if |h.table[ev]| == 0 then Ok(h)
      else EmitFrom(h, ev, values, params, 0)
  }

  /** `emit` of a bare event name, as the supervisor does for its own events; it cannot fail. */
  function Notify(h: Hub<Event>, ev: string): (r: Hub<Event>)
    ensures Emit(h, ev, [], map[]) == Ok(r)
    ensures r.table.Keys == h.table.Keys + {ev}
  {
    Emit(h, ev, [], map[]).value
  }

  lemma {:induction false} EmitFromDelivers(h0: Hub<Event>, h: Hub<Event>, ev: string, values: seq<string>, params: map<string, string>, i: nat)
    requires ev in h0.table && h.table == h0.table && i <= |h0.table[ev]|
    requires NoDup(h0.table[ev]) && "name" !in params && "self" !in params
    requires forall w :: w in h0.table[ev] ==> w in h0.queues && HasRoom(h0.queues[w])
    requires h.queues == Broadcast(h0.queues, h0.table[ev][..i], Event(ev, values, params))
    ensures EmitFrom(h, ev, values, params, i) == Ok(Hub(h0.table, Broadcast(h0.queues, h0.table[ev], Event(ev, values, params))))
    decreases |h0.table[ev]| - i
  {
    var subs := h0.table[ev];
    var e := Event(ev, values, params);
    if i == |subs| {
      assert subs[..i] == subs;
    } else {
      var who := subs[i];
      NoDupFresh(subs, i);
      assert h.queues[who] == h0.queues[who];
      StepOutcome(h, who, ev, values, params);
      var h1 := Hub(h.table, h.queues[who := Append(h0.queues[who], e)]);
      assert subs[..i + 1] == subs[..i] + [who];
      BroadcastSnoc(h0.queues, subs[..i], who, e);
      EmitFromDelivers(h0, h1, ev, values, params, i + 1);
    }
  }

  /**
   * When every subscriber has a live queue with room, each gets exactly one
   * `Event(ev, values, params)` at the end of its queue, no other queue
   * changes and the table only gains the event's entry.
   */
  lemma EmitDelivers(h: Hub<Event>, ev: string, values: seq<string>, params: map<string, string>)
    requires "event" !in params && "name" !in params && "self" !in params
    requires NoDup(Touch(h.table, ev)[ev])
    requires forall w :: w in Touch(h.table, ev)[ev] ==> w in h.queues && HasRoom(h.queues[w])
    ensures Emit(h, ev, values, params)
            == Ok(Hub(Touch(h.table, ev), Broadcast(h.queues, Touch(h.table, ev)[ev], Event(ev, values, params))))
  {
    var t := Touch(h.table, ev);
    var h0 := Hub(t, h.queues);
    assert t[ev][..0] == [];
    assert h.queues == Broadcast(h.queues, [], Event(ev, values, params));
    if |t[ev]| > 0 {
      EmitFromDelivers(h0, h0, ev, values, params, 0);
    }
  }

  lemma RemoveFirstOfTwo()
    ensures RemoveFirst(["a", "b"], "a") == ["b"]
  {
    assert ["a", "b"][0] == "a";
    assert ["a", "b"][1..] == ["b"];
  }

  lemma UnregisterFirstOfTwo()
    ensures UnregisterFromAll(map["e" := ["a", "b"]], "a") == map["e" := ["b"]]
  {
    var t: Table := map["e" := ["a", "b"]];
    RemoveFirstOfTwo();
    var u := UnregisterFromAll(t, "a");
    assert u.Keys == {"e"};
    assert u["e"] == RemoveFirst(t["e"], "a");
  }

  lemma HealFirstOfTwo()
    ensures var h: Hub<Event> := Hub(map["e" := ["a", "b"]], map["b" := Live([], 0)]);
            Heal(h, "a") == Hub(map["e" := ["b"]], map["b" := Live([], 0)])
  {
    UnregisterFirstOfTwo();
    var qs: map<string, Queue<Event>> := map["b" := Live([], 0)];
    assert "a" !in qs;
    assert qs - {"a"} == qs;
  }

  /**
   * The iteration quirk: `a` has no queue and is healed away, which moves
   * `b` to position 0 while the loop goes on at position 1, so `b` never
   * gets the event although its queue is fine.
   */
  lemma EmitSkipsAfterHeal()
    ensures var h := Hub(map["e" := ["a", "b"]], map["b" := Live([], 0)]);
            Emit(h, "e", [], map[]) == Ok(Hub(map["e" := ["b"]], map["b" := Live([], 0)]))
  {
    var h := Hub(map["e" := ["a", "b"]], map["b" := Live([], 0)]);
    var healed := Hub(map["e" := ["b"]], map["b" := Live([], 0)]);
    HealFirstOfTwo();
    assert Step(h, "a", "e", [], map[]) == Ok(healed);
    assert EmitFrom(healed, "e", [], map[], 1) == Ok(healed);
  }
}

=== FILE: eventmap.dfy ===
/**
 * The event map: the built-in map file overlaid with the user's map file.
 * Each entry's first value is an event name, the remaining values and the
 * params are the event's values and params.
 */
module EventMap {
  import opened Wrappers
  import opened Text
  import opened Events
  import opened KeyMap
  import opened MapFile

  /** `load`: the built-in map first, then the user's map, whose items replace built-in ones per key. */
  function Load(builtin: string, user: string, d: char): (r: Map)
    ensures var b := LoadLines(ReadLines(builtin), d);
            var u := LoadLines(ReadLines(user), d);
            && r.Keys == b.Keys + u.Keys
            && (forall k :: k in u ==> r[k] == u[k])
            && (forall k :: k in b && k !in u ==> r[k] == b[k])
  {
    KeyMap.Load(KeyMap.Load(map[], ReadLines(builtin), d), ReadLines(user), d)
  }

  /**
   * `get_event`: the first value names the event, the rest and the params
   * go with it. An entry without values, or a missing key, gives the no-op
   * event; a param called `name` or `self` collides with the event
   * constructor's own parameters and raises `TypeError`.
   */
  function GetEvent(m: Map, key: string): (r: Result<Event>)
    ensures key !in m ==> r == Ok(Empty)
    ensures key in m && |m[key].values| == 0 ==> r == Ok(Empty)
    ensures key in m && |m[key].values| > 0 ==>
              var item := m[key];
              if "name" in item.params || "self" in item.params then r == Err(TypeError)
              else r == Ok(Event(item.values[0], item.values[1..], item.params))
  {
    var item := Get(m, key);
    if |item.values| == 0 then Ok(Empty)
    else match Make(item.values[0], item.values[1..], item.params)
      case None => Err(TypeError)
      case Some(e) => Ok(e)
  }

  /** The named parameters of the bound method `update_event(self, key, event_name, *values, **params)`. */
  const UpdateEventArgs: set<string> := {"self", "key", "event_name"}

  /** Whether `update_event`'s params bind both there and in the `update` it calls. */
  predicate EventParamsBind(params: seq<(string, string)>) {
    FreeOf(ParamsOf(params), UpdateEventArgs + UpdateArgs)
  }

  /**
   * `update_event` on the user's map: the event name is stored as the
   * first value. An empty name first removes the key's line and then still
   * writes the key with an empty first value. A param that repeats a named
   * parameter of `update_event` or of `update` raises `TypeError`. Built on
   * the corrected `UpdateText`, which ends an unterminated last line before
   * appending.
   */
  function UpdateEvent(user: string, key: string, name: string, values: seq<string>, params: seq<(string, string)>, d: char): (r: Result<string>)
    ensures r.Err? <==> !FreeOf(ParamsOf(params), {"self", "key", "event_name", "path", "mapkey"})
    ensures r.Err? ==> r.fault == TypeError
  {
    if !EventParamsBind(params) then Err(TypeError)
    else if name == "" then Ok(UpdateText(RemoveText(user, key, d), key, [""] + values, params, d))
    else Ok(UpdateText(user, key, [name] + values, params, d))
  }

  /** `remove_event`: `remove` on the user's map. */
  function RemoveEvent(user: string, key: string, d: char): string
  {
    RemoveText(user, key, d)
  }

  /** Mapping an event and reloading gives back that event. */
  lemma UpdateEventThenGet(builtin: string, user: string, key: string, name: string, values: seq<string>, params: seq<(string, string)>, d: char)
    requires name != "" && "name" !in ParamsOf(params) && EventParamsBind(params)
    requires LineOk(key, [name] + values, params, d) && NoNewline(key, [name] + values, params)
    requires OnlyFirstDefines(user, key, d)
    ensures UpdateEvent(user, key, name, values, params, d).Ok?
    ensures GetEvent(Load(builtin, UpdateEvent(user, key, name, values, params, d).value, d), key)
            == Ok(Event(name, values, ParamsOf(params)))
  {
    TextUpdateThenLoad(user, key, [name] + values, params, d);
    assert ([name] + values)[1..] == values;
  }

  /** Mapping a key to the empty name leaves an entry that reads back as an event named `""`: with no values, the no-op event. */
  lemma EmptyNameMapsToNoOp(builtin: string, user: string, key: string, values: seq<string>, params: seq<(string, string)>, d: char)
    requires "name" !in ParamsOf(params) && EventParamsBind(params)
    requires LineOk(key, [""] + values, params, d) && NoNewline(key, [""] + values, params)
    requires OnlyFirstDefines(user, key, d)
    ensures UpdateEvent(user, key, "", values, params, d).Ok?
    ensures GetEvent(Load(builtin, UpdateEvent(user, key, "", values, params, d).value, d), key)
            == Ok(Event("", values, ParamsOf(params)))
    ensures |values| == 0 && |params| == 0 ==>
              GetEvent(Load(builtin, UpdateEvent(user, key, "", values, params, d).value, d), key) == Ok(Empty)
  {
    var removed := RemoveText(user, key, d);
    TextRemoveThenLoad(user, key, d);
    LoadedKeys(ReadLines(removed), d, key);
    TextUpdateThenLoad(removed, key, [""] + values, params, d);
    assert ([""] + values)[1..] == values;
  }

  /** After `remove_event` the key yields the built-in event, or the no-op event when there is none. */
  lemma RemoveEventThenGet(builtin: string, user: string, key: string, d: char)
    requires OnlyFirstDefines(user, key, d)
    ensures GetEvent(Load(builtin, RemoveEvent(user, key, d), d), key) == GetEvent(LoadLines(ReadLines(builtin), d), key)
  {
    TextRemoveThenLoad(user, key, d);
  }
}

=== FILE: events.dfy ===
/**
 * The message value routed between the supervisor and the plugins:
 * a name, ordered positional values and named parameters.
 */
module Events {
  import opened Wrappers

  datatype Event = Event(name: string, values: seq<string>, params: map<string, string>)

  /** `Event('')`: the no-op event that is never routed. */
  const Empty: Event := Event("", [], map[])

  /**
   * Whether keyword arguments `params` bind alongside a Python function's
   * named parameters `names`: a keyword that repeats a named parameter
   * (`self` included, for a bound method) raises `TypeError` at the call.
   */
  predicate FreeOf(params: map<string, string>, names: set<string>) {
    params.Keys !! names
  }

  /** The named parameters of `Event.__init__(self, name, *values, **params)`. */
  const EventArgs: set<string> := {"self", "name"}

  /**
   * `Event(name, *values, **params)`. A keyword parameter called `name` or
   * `self` collides with the constructor's own parameters and Python raises
   * `TypeError`; every other call stores its arguments unchanged.
   */
  function Make(name: string, values: seq<string>, params: map<string, string>): (r: Option<Event>)
    ensures r.Some? <==> "name" !in params && "self" !in params
    ensures r.Some? ==> r.value.name == name && r.value.values == values && r.value.params == params
  {
    if !FreeOf(params, EventArgs) then None else Some(Event(name, values, params))
  }
}

=== FILE: inputdev.dfy ===
/**
 * The inputdevinputevent plugin: key presses read from input devices are
 * gathered per device until ENTER, then sent to the supervisor as one
 * `raw` event. Reading the devices is not modelled: the events read are
 * the input.
 */
module InputDev {
  import opened Wrappers
  import opened Events

  /** An input event as the device reports it. */
  datatype KeyEvent = KeyEvent(kind: int, code: nat, value: int)

  /** The Linux key code that evdev names `KEY_ENTER`. */
  const Enter: nat := 28

  /** The text gathered so far, per device name. */
  type Buffers = map<string, string>

  /** `on_before_run`: every device starts with an empty buffer. */
  function Init(devices: seq<string>): (r: Buffers)
    ensures r.Keys == set d | d in devices
    ensures forall d :: d in r ==> r[d] == ""
  {
    map d | d in devices :: ""
  }

  /**
   * One event read from device `dev` in `on_tick`: only a key press
   * (`type == 1`, `value == 1`) counts. ENTER sends the gathered text as
   * `raw` and empties the buffer, unless it is empty; any other key
   * appends its character from the layout, and a code beyond the layout
   * raises `IndexError`.
   */
  function OnKey(b: Buffers, dev: string, ev: KeyEvent, layout: string): (r: Result<(Buffers, seq<Event>)>)
    requires dev in b
    ensures !(ev.kind == 1 && ev.value == 1) ==> r == Ok((b, []))
    ensures ev.kind == 1 && ev.value == 1 && ev.code == Enter ==>
              r == if b[dev] == "" then Ok((b, [])) else Ok((b[dev := ""], [Event("raw", [b[dev]], map[])]))
    ensures ev.kind == 1 && ev.value == 1 && ev.code != Enter ==>
              r == if ev.code < |layout| then Ok((b[dev := b[dev] + [layout[ev.code]]], [])) else Err(IndexError)
  {
    if !(ev.kind == 1 && ev.value == 1) then Ok((b, []))
    else if ev.code == Enter then
      if b[dev] == "" then Ok((b, []))
      else Ok((b[dev := ""], [Event("raw", [b[dev]], map[])]))
    else if ev.code < |layout| then Ok((b[dev := b[dev] + [layout[ev.code]]], []))
    else Err(IndexError)
  }

  /**
   * What one device's events leave behind in `on_tick`: the buffers, the
   * `raw` events already sent, in order, and the exception that ended the
   * tick, if one did.
   */
  datatype Outcome = Outcome(buffers: Buffers, sent: seq<Event>, fault: Option<Fault>)

  /**
   * The events one device delivered in one `on_tick`, in order. An
   * exception stops the loop at that event; whatever was sent before it
   * stays sent, and the failing key leaves its buffer as it was.
   */
  function OnEvents(b: Buffers, dev: string, evs: seq<KeyEvent>, layout: string): (r: Outcome)
    requires dev in b
    decreases |evs|
  {
    if |evs| == 0 then Outcome(b, [], None)
    else match OnKey(b, dev, evs[0], layout)
      case Err(f) => Outcome(b, [], Some(f))
      case Ok((b1, sent)) =>
        var rest := OnEvents(b1, dev, evs[1..], layout);
        Outcome(rest.buffers, sent + rest.sent, rest.fault)
  }

  /** Events from one device change only that device's buffer. */
  lemma {:induction false} OtherDevicesUntouched(b: Buffers, dev: string, evs: seq<KeyEvent>, layout: string)
    requires dev in b
    ensures var r := OnEvents(b, dev, evs, layout);
            r.buffers.Keys == b.Keys && forall d :: d in b && d != dev ==> r.buffers[d] == b[d]
    decreases |evs|
  {
    if |evs| > 0 && OnKey(b, dev, evs[0], layout).Ok? {
      OtherDevicesUntouched(OnKey(b, dev, evs[0], layout).value.0, dev, evs[1..], layout);
    }
  }

  /** Presses of keys other than ENTER that the layout has a character for. */
  predicate Printable(evs: seq<KeyEvent>, layout: string) {
    forall i :: 0 <= i < |evs| ==> evs[i].kind == 1 && evs[i].value == 1 && evs[i].code != Enter && evs[i].code < |layout|
  }

  /** The characters the layout gives those presses. */
  function Chars(evs: seq<KeyEvent>, layout: string): string
    requires Printable(evs, layout)
    decreases |evs|
  {
    if |evs| == 0 then [] else [layout[evs[0].code]] + Chars(evs[1..], layout)
  }

  lemma {:induction false} TypingAppends(b: Buffers, dev: string, evs: seq<KeyEvent>, layout: string)
    requires dev in b && Printable(evs, layout)
    ensures OnEvents(b, dev, evs, layout) == Outcome(b[dev := b[dev] + Chars(evs, layout)], [], None)
    decreases |evs|
  {
    if |evs| > 0 {
      var c := layout[evs[0].code];
      var b1 := b[dev := b[dev] + [c]];
      assert Printable(evs[1..], layout);
      var tail := Chars(evs[1..], layout);
      TypingAppends(b1, dev, evs[1..], layout);
      TypingStep(b, dev, evs, layout);
      assert Chars(evs, layout) == [c] + tail;
      AppendTwice(b, dev, [c], tail);
    } else {
      assert b[dev] + [] == b[dev];
      assert b[dev := b[dev]] == b;
    }
  }

  /** A printable key press adds its character and sends nothing. */
  lemma TypingStep(b: Buffers, dev: string, evs: seq<KeyEvent>, layout: string)
    requires dev in b && Printable(evs, layout) && |evs| > 0
    ensures OnEvents(b, dev, evs, layout) == OnEvents(b[dev := b[dev] + [layout[evs[0].code]]], dev, evs[1..], layout)
  {
    var b1 := b[dev := b[dev] + [layout[evs[0].code]]];
    assert OnKey(b, dev, evs[0], layout) == Ok((b1, []));
    var empty: seq<Event> := [];
    assert empty + OnEvents(b1, dev, evs[1..], layout).sent == OnEvents(b1, dev, evs[1..], layout).sent;
  }

  /** Appending to a buffer twice appends both parts. */
  lemma AppendTwice(b: Buffers, dev: string, s: string, t: string)
    requires dev in b
    ensures b[dev := b[dev] + s][dev := b[dev] + s + t] == b[dev := b[dev] + (s + t)]
  {
    assert b[dev] + s + t == b[dev] + (s + t);
  }

  /**
   * The events of `xs + ys` are those of `xs`, then those of `ys` from where
   * `xs` left the buffers; an exception among `xs` ends the tick there.
   */
  lemma {:induction false} OnEventsSplit(b: Buffers, dev: string, xs: seq<KeyEvent>, ys: seq<KeyEvent>, layout: string)
    requires dev in b
    ensures var o := OnEvents(b, dev, xs, layout);
            && dev in o.buffers
            && (o.fault.Some? ==> OnEvents(b, dev, xs + ys, layout) == o)
            && (o.fault.None? ==>
                  var p := OnEvents(o.buffers, dev, ys, layout);
                  OnEvents(b, dev, xs + ys, layout) == Outcome(p.buffers, o.sent + p.sent, p.fault))
    decreases |xs|
  {
    OtherDevicesUntouched(b, dev, xs, layout);
    if |xs| > 0 {
      assert (xs + ys)[0] == xs[0] && (xs + ys)[1..] == xs[1..] + ys;
      match OnKey(b, dev, xs[0], layout)
      case Err(f) =>
      case Ok((b1, s1)) =>
        OnEventsSplit(b1, dev, xs[1..], ys, layout);
        var o1 := OnEvents(b1, dev, xs[1..], layout);
        if o1.fault.None? {
          var p := OnEvents(o1.buffers, dev, ys, layout);
          assert s1 + (o1.sent + p.sent) == (s1 + o1.sent) + p.sent;
        }
    } else {
      assert xs + ys == ys;
      var p := OnEvents(b, dev, ys, layout);
      assert [] + p.sent == p.sent;
    }
  }

  /**
   * Typing some keys on a device with an empty buffer and pressing ENTER
   * sends exactly one `raw` event carrying what was typed, and leaves the
   * buffer empty again.
   */
  lemma TypeThenEnter(b: Buffers, dev: string, evs: seq<KeyEvent>, layout: string)
    requires dev in b && b[dev] == "" && |evs| > 0 && Printable(evs, layout)
    ensures OnEvents(b, dev, evs + [KeyEvent(1, Enter, 1)], layout)
            == Outcome(b, [Event("raw", [Chars(evs, layout)], map[])], None)
  {
    var enter := [KeyEvent(1, Enter, 1)];
    TypingAppends(b, dev, evs, layout);
    var typed := Chars(evs, layout);
    var b1 := b[dev := b[dev] + typed];
    assert b1[dev] == typed != "";
    OnEventsSplit(b, dev, evs, enter, layout);
    var raw := Event("raw", [typed], map[]);
    assert OnKey(b1, dev, enter[0], layout) == Ok((b1[dev := ""], [raw]));
    assert enter[1..] == [];
    assert OnEvents(b1, dev, enter, layout) == Outcome(b1[dev := ""], [raw] + [], None);
    assert b1[dev := ""] == b;
    assert [] + ([raw] + []) == [raw];
  }

  /**
   * A `raw` event sent before a key beyond the layout stays sent: typing
   * `a`, ENTER and then code 99 with the layout `a` sends `raw` with `a` and
   * then raises `IndexError`.
   */
  lemma SentBeforeFault()
    ensures OnEvents(map["kbd" := ""], "kbd", [KeyEvent(1, 0, 1), KeyEvent(1, Enter, 1), KeyEvent(1, 99, 1)], "a")
            == Outcome(map["kbd" := ""], [Event("raw", ["a"], map[])], Some(IndexError))
  {
    var b := map["kbd" := ""];
    var evs := [KeyEvent(1, 0, 1), KeyEvent(1, Enter, 1), KeyEvent(1, 99, 1)];
    var raw := Event("raw", ["a"], map[]);
    assert "a"[0] == 'a' && "" + ['a'] == "a";
    assert b["kbd" := b["kbd"] + ["a"[0]]] == map["kbd" := "a"];
    assert OnKey(b, "kbd", evs[0], "a") == Ok((map["kbd" := "a"], []));
    assert map["kbd" := "a"]["kbd" := ""] == b;
    assert OnKey(map["kbd" := "a"], "kbd", evs[1], "a") == Ok((b, [raw]));
    assert OnKey(b, "kbd", evs[2], "a") == Err(IndexError);
    assert evs[1..][1..] == [evs[2]];
    assert OnEvents(b, "kbd", evs[1..][1..], "a") == Outcome(b, [], Some(IndexError));
    assert OnEvents(map["kbd" := "a"], "kbd", evs[1..], "a") == Outcome(b, [raw] + [], Some(IndexError));
  }
}

=== FILE: keymap.dfy ===
/**
 * The flat-file key map: one entry per line, fields separated by a
 * one-character delimiter, the first field the key, the others either
 * positional values or `name=value` parameters. A file is modelled as the
 * sequence of lines `readlines()` returns (each with its newline, if any).
 */
module KeyMap {
  import opened Wrappers
  import opened Text
  import Events

  datatype Item = Item(values: seq<string>, params: map<string, string>)

  /** `KeyMapItem()`: no values, no params. */
  const EmptyItem: Item := Item([], map[])

  type Map = map<string, Item>

  // ---------------------------------------------------------------------
  // Parsing one line
  // ---------------------------------------------------------------------

  /** Adds one data field: stripped, then split on its first `=` into a param, else a value. */
  function AddField(item: Item, raw: string): Item
  {
    var f := Strip(raw);
    match IndexOf(f, '=')
    case None => item.(values := item.values + [f])
    case Some(i) => item.(params := item.params[f[..i] := f[i + 1..]])
  }

  /** The item built from the data fields, left to right. */
  function Collect(fields: seq<string>): Item
    decreases |fields|
  {
    if |fields| == 0 then EmptyItem
    else AddField(Collect(fields[..|fields| - 1]), fields[|fields| - 1])
  }

  /**
   * `_process_line`: an empty line raises `ValueError`; otherwise the key
   * is everything before the first delimiter and the remaining fields
   * make up the item.
   */
  function ProcessLine(line: string, d: char): (r: Result<(string, Item)>)
    ensures r.Err? <==> line == ""
    ensures r.Err? ==> r.fault == ValueError
    ensures r.Ok? ==> var key := r.value.0;
                      StartsWith(line, key) && d !in key && (|key| == |line| || line[|key|] == d)
  {
    if line == "" then Err(ValueError)
    else
      var fields := Split(line, d);
      JoinSplit(line, d);
      assert fields == [fields[0]] + fields[1..];
      assert |fields| > 1 ==> line == fields[0] + [d] + Join(fields[1..], d);
      Ok((fields[0], Collect(fields[1..])))
  }

  // ---------------------------------------------------------------------
  // Loading files
  // ---------------------------------------------------------------------

  /**
   * What `_load` makes of one raw line: nothing for an empty line or a
   * comment (a `#` in the very first column), nothing for a line that
   * fails to parse after stripping, else its key and item.
   */
  function Entry(line: string, d: char): Option<(string, Item)>
  {
    if line == "" || line[0] == '#' then None
    else match ProcessLine(Strip(line), d)
      case Err(_) => None
      case Ok(kv) => Some(kv)
  }

  /** The key a line defines, if any. */
  function KeyOf(line: string, d: char): Option<string>
  {
    match Entry(line, d)
    case None => None
    case Some(kv) => Some(kv.0)
  }

  /** Whether a parsed line defines `k`. */
  predicate Defines(e: Option<(string, Item)>, k: string) {
    e.Some? && e.value.0 == k
  }

  /** `f` applied to every element of `s`. */
  function MapSeq<A, B>(f: A -> B, s: seq<A>): (r: seq<B>)
    ensures |r| == |s|
    ensures forall i {:trigger r[i]} :: 0 <= i < |s| ==> r[i] == f(s[i])
  {
    seq(|s|, i requires 0 <= i < |s| => f(s[i]))
  }

  lemma MapSeqConcat<A, B>(f: A -> B, x: seq<A>, y: seq<A>)
    ensures MapSeq(f, x + y) == MapSeq(f, x) + MapSeq(f, y)
  {
    var a := MapSeq(f, x + y);
    var b := MapSeq(f, x) + MapSeq(f, y);
    forall j | 0 <= j < |a| ensures a[j] == b[j] {
      if j < |x| {
        assert (x + y)[j] == x[j];
      } else {
        assert (x + y)[j] == y[j - |x|];
      }
    }
  }

  function EntryOf(d: char): string -> Option<(string, Item)> {
    line => Entry(line, d)
  }

  /** What `_load` makes of each line of a file. */
  function Entries(lines: seq<string>, d: char): (r: seq<Option<(string, Item)>>)
    ensures |r| == |lines|
    ensures forall i {:trigger r[i]} :: 0 <= i < |lines| ==> r[i] == Entry(lines[i], d)
  {
    MapSeq(EntryOf(d), lines)
  }

  /** The dictionary built from parsed lines in file order: a later entry for a key replaces an earlier one. */
  function Fold(es: seq<Option<(string, Item)>>): Map
    decreases |es|
  {
    if |es| == 0 then map[]
    else
      var m := Fold(es[..|es| - 1]);
      match es[|es| - 1]
      case None => m
      case Some(kv) => m[kv.0 := kv.1]
  }

  /** The mapping built from one file. */
  function LoadLines(lines: seq<string>, d: char): Map
  {
    Fold(Entries(lines, d))
  }

  /** `_load(path)`: the file's items replace whole items per key; other keys are kept. */
  function Load(m: Map, lines: seq<string>, d: char): (r: Map)
    ensures r.Keys == m.Keys + LoadLines(lines, d).Keys
    ensures forall k :: k in LoadLines(lines, d) ==> r[k] == LoadLines(lines, d)[k]
    ensures forall k :: k in m && k !in LoadLines(lines, d) ==> r[k] == m[k]
  {
    m + LoadLines(lines, d)
  }

  /** `get`: never raises; a missing key yields the empty item. */
  function Get(m: Map, key: string): (r: Item)
    ensures key in m ==> r == m[key]
    ensures key !in m ==> r == EmptyItem
  {
    if key in m then m[key] else EmptyItem
  }

  // ---------------------------------------------------------------------
  // Writing lines
  // ---------------------------------------------------------------------

  /** `name=value` for every keyword argument, in call order. */
  function ParamFields(params: seq<(string, string)>): (r: seq<string>)
    ensures |r| == |params|
    ensures forall i :: 0 <= i < |params| ==> r[i] == params[i].0 + "=" + params[i].1
  {
    if |params| == 0 then [] else ParamFields(params[..|params| - 1]) + [params[|params| - 1].0 + "=" + params[|params| - 1].1]
  }

  /** The dictionary Python builds from keyword arguments: a later name overwrites an earlier one. */
  function ParamsOf(params: seq<(string, string)>): map<string, string>
  {
    if |params| == 0 then map[] else ParamsOf(params[..|params| - 1])[params[|params| - 1].0 := params[|params| - 1].1]
  }

  /** `_to_map_line`: key, then values, then `name=value` params, joined by the delimiter. */
  function ToMapLine(key: string, values: seq<string>, params: seq<(string, string)>, d: char): string
  {
    Join([key] + (values + ParamFields(params)), d)
  }

  /** A value that survives the trip through a line: no delimiter, no `=`, nothing `strip()` removes. */
  predicate ValueOk(v: string, d: char) {
    d !in v && '=' !in v && Clean(v)
  }

  /**
   * A parameter that survives the trip: the delimiter is not `=` and occurs
   * nowhere in the field, the name holds no `=`, the field is clean.
   */
  predicate ParamOk(p: (string, string), d: char) {
    d != '=' && d !in p.0 && d !in p.1 && '=' !in p.0 && Clean(p.0 + "=" + p.1)
  }

  predicate DataOk(values: seq<string>, params: seq<(string, string)>, d: char) {
    && (forall i :: 0 <= i < |values| ==> ValueOk(values[i], d))
    && (forall i :: 0 <= i < |params| ==> ParamOk(params[i], d))
  }

  /** A clean field without `=` is appended as a positional value. */
  lemma AddValueField(item: Item, v: string)
    requires '=' !in v && Clean(v)
    ensures AddField(item, v) == item.(values := item.values + [v])
  {
    StripClean(v);
  }

  /** A clean `name=value` field whose name holds no `=` sets that parameter. */
  lemma AddParamField(item: Item, name: string, value: string)
    requires '=' !in name && Clean(name + "=" + value)
    ensures AddField(item, name + "=" + value) == item.(params := item.params[name := value])
  {
    var f := name + "=" + value;
    StripClean(f);
    assert f[|name|] == '=';
    assert f[..|name|] == name;
    assert IndexOf(f, '=') == Some(|name|);
    assert f[|name| + 1..] == value;
  }

  lemma CollectSnoc(fields: seq<string>, f: string)
    ensures Collect(fields + [f]) == AddField(Collect(fields), f)
  {
    assert (fields + [f])[..|fields|] == fields;
  }

  lemma {:induction false} ParamFieldsSnoc(values: seq<string>, params: seq<(string, string)>)
    requires |params| > 0
    ensures var p := params[|params| - 1];
            values + ParamFields(params) == (values + ParamFields(params[..|params| - 1])) + [p.0 + "=" + p.1]
  {
    var p := params[|params| - 1];
    var init := ParamFields(params[..|params| - 1]);
    assert ParamFields(params) == init + [p.0 + "=" + p.1];
    assert values + (init + [p.0 + "=" + p.1]) == (values + init) + [p.0 + "=" + p.1];
  }

  lemma {:induction false} CollectValues(values: seq<string>, d: char)
    requires forall i :: 0 <= i < |values| ==> ValueOk(values[i], d)
    ensures Collect(values) == Item(values, map[])
    decreases |values|
  {
    if |values| > 0 {
      var init := values[..|values| - 1];
      var last := values[|values| - 1];
      CollectValues(init, d);
      assert ValueOk(last, d);
      AddValueField(Item(init, map[]), last);
      SnocLast(values);
    }
  }

  /** One more `name=value` field on top of a collected line sets that parameter. */
  lemma CollectParamStep(values: seq<string>, params: seq<(string, string)>, d: char)
    requires |params| > 0 && ParamOk(params[|params| - 1], d)
    requires Collect(values + ParamFields(params[..|params| - 1])) == Item(values, ParamsOf(params[..|params| - 1]))
    ensures Collect(values + ParamFields(params)) == Item(values, ParamsOf(params))
  {
    var init := params[..|params| - 1];
    var p := params[|params| - 1];
    ParamFieldsSnoc(values, params);
    CollectSnoc(values + ParamFields(init), p.0 + "=" + p.1);
    AddParamField(Item(values, ParamsOf(init)), p.0, p.1);
  }

  lemma {:induction false} CollectParams(values: seq<string>, params: seq<(string, string)>, d: char)
    requires DataOk(values, params, d)
    ensures Collect(values + ParamFields(params)) == Item(values, ParamsOf(params))
    decreases |params|
  {
    if |params| == 0 {
      assert values + ParamFields(params) == values;
      CollectValues(values, d);
    } else {
      var init := params[..|params| - 1];
      assert DataOk(values, init, d);
      CollectParams(values, init, d);
      CollectParamStep(values, params, d);
    }
  }

  /** No field of a line written from valid data holds the delimiter. */
  lemma FieldsFree(values: seq<string>, params: seq<(string, string)>, d: char)
    requires forall i :: 0 <= i < |values| ==> d !in values[i]
    requires forall i :: 0 <= i < |params| ==> d != '=' && d !in params[i].0 && d !in params[i].1
    ensures var rest := values + ParamFields(params);
            forall i :: 0 <= i < |rest| ==> d !in rest[i]
  {
    var rest := values + ParamFields(params);
    forall i | |values| <= i < |rest| ensures d !in rest[i] {
      var p := params[i - |values|];
      assert rest[i] == p.0 + "=" + p.1;
    }
  }

  /** A non-empty line joined from delimiter-free fields parses into its first field and the rest. */
  lemma ProcessJoined(key: string, rest: seq<string>, d: char)
    requires Join([key] + rest, d) != ""
    requires d !in key && forall i :: 0 <= i < |rest| ==> d !in rest[i]
    ensures ProcessLine(Join([key] + rest, d), d) == Ok((key, Collect(rest)))
  {
    var fields := [key] + rest;
    forall i | 0 <= i < |fields| ensures d !in fields[i] {
      if i > 0 {
        assert fields[i] == rest[i - 1];
      }
    }
    SplitJoin(fields, d);
    assert fields[1..] == rest;
  }

  /**
   * `_process_line` inverts `_to_map_line`: parsing a written line gives back
   * the key, the values and the params, provided no field holds the
   * delimiter or surrounding whitespace and no value or param name holds `=`.
   */
  lemma ParseWrittenLine(key: string, values: seq<string>, params: seq<(string, string)>, d: char)
    requires d !in key
    requires DataOk(values, params, d)
    requires key != "" || |values| + |params| > 0
    ensures ProcessLine(ToMapLine(key, values, params, d), d) == Ok((key, Item(values, ParamsOf(params))))
  {
    var rest := values + ParamFields(params);
    assert Join([key] + rest, d) != "" by {
      if |rest| > 0 {
        JoinNonEmpty([key] + rest, d);
      }
    }
    FieldsFree(values, params, d);
    ProcessJoined(key, rest, d);
    CollectParams(values, params, d);
  }

  /** A written line that is non-empty and starts and ends with non-whitespace, as `_load` needs it. */
  predicate LineOk(key: string, values: seq<string>, params: seq<(string, string)>, d: char) {
    KeyOk(key, d) && DataOk(values, params, d)
  }

  /** A key `_load` reads back from the start of a line: clean, non-empty, not a comment, free of a non-blank delimiter. */
  predicate KeyOk(key: string, d: char) {
    && d !in key && Clean(key) && key != "" && key[0] != '#'
    && !IsSpace(d)
  }

  /** A line written by `update` is read back by `_load` as exactly the item written. */
  lemma EntryOfWrittenLine(key: string, values: seq<string>, params: seq<(string, string)>, d: char)
    requires LineOk(key, values, params, d)
    ensures Entry(ToMapLine(key, values, params, d) + "\n", d) == Some((key, Item(values, ParamsOf(params))))
  {
    var line := ToMapLine(key, values, params, d);
    var fields := [key] + (values + ParamFields(params));
    assert |line| > 0 && line[0] == key[0] by {
      if |fields| >= 2 { JoinNonEmpty(fields, d); }
    }
    assert !IsSpace(line[|line| - 1]) by {
      if |fields| >= 2 {
        JoinLast(fields, d);
        var f := fields[|fields| - 1];
        if |values| + |params| > 0 && |f| > 0 {
          if |params| > 0 {
            assert f == params[|params| - 1].0 + "=" + params[|params| - 1].1;
          } else {
            assert f == values[|values| - 1];
          }
        }
      }
    }
    StripNewline(line);
    ParseWrittenLine(key, values, params, d);
  }

  lemma {:induction false} FoldKeys(es: seq<Option<(string, Item)>>, k: string)
    ensures k in Fold(es) <==> exists i :: 0 <= i < |es| && Defines(es[i], k)
    decreases |es|
  {
    if |es| > 0 {
      var init := es[..|es| - 1];
      FoldKeys(init, k);
      if exists i :: 0 <= i < |init| && Defines(init[i], k) {
        var i :| 0 <= i < |init| && Defines(init[i], k);
        assert es[i] == init[i];
      }
      if exists i :: 0 <= i < |es| && Defines(es[i], k) {
        var i :| 0 <= i < |es| && Defines(es[i], k);
        if i < |init| {
          assert init[i] == es[i];
        }
      }
    }
  }

  lemma {:induction false} FoldLastWins(es: seq<Option<(string, Item)>>, i: nat, k: string, item: Item)
    requires i < |es| && es[i] == Some((k, item))
    requires forall j :: i < j < |es| ==> !Defines(es[j], k)
    ensures k in Fold(es) && Fold(es)[k] == item
    decreases |es|
  {
    if i < |es| - 1 {
      var init := es[..|es| - 1];
      assert !Defines(es[|es| - 1], k);
      FoldLastWins(init, i, k, item);
    }
  }

  /** A key is loaded exactly when some line defines it. */
  lemma LoadedKeys(lines: seq<string>, d: char, k: string)
    ensures k in LoadLines(lines, d) <==> exists i :: 0 <= i < |lines| && KeyOf(lines[i], d) == Some(k)
  {
    var es := Entries(lines, d);
    FoldKeys(es, k);
    forall i | 0 <= i < |lines|
      ensures KeyOf(lines[i], d) == Some(k) <==> Defines(es[i], k)
    {
    }
  }

  /** Some line of the file defines `k`. */
  predicate DefinedIn(lines: seq<string>, d: char, k: string) {
    exists i :: 0 <= i < |lines| && KeyOf(lines[i], d) == Some(k)
  }

  /** The keys loaded from a file are exactly the keys its lines define. */
  lemma LoadedKeysAll(lines: seq<string>, d: char)
    ensures forall k :: k in LoadLines(lines, d) <==> DefinedIn(lines, d, k)
  {
    forall k
      ensures k in LoadLines(lines, d) <==> DefinedIn(lines, d, k)
    {
      LoadedKeys(lines, d, k);
    }
  }

  /** Lines that define other keys do not affect what is loaded for `k`. */
  lemma LoadIgnoresOtherKeys(lines: seq<string>, d: char, k: string)
    requires forall i :: 0 <= i < |lines| ==> KeyOf(lines[i], d) != Some(k)
    ensures k !in LoadLines(lines, d)
  {
    LoadedKeys(lines, d, k);
  }

  /** The item a line defines is what is loaded for its key, unless a later line defines the key again. */
  lemma LoadLastWins(lines: seq<string>, d: char, i: nat, k: string, item: Item)
    requires i < |lines| && Entry(lines[i], d) == Some((k, item))
    requires forall j :: i < j < |lines| ==> KeyOf(lines[j], d) != Some(k)
    ensures k in LoadLines(lines, d) && LoadLines(lines, d)[k] == item
  {
    var es := Entries(lines, d);
    forall j | i < j < |es| ensures !Defines(es[j], k) {
      assert KeyOf(lines[j], d) != Some(k);
    }
    FoldLastWins(es, i, k, item);
  }

  // ---------------------------------------------------------------------
  // update / remove
  // ---------------------------------------------------------------------

  /** A line `update` treats as the entry for `key`: it begins with the key and the delimiter. */
  predicate Matches(line: string, key: string, d: char) {
    StartsWith(line, key + [d])
  }

  /** The index of the first line that matches `key`. */
  function FirstMatch(lines: seq<string>, key: string, d: char): (r: Option<nat>)
    ensures r.Some? ==> r.value < |lines| && Matches(lines[r.value], key, d)
    ensures r.Some? ==> forall j :: 0 <= j < r.value ==> !Matches(lines[j], key, d)
    ensures r.None? ==> forall j :: 0 <= j < |lines| ==> !Matches(lines[j], key, d)
    decreases |lines|
  {
    if |lines| == 0 then None
    else if Matches(lines[0], key, d) then Some(0)
    else match FirstMatch(lines[1..], key, d)
      case None => None
      case Some(i) => Some(i + 1)
  }

  /**
   * The named parameters of the bound methods `update(self, path, mapkey,
   * *values, **params)` and `_to_map_line(self, key, *values, **params)`,
   * which `update` calls with the same params whenever it has any.
   */
  const UpdateArgs: set<string> := {"self", "path", "mapkey", "key"}

  /** Whether `update`'s keyword params bind: none repeats one of its named parameters. */
  predicate Binds(params: seq<(string, string)>) {
    Events.FreeOf(ParamsOf(params), UpdateArgs)
  }

  /**
   * The lines `update` writes back once its params bind: the first matching
   * line replaced by the new entry, or deleted when there is no data; with
   * no match, the new entry appended when there is data.
   */
  function UpdateLines(lines: seq<string>, key: string, values: seq<string>, params: seq<(string, string)>, d: char): seq<string>
  {
    var hasData := |values| > 0 || |params| > 0;
    var entry := ToMapLine(key, values, params, d) + "\n";
    match FirstMatch(lines, key, d)
    case Some(i) => if hasData then lines[i := entry] else lines[..i] + lines[i + 1..]
    case None => if hasData then lines + [entry] else lines
  }

  /**
   * `update`, with the loop over the file's lines written out as in the
   * source. A param that repeats a named parameter raises `TypeError` when
   * `_to_map_line` is called, before anything is written.
   */
  method Update(lines: seq<string>, key: string, values: seq<string>, params: seq<(string, string)>, d: char)
    returns (res: Result<seq<string>>)
    ensures !Binds(params) ==> res == Err(TypeError)
    ensures Binds(params) ==> res == Ok(UpdateLines(lines, key, values, params, d))
  {
    if !Binds(params) {
      return Err(TypeError);
    }
    var r := lines;
    var done := false;
    var i := 0;
    while i < |r|
      invariant 0 <= i <= |lines|
      invariant !done ==> r == lines
      invariant !done ==> forall j :: 0 <= j < i ==> !Matches(lines[j], key, d)
      invariant done ==> r == UpdateLines(lines, key, values, params, d)
      decreases if done then 0 else |lines| - i + 1
    {
      // Python's `line[:len(key) + 1]` clamps the slice to the line's length
      var n := if |key| + 1 <= |r[i]| then |key| + 1 else |r[i]|;
      if r[i][..n] == key + [d] {
        if |values| > 0 || |params| > 0 {
          r := r[i := ToMapLine(key, values, params, d) + "\n"];
        } else {
          r := r[..i] + r[i + 1..];
        }
        done := true;
        break;
      }
      i := i + 1;
    }
    if !done && (|values| > 0 || |params| > 0) {
      r := r + [ToMapLine(key, values, params, d) + "\n"];
    }
    res := Ok(r);
  }

  /** `remove(path, key)` is `update(path, key)` with no data. */
  function Remove(lines: seq<string>, key: string, d: char): (r: seq<string>)
    ensures FirstMatch(lines, key, d).None? ==> r == lines
    ensures FirstMatch(lines, key, d).Some? ==> |r| == |lines| - 1
    ensures FirstMatch(lines, key, d).Some? ==>
              var i := FirstMatch(lines, key, d).value;
              i < |lines| && r == lines[..i] + lines[i + 1..]
  {
    UpdateLines(lines, key, [], [], d)
  }

  /** A line written for `key` matches `key` in a later `update`. */
  lemma WrittenLineMatches(key: string, values: seq<string>, params: seq<(string, string)>, d: char)
    requires |values| > 0 || |params| > 0
    ensures Matches(ToMapLine(key, values, params, d) + "\n", key, d)
  {
    var fields := [key] + (values + ParamFields(params));
    assert fields[1..] == values + ParamFields(params);
    assert Join(fields, d) == key + [d] + Join(fields[1..], d);
  }

  /** A line for one key never matches a different key, even one that is a prefix of it. */
  lemma MatchesOneKey(line: string, key: string, other: string, d: char)
    requires d !in key && d !in other
    requires Matches(line, key, d) && Matches(line, other, d)
    ensures key == other
  {
    assert line[|key|] == d && line[|other|] == d;
    assert forall j :: 0 <= j < |key| ==> line[j] == key[j];
    assert forall j :: 0 <= j < |other| ==> line[j] == other[j];
  }

  /** Updating twice with the same data is updating once. */
  lemma UpdateIdempotent(lines: seq<string>, key: string, values: seq<string>, params: seq<(string, string)>, d: char)
    requires |values| > 0 || |params| > 0
    ensures var once := UpdateLines(lines, key, values, params, d);
            UpdateLines(once, key, values, params, d) == once
  {
    var once := UpdateLines(lines, key, values, params, d);
    var entry := ToMapLine(key, values, params, d) + "\n";
    WrittenLineMatches(key, values, params, d);
    match FirstMatch(lines, key, d)
    case Some(i) =>
      assert once == lines[i := entry];
      FirstMatchAt(once, key, d, i);
    case None =>
      assert once == lines + [entry];
      FirstMatchAt(once, key, d, |lines|);
  }

  lemma {:induction false} FirstMatchAt(lines: seq<string>, key: string, d: char, i: nat)
    requires i < |lines| && Matches(lines[i], key, d)
    requires forall j :: 0 <= j < i ==> !Matches(lines[j], key, d)
    ensures FirstMatch(lines, key, d) == Some(i)
    decreases i
  {
    if i > 0 {
      FirstMatchAt(lines[1..], key, d, i - 1);
    }
  }

  /**
   * After `update` and a reload, the key maps to exactly the item written,
   * provided no line after the edited one defines the same key again
   * (a later line for a key wins on load). Params that do not bind make
   * `Update` raise instead.
   */
  lemma UpdateThenLoad(lines: seq<string>, key: string, values: seq<string>, params: seq<(string, string)>, d: char)
    requires |values| > 0 || |params| > 0
    requires Binds(params)
    requires LineOk(key, values, params, d)
    requires FirstMatch(lines, key, d).Some? ==>
               forall j :: FirstMatch(lines, key, d).value < j < |lines| ==> KeyOf(lines[j], d) != Some(key)
    ensures var m := LoadLines(UpdateLines(lines, key, values, params, d), d);
            key in m && m[key] == Item(values, ParamsOf(params))
  {
    var entry := ToMapLine(key, values, params, d) + "\n";
    EntryOfWrittenLine(key, values, params, d);
    match FirstMatch(lines, key, d)
    case Some(i) =>
      ReplacedThenLoad(lines, i, entry, key, Item(values, ParamsOf(params)), d);
    case None =>
      AppendedThenLoad(lines, entry, key, Item(values, ParamsOf(params)), d);
  }

  lemma ReplacedThenLoad(lines: seq<string>, i: nat, entry: string, key: string, item: Item, d: char)
    requires i < |lines| && Entry(entry, d) == Some((key, item))
    requires forall j :: i < j < |lines| ==> KeyOf(lines[j], d) != Some(key)
    ensures var m := LoadLines(lines[i := entry], d);
            key in m && m[key] == item
  {
    var updated := lines[i := entry];
    assert updated[i] == entry;
    forall j | i < j < |updated| ensures KeyOf(updated[j], d) != Some(key) {
      assert updated[j] == lines[j];
    }
    LoadLastWins(updated, d, i, key, item);
  }

  lemma AppendedThenLoad(lines: seq<string>, entry: string, key: string, item: Item, d: char)
    requires Entry(entry, d) == Some((key, item))
    ensures var m := LoadLines(lines + [entry], d);
            key in m && m[key] == item
  {
    var updated := lines + [entry];
    assert updated[|lines|] == entry;
    LoadLastWins(updated, d, |lines|, key, item);
  }

  /**
   * After `remove` and a reload the key is gone, provided the removed line
   * was the only line defining it.
   */
  lemma RemoveThenLoad(lines: seq<string>, key: string, d: char)
    requires FirstMatch(lines, key, d).Some? ==>
               forall j :: 0 <= j < |lines| && j != FirstMatch(lines, key, d).value ==> KeyOf(lines[j], d) != Some(key)
    requires FirstMatch(lines, key, d).None? ==> forall j :: 0 <= j < |lines| ==> KeyOf(lines[j], d) != Some(key)
    ensures key !in LoadLines(Remove(lines, key, d), d)
  {
    var r := Remove(lines, key, d);
    match FirstMatch(lines, key, d)
    case Some(i) =>
      assert r == lines[..i] + lines[i + 1..];
      forall j | 0 <= j < |r| ensures KeyOf(r[j], d) != Some(key) {
        if j < i { assert r[j] == lines[j]; } else { assert r[j] == lines[j + 1]; }
      }
      LoadIgnoresOtherKeys(r, d, key);
    case None =>
      LoadIgnoresOtherKeys(r, d, key);
  }

  // ---------------------------------------------------------------------
  // Other keys are not affected by update
  // ---------------------------------------------------------------------

  /** Two maps agree on `k`: both lack it, or both map it to the same item. */
  predicate SameAt(a: Map, b: Map, k: string) {
    (k in a <==> k in b) && (k in a ==> a[k] == b[k])
  }

  /** `strip()` keeps a prefix that starts and ends with non-whitespace. */
  lemma StripKeepsPrefix(line: string, p: string)
    requires StartsWith(line, p) && |p| > 0 && !IsSpace(p[0]) && !IsSpace(p[|p| - 1])
    ensures StartsWith(Strip(line), p)
  {
    assert TrimStart(line) == line;
    var s := Strip(line);
    assert s == line[..|s|];
    assert line[|p| - 1] == p[|p| - 1];
  }

  /** The key `_process_line` reads is the text before the first delimiter. */
  lemma ProcessLineKey(s: string, key: string, d: char)
    requires StartsWith(s, key + [d]) && d !in key
    ensures ProcessLine(s, d).Ok? && ProcessLine(s, d).value.0 == key
  {
    assert s[|key|] == d;
    assert s[..|key|] == key;
    IndexOfAt(s, d, |key|);
    assert Split(s, d)[0] == key;
  }

  /** A line `update` matches for `key` is a line `_load` reads as defining `key`. */
  lemma MatchedLineKey(line: string, key: string, d: char)
    requires KeyOk(key, d) && Matches(line, key, d)
    ensures KeyOf(line, d) == Some(key)
  {
    assert line[0] == key[0];
    StripKeepsPrefix(line, key + [d]);
    ProcessLineKey(Strip(line), key, d);
  }

  lemma {:induction false} FoldReplaceOther(es: seq<Option<(string, Item)>>, i: nat, e: Option<(string, Item)>, k: string)
    requires i < |es| && !Defines(es[i], k) && !Defines(e, k)
    ensures SameAt(Fold(es[i := e]), Fold(es), k)
    decreases |es|
  {
    var es' := es[i := e];
    if i < |es| - 1 {
      assert es'[..|es'| - 1] == es[..|es| - 1][i := e];
      FoldReplaceOther(es[..|es| - 1], i, e, k);
    } else {
      assert es'[..|es'| - 1] == es[..|es| - 1];
    }
  }

  lemma {:induction false} FoldDeleteOther(es: seq<Option<(string, Item)>>, i: nat, k: string)
    requires i < |es| && !Defines(es[i], k)
    ensures SameAt(Fold(es[..i] + es[i + 1..]), Fold(es), k)
    decreases |es|
  {
    var es' := es[..i] + es[i + 1..];
    if i < |es| - 1 {
      var init := es[..|es| - 1];
      assert es'[..|es'| - 1] == init[..i] + init[i + 1..];
      assert es'[|es'| - 1] == es[|es| - 1];
      FoldDeleteOther(init, i, k);
    } else {
      assert es' == es[..|es| - 1];
    }
  }

  lemma EntriesReplace(lines: seq<string>, i: nat, line: string, d: char)
    requires i < |lines|
    ensures Entries(lines[i := line], d) == Entries(lines, d)[i := Entry(line, d)]
  {
  }

  lemma EntriesDelete(lines: seq<string>, i: nat, d: char)
    requires i < |lines|
    ensures Entries(lines[..i] + lines[i + 1..], d) == Entries(lines, d)[..i] + Entries(lines, d)[i + 1..]
  {
    EntriesConcat(lines[..i], lines[i + 1..], d);
    EntriesSlice(lines, 0, i, d);
    EntriesSlice(lines, i + 1, |lines|, d);
    assert lines[..i] == lines[0..i];
    assert lines[i + 1..] == lines[i + 1..|lines|];
  }

  lemma EntriesConcat(x: seq<string>, y: seq<string>, d: char)
    ensures Entries(x + y, d) == Entries(x, d) + Entries(y, d)
  {
    MapSeqConcat(EntryOf(d), x, y);
  }

  lemma EntriesSlice(lines: seq<string>, lo: nat, hi: nat, d: char)
    requires lo <= hi <= |lines|
    ensures Entries(lines[lo..hi], d) == Entries(lines, d)[lo..hi]
  {
    var a := Entries(lines[lo..hi], d);
    var b := Entries(lines, d)[lo..hi];
    forall j | 0 <= j < hi - lo ensures a[j] == b[j] {
      assert lines[lo..hi][j] == lines[lo + j];
    }
  }

  lemma EntriesAppend(lines: seq<string>, line: string, d: char)
    ensures Entries(lines + [line], d) == Entries(lines, d) + [Entry(line, d)]
  {
    var a := Entries(lines + [line], d);
    var b := Entries(lines, d) + [Entry(line, d)];
    forall j | 0 <= j < |a| ensures a[j] == b[j] {
      if j < |lines| {
        assert (lines + [line])[j] == lines[j];
      }
    }
  }

  lemma ReplaceKeepsOther(lines: seq<string>, i: nat, line: string, d: char, k: string)
    requires i < |lines| && KeyOf(lines[i], d) != Some(k) && KeyOf(line, d) != Some(k)
    ensures SameAt(LoadLines(lines[i := line], d), LoadLines(lines, d), k)
  {
    EntriesReplace(lines, i, line, d);
    FoldReplaceOther(Entries(lines, d), i, Entry(line, d), k);
  }

  lemma DeleteKeepsOther(lines: seq<string>, i: nat, d: char, k: string)
    requires i < |lines| && KeyOf(lines[i], d) != Some(k)
    ensures SameAt(LoadLines(lines[..i] + lines[i + 1..], d), LoadLines(lines, d), k)
  {
    EntriesDelete(lines, i, d);
    FoldDeleteOther(Entries(lines, d), i, k);
  }

  lemma AppendKeepsOther(lines: seq<string>, line: string, d: char, k: string)
    requires KeyOf(line, d) != Some(k)
    ensures SameAt(LoadLines(lines + [line], d), LoadLines(lines, d), k)
  {
    var es := Entries(lines, d);
    EntriesAppend(lines, line, d);
    assert (es + [Entry(line, d)])[..|es|] == es;
  }

  /** `update` for one key leaves what `_load` reads for every other key as it was. */
  lemma UpdateKeepsOtherKeys(lines: seq<string>, key: string, values: seq<string>, params: seq<(string, string)>, d: char, k: string)
    requires KeyOk(key, d) && k != key
    ensures SameAt(LoadLines(UpdateLines(lines, key, values, params, d), d), LoadLines(lines, d), k)
  {
    var entry := ToMapLine(key, values, params, d) + "\n";
    var hasData := |values| > 0 || |params| > 0;
    if hasData {
      WrittenLineMatches(key, values, params, d);
      MatchedLineKey(entry, key, d);
    }
    match FirstMatch(lines, key, d)
    case Some(i) =>
      MatchedLineKey(lines[i], key, d);
      if hasData {
        ReplaceKeepsOther(lines, i, entry, d, k);
      } else {
        DeleteKeepsOther(lines, i, d, k);
      }
    case None =>
      if hasData {
        AppendKeepsOther(lines, entry, d, k);
      }
  }
}

=== FILE: mapfile.dfy ===
/**
 * A key-map file as text. `update` reads the file with `readlines()`,
 * edits the list of lines and writes it back with `''.join(lines)`; the
 * next load reads the written text with `readlines()` again. A file that
 * does not exist reads as the empty text.
 */
module MapFile {
  import opened Wrappers
  import opened Text
  import opened KeyMap

  /** `readlines()`: the text cut after every newline; a last line without one is kept as it is. */
  function ReadLines(s: string): (r: seq<string>)
    decreases |s|
  {
    if s == "" then []
    else match IndexOf(s, '\n')
      case None => [s]
      case Some(i) => [s[..i + 1]] + ReadLines(s[i + 1..])
  }

  /** `''.join(lines)`. */
  function Concat(lines: seq<string>): string
  {
    if |lines| == 0 then "" else lines[0] + Concat(lines[1..])
  }

  predicate Terminated(line: string) {
    |line| > 0 && line[|line| - 1] == '\n'
  }

  /** A single line: non-empty, with no newline before its last character. */
  predicate Single(line: string) {
    |line| > 0 && '\n' !in line[..|line| - 1]
  }

  /** The shape `readlines()` produces: single lines, all but the last terminated. */
  predicate Shaped(lines: seq<string>) {
    && (forall i :: 0 <= i < |lines| ==> Single(lines[i]))
    && (forall i :: 0 <= i < |lines| - 1 ==> Terminated(lines[i]))
  }

  /** Every line single and terminated: the text ends with a newline. */
  predicate Complete(lines: seq<string>) {
    forall i :: 0 <= i < |lines| ==> Single(lines[i]) && Terminated(lines[i])
  }

  /** Writing back what was read reproduces the text. */
  lemma {:induction false} ConcatReadLines(s: string)
    ensures Concat(ReadLines(s)) == s
    decreases |s|
  {
    if s != "" {
      match IndexOf(s, '\n')
      case None =>
      case Some(i) =>
        ConcatReadLines(s[i + 1..]);
        assert s == s[..i + 1] + s[i + 1..];
    }
  }

  /** `readlines()` yields single lines, all but the last terminated. */
  lemma {:induction false} ReadLinesShaped(s: string)
    ensures Shaped(ReadLines(s))
    decreases |s|
  {
    if s != "" {
      match IndexOf(s, '\n')
      case None =>
        assert s[..|s| - 1] <= s;
      case Some(i) =>
        ReadLinesShaped(s[i + 1..]);
        var h := s[..i + 1];
        assert h[..i] == s[..i];
        assert Single(h) && Terminated(h);
        var r := ReadLines(s);
        var t := ReadLines(s[i + 1..]);
        assert r == [h] + t;
        forall j | 0 <= j < |r| ensures Single(r[j]) {
          if j > 0 { assert r[j] == t[j - 1]; }
        }
        forall j | 0 <= j < |r| - 1 ensures Terminated(r[j]) {
          if j > 0 { assert r[j] == t[j - 1]; }
        }
    }
  }

  /** A text ending with a newline reads as complete lines. */
  lemma ReadLinesComplete(s: string)
    requires s == "" || s[|s| - 1] == '\n'
    ensures Complete(ReadLines(s))
  {
    ReadLinesShaped(s);
    ConcatReadLines(s);
    var r := ReadLines(s);
    if |r| > 0 {
      ConcatLast(r);
    }
  }

  /** The text's last character is the last line's last character. */
  lemma {:induction false} ConcatLast(lines: seq<string>)
    requires |lines| > 0 && |lines[|lines| - 1]| > 0
    ensures var s := Concat(lines);
            var l := lines[|lines| - 1];
            |s| > 0 && s[|s| - 1] == l[|l| - 1]
    decreases |lines|
  {
    if |lines| > 1 {
      ConcatLast(lines[1..]);
    }
  }

  /** Reading back lines of the shape `readlines()` produces gives the same lines. */
  lemma {:induction false} ReadLinesConcat(lines: seq<string>)
    requires Shaped(lines)
    ensures ReadLines(Concat(lines)) == lines
    decreases |lines|
  {
    if |lines| > 0 {
      var h := lines[0];
      var rest := lines[1..];
      assert Concat(lines) == h + Concat(rest);
      ShapedRest(lines);
      if Terminated(h) {
        ReadLinesFirst(h, Concat(rest));
        ReadLinesConcat(rest);
        assert lines == [h] + rest;
      } else {
        assert |lines| == 1 && Concat(rest) == "";
        assert Concat(lines) == h;
        ReadLinesLast(h);
      }
    }
  }

  /** Dropping the first line keeps the shape. */
  lemma ShapedRest(lines: seq<string>)
    requires Shaped(lines) && |lines| > 0
    ensures Shaped(lines[1..])
  {
    var rest := lines[1..];
    forall j | 0 <= j < |rest| ensures Single(rest[j]) {
      assert rest[j] == lines[j + 1];
    }
    forall j | 0 <= j < |rest| - 1 ensures Terminated(rest[j]) {
      assert rest[j] == lines[j + 1];
    }
  }

  /** A terminated single line is read off the front of a text. */
  lemma ReadLinesFirst(h: string, t: string)
    requires Single(h) && Terminated(h)
    ensures ReadLines(h + t) == [h] + ReadLines(t)
  {
    var s := h + t;
    assert s[..|h| - 1] == h[..|h| - 1];
    IndexOfAt(s, '\n', |h| - 1);
    assert s[..|h|] == h;
    assert s[|h|..] == t;
  }

  /** A single line without a newline reads as itself. */
  lemma ReadLinesLast(h: string)
    requires Single(h) && !Terminated(h)
    ensures ReadLines(h) == [h]
  {
    assert h == h[..|h| - 1] + [h[|h| - 1]];
    assert '\n' !in h;
  }

  /** `''.join(lines)` distributes over concatenation of line lists. */
  lemma {:induction false} ConcatAppend(a: seq<string>, b: seq<string>)
    ensures Concat(a + b) == Concat(a) + Concat(b)
    decreases |a|
  {
    if |a| > 0 {
      assert (a + b)[1..] == a[1..] + b;
      ConcatAppend(a[1..], b);
    } else {
      assert a + b == b;
    }
  }

  // ---------------------------------------------------------------------
  // update on the file's text
  // ---------------------------------------------------------------------

  /**
   * `update(path, key, *values, **params)` as the source does it: the text is
   * read with `readlines()`, edited, and written back joined.
   */
  function UpdateTextAsWritten(text: string, key: string, values: seq<string>, params: seq<(string, string)>, d: char): string
  {
    Concat(UpdateLines(ReadLines(text), key, values, params, d))
  }

  /** A single line reads back as itself. */
  lemma ReadOneLine(line: string)
    requires Single(line)
    ensures ReadLines(line) == [line]
  {
    assert Concat([line]) == line;
    ReadLinesConcat([line]);
  }

  lemma GluedEntry()
    ensures ToMapLine("b", ["y"], [], '|') == "b|y"
  {
    var noParams: seq<(string, string)> := [];
    assert ParamFields(noParams) == [];
    assert ["b"] + (["y"] + ParamFields(noParams)) == ["b", "y"];
    assert Join(["b", "y"], '|') == "b|y";
  }

  lemma GluedLines()
    ensures UpdateLines(["a|x"], "b", ["y"], [], '|') == ["a|x", "b|y\n"]
  {
    GluedEntry();
    assert "a|x"[..2][0] == 'a';
    assert !Matches("a|x", "b", '|');
    assert FirstMatch(["a|x"], "b", '|') == None;
    assert "b|y" + "\n" == "b|y\n";
  }

  lemma GluedText()
    ensures UpdateTextAsWritten("a|x", "b", ["y"], [], '|') == "a|xb|y\n"
  {
    ReadOneLine("a|x");
    GluedLines();
    assert Concat(["a|x", "b|y\n"]) == "a|xb|y\n";
  }

  /**
   * Appending to a file whose last line has no newline glues the new entry
   * onto that line: reloading finds no entry for the new key.
   */
  lemma AppendGluesToLastLine()
    ensures UpdateTextAsWritten("a|x", "b", ["y"], [], '|') == "a|xb|y\n"
    ensures ReadLines("a|xb|y\n") == ["a|xb|y\n"]
    ensures "b" !in LoadLines(ReadLines("a|xb|y\n"), '|')
  {
    GluedText();
    GluedLineReads();
    GluedLineLoad();
  }

  lemma GluedLineLoad()
    ensures "b" !in LoadLines(["a|xb|y\n"], '|')
  {
    GluedLineKey();
    SingleLineOtherKey("a|xb|y\n", '|', "b");
  }

  /** A file of one line defines no key but that line's. */
  lemma SingleLineOtherKey(line: string, d: char, k: string)
    requires KeyOf(line, d) != Some(k)
    ensures k !in LoadLines([line], d)
  {
    LoadIgnoresOtherKeys([line], d, k);
  }

  lemma GluedLineReads()
    ensures ReadLines("a|xb|y\n") == ["a|xb|y\n"]
  {
    ReadOneLine("a|xb|y\n");
  }

  lemma GluedLineKey()
    ensures KeyOf("a|xb|y\n", '|') == Some("a")
  {
    MatchedLineKey("a|xb|y\n", "a", '|');
  }

  /** The edited lines with the last one terminated, so that an appended entry starts a line of its own. */
  function Terminate(lines: seq<string>): seq<string>
  {
    if |lines| > 0 && !Terminated(lines[|lines| - 1]) then lines[|lines| - 1 := lines[|lines| - 1] + "\n"]
    else lines
  }

  /** `update` on the file's text, with the last line terminated before any line is appended. */
  function UpdateText(text: string, key: string, values: seq<string>, params: seq<(string, string)>, d: char): string
  {
    Concat(UpdateLines(Terminate(ReadLines(text)), key, values, params, d))
  }

  /**
   * `remove(path, key)`: `update` with no data, on the lines as read. With
   * nothing to append there is nothing to terminate, so the source's
   * `update` is used as it is.
   */
  function RemoveText(text: string, key: string, d: char): string
  {
    UpdateTextAsWritten(text, key, [], [], d)
  }

  /** On a file that ends with a newline, the corrected `update` is the source's. */
  lemma UpdateTextAgrees(text: string, key: string, values: seq<string>, params: seq<(string, string)>, d: char)
    requires text == "" || text[|text| - 1] == '\n'
    ensures UpdateText(text, key, values, params, d) == UpdateTextAsWritten(text, key, values, params, d)
  {
    ReadLinesComplete(text);
  }

  /** Terminating a line does not change what `_load` reads from it. */
  lemma EntryTerminate(line: string, d: char)
    ensures Entry(line + "\n", d) == Entry(line, d)
  {
    if line == "" {
      EntryTerminateEmpty(line, d);
    } else {
      EntryTerminateNonEmpty(line, d);
    }
  }

  lemma EntryTerminateEmpty(line: string, d: char)
    requires line == ""
    ensures Entry(line + "\n", d) == None
  {
    var s := line + "\n";
    StripSpaceOnly(s);
    EntryAllSpace(s, d);
  }

  lemma EntryTerminateNonEmpty(line: string, d: char)
    requires line != ""
    ensures Entry(line + "\n", d) == Entry(line, d)
  {
    var s := line + "\n";
    assert s == line + ['\n'];
    StripSnocSpace(line, '\n');
    assert s[0] == line[0];
    EntryByStrip(s, line, d);
  }

  /** A line of one blank character strips to nothing. */
  lemma StripSpaceOnly(s: string)
    requires |s| == 1 && IsSpace(s[0])
    ensures Strip(s) == ""
  {
    StripSnocSpace(s[..0], s[0]);
    assert s[..0] + [s[0]] == s;
  }

  /** Two lines that start alike and strip alike define the same entry. */
  lemma EntryByStrip(a: string, b: string, d: char)
    requires a != "" && b != "" && a[0] == b[0] && Strip(a) == Strip(b)
    ensures Entry(a, d) == Entry(b, d)
  {
  }

  lemma EntryAllSpace(line: string, d: char)
    requires line != "" && line[0] != '#' && Strip(line) == ""
    ensures Entry(line, d) == None
  {
  }

  /** Terminating a line does not change whether `update` matches it, the delimiter not being a newline. */
  lemma MatchesTerminate(line: string, key: string, d: char)
    requires d != '\n'
    ensures Matches(line + "\n", key, d) == Matches(line, key, d)
  {
    var p := key + [d];
    if |p| <= |line| {
      assert (line + "\n")[..|p|] == line[..|p|];
    } else if |p| == |line| + 1 {
      assert (line + "\n")[|line|] != p[|line|];
    }
  }

  lemma {:induction false} FirstMatchPointwise(a: seq<string>, b: seq<string>, key: string, d: char)
    requires |a| == |b|
    requires forall j :: 0 <= j < |a| ==> (Matches(a[j], key, d) <==> Matches(b[j], key, d))
    ensures FirstMatch(a, key, d) == FirstMatch(b, key, d)
    decreases |a|
  {
    if |a| > 0 {
      FirstMatchPointwise(a[1..], b[1..], key, d);
    }
  }

  /** Terminating the last line changes neither what `update` matches nor what `_load` reads. */
  lemma TerminateSame(lines: seq<string>, key: string, d: char)
    requires d != '\n'
    ensures |Terminate(lines)| == |lines|
    ensures FirstMatch(Terminate(lines), key, d) == FirstMatch(lines, key, d)
    ensures forall j :: 0 <= j < |lines| ==> Entry(Terminate(lines)[j], d) == Entry(lines[j], d)
    ensures LoadLines(Terminate(lines), d) == LoadLines(lines, d)
  {
    TerminateMatches(lines, key, d);
    TerminateEntries(lines, d);
    var t := Terminate(lines);
    forall j | 0 <= j < |lines| ensures Entry(t[j], d) == Entry(lines[j], d) {
      assert Entries(t, d)[j] == Entries(lines, d)[j];
    }
  }

  lemma TerminateMatches(lines: seq<string>, key: string, d: char)
    requires d != '\n'
    ensures FirstMatch(Terminate(lines), key, d) == FirstMatch(lines, key, d)
  {
    var t := Terminate(lines);
    if |lines| > 0 && !Terminated(lines[|lines| - 1]) {
      var n := |lines| - 1;
      MatchesTerminate(lines[n], key, d);
      forall j | 0 <= j < |lines| ensures Matches(t[j], key, d) <==> Matches(lines[j], key, d) {
        if j < n {
          assert t[j] == lines[j];
        }
      }
      FirstMatchPointwise(t, lines, key, d);
    }
  }

  lemma TerminateEntries(lines: seq<string>, d: char)
    ensures Entries(Terminate(lines), d) == Entries(lines, d)
  {
    if |lines| > 0 && !Terminated(lines[|lines| - 1]) {
      var n := |lines| - 1;
      EntryTerminate(lines[n], d);
      EntriesUpdateAt(lines, n, lines[n] + "\n", d);
    }
  }

  /** Replacing one line by a line with the same entry leaves the entries as they were. */
  lemma EntriesUpdateAt(lines: seq<string>, n: nat, x: string, d: char)
    requires n < |lines| && Entry(x, d) == Entry(lines[n], d)
    ensures Entries(lines[n := x], d) == Entries(lines, d)
  {
    var t := lines[n := x];
    var a := Entries(t, d);
    var b := Entries(lines, d);
    forall j | 0 <= j < |lines| ensures a[j] == b[j] {
      if j != n {
        assert t[j] == lines[j];
      }
    }
  }

  lemma TerminateComplete(lines: seq<string>)
    requires Shaped(lines)
    ensures Complete(Terminate(lines))
  {
    var t := Terminate(lines);
    if |lines| > 0 && !Terminated(lines[|lines| - 1]) {
      var l := lines[|lines| - 1];
      assert (l + "\n")[..|l|] == l;
      assert Single(t[|lines| - 1]);
    }
  }

  /** The fields of an entry carry no newline. */
  predicate NoNewline(key: string, values: seq<string>, params: seq<(string, string)>) {
    && '\n' !in key
    && (forall i :: 0 <= i < |values| ==> '\n' !in values[i])
    && (forall i :: 0 <= i < |params| ==> '\n' !in params[i].0 && '\n' !in params[i].1)
  }

  lemma EntryLineSingle(key: string, values: seq<string>, params: seq<(string, string)>, d: char)
    requires d != '\n' && NoNewline(key, values, params)
    ensures Single(ToMapLine(key, values, params, d) + "\n")
  {
    var rest := values + ParamFields(params);
    var fields := [key] + rest;
    forall i | 0 <= i < |fields| ensures '\n' !in fields[i] {
      if 1 + |values| <= i {
        var p := params[i - 1 - |values|];
        assert fields[i] == p.0 + "=" + p.1;
      } else if 1 <= i {
        assert fields[i] == values[i - 1];
      }
    }
    JoinFree(fields, d, '\n');
    var line := ToMapLine(key, values, params, d);
    assert (line + "\n")[..|line|] == line;
  }

  /** `update` keeps every line complete when the entry it writes is a single line. */
  lemma UpdateLinesComplete(lines: seq<string>, key: string, values: seq<string>, params: seq<(string, string)>, d: char)
    requires Complete(lines)
    requires (|values| > 0 || |params| > 0) ==> Single(ToMapLine(key, values, params, d) + "\n")
    ensures Complete(UpdateLines(lines, key, values, params, d))
  {
    var entry := ToMapLine(key, values, params, d) + "\n";
    match FirstMatch(lines, key, d)
    case Some(i) =>
      if |values| == 0 && |params| == 0 {
        var r := lines[..i] + lines[i + 1..];
        forall j | 0 <= j < |r| ensures Single(r[j]) && Terminated(r[j]) {
          if j >= i { assert r[j] == lines[j + 1]; }
        }
      }
    case None =>
  }

  /**
   * After the corrected `update` and a reload, the key maps to exactly the
   * item written, whatever the text ended with, provided no line after the
   * edited one defines the key again and the params bind.
   */
  lemma TextUpdateThenLoad(text: string, key: string, values: seq<string>, params: seq<(string, string)>, d: char)
    requires |values| > 0 || |params| > 0
    requires Binds(params)
    requires LineOk(key, values, params, d) && NoNewline(key, values, params)
    requires var lines := ReadLines(text);
             FirstMatch(lines, key, d).Some? ==>
               forall j :: FirstMatch(lines, key, d).value < j < |lines| ==> KeyOf(lines[j], d) != Some(key)
    ensures var m := LoadLines(ReadLines(UpdateText(text, key, values, params, d)), d);
            key in m && m[key] == Item(values, ParamsOf(params))
  {
    var lines := ReadLines(text);
    var t := Terminate(lines);
    ReadLinesShaped(text);
    TerminateComplete(lines);
    TerminateLaterLines(lines, key, d);
    EntryLineSingle(key, values, params, d);
    var u := UpdateLines(t, key, values, params, d);
    UpdateLinesComplete(t, key, values, params, d);
    ReadLinesConcat(u);
    UpdateThenLoad(t, key, values, params, d);
  }

  /** Terminating the last line keeps the first match and the keys of the lines after it. */
  lemma TerminateLaterLines(lines: seq<string>, key: string, d: char)
    requires d != '\n'
    requires FirstMatch(lines, key, d).Some? ==>
               forall j :: FirstMatch(lines, key, d).value < j < |lines| ==> KeyOf(lines[j], d) != Some(key)
    ensures var t := Terminate(lines);
            FirstMatch(t, key, d).Some? ==>
              forall j :: FirstMatch(t, key, d).value < j < |t| ==> KeyOf(t[j], d) != Some(key)
  {
    var t := Terminate(lines);
    TerminateSame(lines, key, d);
    if FirstMatch(t, key, d).Some? {
      forall j | FirstMatch(t, key, d).value < j < |t| ensures KeyOf(t[j], d) != Some(key) {
        assert KeyOf(lines[j], d) != Some(key);
      }
    }
  }

  /** The corrected `update` leaves what a reload reads for every other key as it was. */
  lemma TextUpdateKeepsOtherKeys(text: string, key: string, values: seq<string>, params: seq<(string, string)>, d: char, k: string)
    requires KeyOk(key, d) && NoNewline(key, values, params) && k != key
    ensures SameAt(LoadLines(ReadLines(UpdateText(text, key, values, params, d)), d), LoadLines(ReadLines(text), d), k)
  {
    var lines := ReadLines(text);
    var t := Terminate(lines);
    ReadLinesShaped(text);
    TerminateComplete(lines);
    TerminateSame(lines, key, d);
    EntryLineSingle(key, values, params, d);
    var u := UpdateLines(t, key, values, params, d);
    UpdateLinesComplete(t, key, values, params, d);
    ReadLinesConcat(u);
    UpdateKeepsOtherKeys(t, key, values, params, d, k);
  }

  /** The text has at most one line for `key`, and that line is the one `update` edits. */
  predicate OnlyFirstDefines(text: string, key: string, d: char) {
    var lines := ReadLines(text);
    && (FirstMatch(lines, key, d).Some? ==>
          forall j :: 0 <= j < |lines| && j != FirstMatch(lines, key, d).value ==> KeyOf(lines[j], d) != Some(key))
    && (FirstMatch(lines, key, d).None? ==> forall j :: 0 <= j < |lines| ==> KeyOf(lines[j], d) != Some(key))
  }

  /** After `remove` and a reload the key is gone, provided the removed line was the only one defining it. */
  lemma TextRemoveThenLoad(text: string, key: string, d: char)
    requires OnlyFirstDefines(text, key, d)
    ensures key !in LoadLines(ReadLines(RemoveText(text, key, d)), d)
  {
    var lines := ReadLines(text);
    ReadLinesShaped(text);
    var u := Remove(lines, key, d);
    RemoveShaped(lines, key, d);
    ReadLinesConcat(u);
    RemoveThenLoad(lines, key, d);
  }

  /** Deleting a line keeps the shape `readlines()` produces. */
  lemma RemoveShaped(lines: seq<string>, key: string, d: char)
    requires Shaped(lines)
    ensures Shaped(Remove(lines, key, d))
  {
    var r := Remove(lines, key, d);
    if FirstMatch(lines, key, d).Some? {
      var i := FirstMatch(lines, key, d).value;
      forall j | 0 <= j < |r| ensures Single(r[j]) {
        if j < i { assert r[j] == lines[j]; } else { assert r[j] == lines[j + 1]; }
      }
      forall j | 0 <= j < |r| - 1 ensures Terminated(r[j]) {
        if j < i { assert r[j] == lines[j]; } else { assert r[j] == lines[j + 1]; }
      }
    }
  }
}

=== FILE: registry.dfy ===
/**
 * The supervisor's subscription table, shared by plapperkasten and its
 * boxhead prototype (the two copies of `get_subscribers`, `register`,
 * `unregister` and `unregister_from_all` are the same code), and the
 * per-plugin queues that events are delivered through.
 */
module Registry {
  /** Event name to the names of the plugins subscribed to it, in subscription order. */
  type Table = map<string, seq<string>>

  /**
   * A queue to a plugin: still usable, or closed (a put raises `ValueError`).
   * A `capacity` of 0 stands for a queue created without a maximum size.
   */
  datatype Queue<T> = Live(items: seq<T>, capacity: nat) | Closed

  /** The supervisor's routing state: the table and the queue to each plugin by name. */
  datatype Hub<T> = Hub(table: Table, queues: map<string, Queue<T>>)

  predicate NoDup<T(==)>(s: seq<T>) {
    forall i, j :: 0 <= i < j < |s| ==> s[i] != s[j]
  }

  /** No subscriber list names a plugin twice. */
  predicate Valid(t: Table) {
    forall ev :: ev in t ==> NoDup(t[ev])
  }

  /** `get_subscribers` leaves this table behind: an unknown event gets an empty list. */
  function Touch(t: Table, ev: string): (r: Table)
    ensures r.Keys == t.Keys + {ev}
    ensures forall k :: k in t ==> r[k] == t[k]
    ensures ev !in t ==> r[ev] == []
  {
    if ev in t then t else t[ev := []]
  }

  /** Python's `list.remove` when the element is known to be present; the whole list otherwise. */
  function RemoveFirst<T(==, !new)>(s: seq<T>, x: T): (r: seq<T>)
    ensures x !in s ==> r == s
    ensures x in s ==> |r| == |s| - 1
  {
    if |s| == 0 then s
    else if s[0] == x then
      assert s == [s[0]] + s[1..];
      s[1..]
    else
      assert s == [s[0]] + s[1..];
      [s[0]] + RemoveFirst(s[1..], x)
  }

  /** `list.remove` takes out exactly one occurrence of `x` when there is one. */
  lemma {:induction false} RemoveFirstCount<T(!new)>(s: seq<T>, x: T)
    ensures multiset(RemoveFirst(s, x)) == multiset(s) - multiset{x}
  {
    if |s| > 0 {
      assert s == [s[0]] + s[1..];
      if s[0] != x {
        RemoveFirstCount(s[1..], x);
        assert RemoveFirst(s, x) == [s[0]] + RemoveFirst(s[1..], x);
      }
    }
  }

  /** Every element but `x`, in order: the reference for removing a name from a duplicate-free list. */
  function Without<T(==, !new)>(s: seq<T>, x: T): (r: seq<T>)
    ensures forall y :: y in r <==> y in s && y != x
  {
    if |s| == 0 then []
    else (if s[0] == x then [] else [s[0]]) + Without(s[1..], x)
  }

  /**
   * `register`: creates the event's list if needed; an exclusive registration
   * replaces the list by `[who]`, any other appends `who` unless already there.
   */
  function Register(t: Table, ev: string, who: string, exclusive: bool): (r: Table)
    ensures r.Keys == t.Keys + {ev}
    ensures forall k :: k in t && k != ev ==> r[k] == t[k]
    ensures exclusive ==> r[ev] == [who]
    ensures !exclusive ==>
              var before := Touch(t, ev)[ev];
              && (forall y :: y in r[ev] <==> y == who || y in before)
              && |before| <= |r[ev]| <= |before| + 1
              && r[ev][..|before|] == before
  {
    var t := Touch(t, ev);
    if exclusive then t[ev := [who]]
    else if who in t[ev] then t
    else t[ev := t[ev] + [who]]
  }

  /** `unregister`: removes the first `who` from that one event's list (created if missing). */
  function Unregister(t: Table, ev: string, who: string): (r: Table)
    ensures r.Keys == t.Keys + {ev}
    ensures forall k :: k in t && k != ev ==> r[k] == t[k]
    ensures who !in Touch(t, ev)[ev] ==> r == Touch(t, ev)
  {
    var t := Touch(t, ev);
    var s := RemoveFirst(t[ev], who);
    assert who !in t[ev] ==> t[ev := s] == t;
    t[ev := s]
  }

  /** `unregister` takes exactly one `who` off the event's list when it holds one. */
  lemma UnregisterCount(t: Table, ev: string, who: string)
    ensures multiset(Unregister(t, ev, who)[ev]) == multiset(Touch(t, ev)[ev]) - multiset{who}
  {
    RemoveFirstCount(Touch(t, ev)[ev], who);
  }

  /** `unregister_from_all`: removes the first `who` from every list. */
  function UnregisterFromAll(t: Table, who: string): (r: Table)
    ensures r.Keys == t.Keys
    ensures forall k :: k in t ==> |r[k]| <= |t[k]|
  {
    map k | k in t :: RemoveFirst(t[k], who)
  }

  /** Append to a live queue; a closed queue stays closed. */
  function Append<T>(q: Queue<T>, x: T): (r: Queue<T>)
    ensures q.Live? ==> r.Live? && r.items == q.items + [x] && r.capacity == q.capacity
    ensures q.Closed? ==> r == q
  {
    match q
    case Live(items, capacity) => Live(items + [x], capacity)
    case Closed => Closed
  }

  /** Every queue of a name in `subs` with `x` appended; all other queues as they were. */
  function Broadcast<T>(qs: map<string, Queue<T>>, subs: seq<string>, x: T): (r: map<string, Queue<T>>)
    ensures r.Keys == qs.Keys
    ensures forall w :: w in qs && w in subs ==> r[w] == Append(qs[w], x)
    ensures forall w :: w in qs && w !in subs ==> r[w] == qs[w]
  {
    map w | w in qs :: if w in subs then Append(qs[w], x) else qs[w]
  }

  /** Delivering to one more subscriber changes only that subscriber's queue. */
  lemma BroadcastSnoc<T>(qs: map<string, Queue<T>>, subs: seq<string>, w: string, x: T)
    requires w in qs && w !in subs
    ensures Broadcast(qs, subs + [w], x) == Broadcast(qs, subs, x)[w := Append(qs[w], x)]
  {
    var a := Broadcast(qs, subs + [w], x);
    var b := Broadcast(qs, subs, x)[w := Append(qs[w], x)];
    forall v | v in qs ensures a[v] == b[v] {
      if v != w {
        assert v in subs + [w] <==> v in subs;
      }
    }
  }

  /** In a list without repetitions, an element does not occur before its own position. */
  lemma NoDupFresh<T>(s: seq<T>, i: nat)
    requires NoDup(s) && i < |s|
    ensures s[i] !in s[..i]
  {
    forall j | 0 <= j < i ensures s[..i][j] != s[i] {
      assert s[..i][j] == s[j];
    }
  }

  /** A live queue with room for one more item. */
  predicate HasRoom<T>(q: Queue<T>) {
    q.Live? && (q.capacity == 0 || |q.items| < q.capacity)
  }

  /**
   * What `emit` does to a plugin whose queue is missing or closed:
   * `unregister_from_all` followed by `delete_queue_to_plugin`.
   */
  function Heal<T>(h: Hub<T>, who: string): (r: Hub<T>)
    ensures r.table.Keys == h.table.Keys
    ensures r.queues.Keys == h.queues.Keys - {who}
    ensures forall k :: k in h.table ==> |r.table[k]| <= |h.table[k]|
  {
    Hub(UnregisterFromAll(h.table, who), h.queues - {who})
  }

  /**
   * Healing a valid hub takes `who` off every subscriber list, keeping the
   * other names in order, and drops its queue and no other.
   */
  lemma HealRemoves<T>(h: Hub<T>, who: string)
    requires Valid(h.table)
    ensures var r := Heal(h, who);
            && who !in r.queues
            && (forall w :: w in h.queues && w != who ==> w in r.queues && r.queues[w] == h.queues[w])
            && (forall k :: k in h.table ==> r.table[k] == Without(h.table[k], who) && who !in r.table[k])
            && Valid(r.table)
  {
    UnregisterFromAllRemoves(h.table, who);
    UnregisterFromAllKeepsValid(h.table, who);
  }

  lemma {:induction false} WithoutAbsent<T(!new)>(s: seq<T>, x: T)
    requires x !in s
    ensures Without(s, x) == s
  {
    if |s| > 0 {
      assert x !in s[1..];
      WithoutAbsent(s[1..], x);
      assert s == [s[0]] + s[1..];
    }
  }

  /** On a duplicate-free list, removing the first occurrence removes every occurrence and keeps the others in order. */
  lemma {:induction false} RemoveFirstNoDup<T(!new)>(s: seq<T>, x: T)
    requires NoDup(s)
    ensures RemoveFirst(s, x) == Without(s, x)
  {
    if |s| > 0 {
      assert NoDup(s[1..]);
      if s[0] == x {
        assert x !in s[1..];
        WithoutAbsent(s[1..], x);
      } else {
        RemoveFirstNoDup(s[1..], x);
      }
    }
  }

  lemma ConsNoDup<T>(a: T, s: seq<T>)
    requires a !in s && NoDup(s)
    ensures NoDup([a] + s)
  {
    var r := [a] + s;
    forall i, j | 0 <= i < j < |r|
      ensures r[i] != r[j]
    {
      assert r[j] == s[j - 1];
      if i > 0 {
        assert r[i] == s[i - 1];
      }
    }
  }

  lemma SnocNoDup<T>(s: seq<T>, x: T)
    requires x !in s && NoDup(s)
    ensures NoDup(s + [x])
  {
    var r := s + [x];
    forall i, j | 0 <= i < j < |r|
      ensures r[i] != r[j]
    {
      assert r[i] == s[i];
    }
  }

  lemma {:induction false} RemoveFirstSubset<T(!new)>(s: seq<T>, x: T, y: T)
    requires y in RemoveFirst(s, x)
    ensures y in s
  {
    if |s| > 0 && s[0] != x && y != s[0] {
      assert y in RemoveFirst(s[1..], x);
      RemoveFirstSubset(s[1..], x, y);
    }
  }

  lemma {:induction false} RemoveFirstKeepsNoDup<T(!new)>(s: seq<T>, x: T)
    requires NoDup(s)
    ensures NoDup(RemoveFirst(s, x))
  {
    if |s| > 0 {
      assert NoDup(s[1..]);
      if s[0] != x {
        RemoveFirstKeepsNoDup(s[1..], x);
        var rest := RemoveFirst(s[1..], x);
        assert s[0] !in rest by {
          if s[0] in rest {
            RemoveFirstSubset(s[1..], x, s[0]);
          }
        }
        ConsNoDup(s[0], rest);
      }
    }
  }

  /** Registering the same pair again changes nothing. */
  lemma RegisterIdempotent(t: Table, ev: string, who: string, exclusive: bool)
    ensures Register(Register(t, ev, who, exclusive), ev, who, exclusive) == Register(t, ev, who, exclusive)
  {
    var r := Register(t, ev, who, exclusive);
    assert who in r[ev];
  }

  /** Every table operation keeps the subscriber lists duplicate-free: `register`, ... */
  lemma RegisterKeepsValid(t: Table, ev: string, who: string, exclusive: bool)
    requires Valid(t)
    ensures Valid(Register(t, ev, who, exclusive))
  {
    var before := Touch(t, ev)[ev];
    if !exclusive && who !in before {
      SnocNoDup(before, who);
    }
  }

  /** ... `unregister` ... */
  lemma UnregisterKeepsValid(t: Table, ev: string, who: string)
    requires Valid(t)
    ensures Valid(Unregister(t, ev, who))
  {
    RemoveFirstKeepsNoDup(Touch(t, ev)[ev], who);
  }

  /** ... and `unregister_from_all`. */
  lemma UnregisterFromAllKeepsValid(t: Table, who: string)
    requires Valid(t)
    ensures Valid(UnregisterFromAll(t, who))
  {
    var a := UnregisterFromAll(t, who);
    forall k | k in a
      ensures NoDup(a[k])
    {
      RemoveFirstKeepsNoDup(t[k], who);
    }
  }

  /** `unregister_from_all` takes exactly one `who` off every list that has one. */
  lemma UnregisterFromAllCounts(t: Table, who: string)
    ensures forall k :: k in t ==> multiset(UnregisterFromAll(t, who)[k]) == multiset(t[k]) - multiset{who}
  {
    forall k | k in t
      ensures multiset(UnregisterFromAll(t, who)[k]) == multiset(t[k]) - multiset{who}
    {
      assert UnregisterFromAll(t, who)[k] == RemoveFirst(t[k], who);
      RemoveFirstCount(t[k], who);
    }
  }

  /** On a valid table `unregister_from_all` leaves `who` in no list and every other name in its place. */
  lemma UnregisterFromAllRemoves(t: Table, who: string)
    requires Valid(t)
    ensures forall k :: k in t ==> UnregisterFromAll(t, who)[k] == Without(t[k], who)
    ensures forall k :: k in t ==> who !in UnregisterFromAll(t, who)[k]
  {
    forall k | k in t
      ensures UnregisterFromAll(t, who)[k] == Without(t[k], who)
    {
      RemoveFirstNoDup(t[k], who);
    }
  }

  lemma {:induction false} RemoveFirstAppend<T(!new)>(s: seq<T>, x: T)
    requires x !in s
    ensures RemoveFirst(s + [x], x) == s
  {
    if |s| > 0 {
      assert (s + [x])[0] == s[0] && (s + [x])[1..] == s[1..] + [x];
      RemoveFirstAppend(s[1..], x);
      assert s == [s[0]] + s[1..];
    }
  }

  /** Unregistering undoes a non-exclusive registration of a name that was not subscribed. */
  lemma UnregisterUndoesRegister(t: Table, ev: string, who: string)
    requires who !in Touch(t, ev)[ev]
    ensures Unregister(Register(t, ev, who, false), ev, who) == Touch(t, ev)
  {
    RemoveFirstAppend(Touch(t, ev)[ev], who);
  }

  /** `unregister` of a name that is not subscribed changes nothing beyond creating the event's list. */
  lemma UnregisterNonMember(t: Table, ev: string, who: string)
    requires ev in t && who !in t[ev]
    ensures Unregister(t, ev, who) == t
  {
  }
}

=== FILE: soundalsa.dfy ===
/**
 * The soundalsa plugin: the shared volume rules on the control of the
 * selected sound card, plus switching between ALSA profiles. `amixer`,
 * `alsactl` and the `~/.asoundrc` link are not executed: the model yields
 * the mixer command and the profile to activate.
 */
module SoundAlsa {
  import opened Wrappers
  import opened Volume

  /** The mixer state, the selected card, the control per card, the profiles and which one is current. */
  datatype Alsa = Alsa(mixer: Mixer, card: int, controls: map<int, string>,
                       profiles: map<string, string>, defaultProfile: string, currentProfile: string)

  /** An `amixer set <control> <level>` call. */
  datatype Amixer = Amixer(control: string, level: Level)

  /** `on_init` from the configured values: the current profile starts as the default one and the volume as 0. */
  function Init(max: int, step: int, card: int, controls: map<int, string>,
                profiles: map<string, string>, defaultProfile: string): (r: Alsa)
    ensures r.currentProfile == r.defaultProfile == defaultProfile
    ensures r.mixer == Mixer(max, step, 0)
  {
    Alsa(Mixer(max, step, 0), card, controls, profiles, defaultProfile, defaultProfile)
  }

  /**
   * `get_control` as written: the controls are a dictionary, so an unmapped
   * card raises `KeyError`, and the `except IndexError` meant to fall back
   * to `Master` never applies.
   */
  function GetControlAsWritten(a: Alsa): (r: Result<string>)
    ensures r.Ok? <==> a.card in a.controls
    ensures r.Ok? ==> r.value == a.controls[a.card]
    ensures r.Err? ==> r.fault == KeyError
  {
    if a.card in a.controls then Ok(a.controls[a.card]) else Err(KeyError)
  }

  /** A card without a configured control makes every volume operation raise. */
  lemma UnmappedCardRaises(a: Alsa)
    requires a.card !in a.controls
    ensures GetControlAsWritten(a) == Err(KeyError)
  {
  }

  /** `get_control` as its fallback evidently means it: the card's control, or `Master`. */
  function GetControl(a: Alsa): (r: string)
    ensures GetControlAsWritten(a).Ok? ==> r == GetControlAsWritten(a).value
    ensures a.card !in a.controls ==> r == "Master"
  {
    if a.card in a.controls then a.controls[a.card] else "Master"
  }

  /** `set_volume` on the control the corrected `GetControl` gives. */
  function SetVolume(a: Alsa, volume: int, reading: int): (r: (Alsa, Amixer))
    ensures r.0 == a.(mixer := a.mixer.(current := reading))
    ensures r.1 == Amixer(GetControl(a), SetLevel(a.mixer.max, volume))
  {
    var (m, l) := Volume.SetVolume(a.mixer, volume, reading);
    (a.(mixer := m), Amixer(GetControl(a), l))
  }

  /** `set_max_volume`: the shared rule, on the control the corrected `GetControl` gives. */
  function SetMaxVolume(a: Alsa, volume: int, reading: int): (r: (Alsa, seq<Amixer>))
    ensures r.0 == a.(mixer := Volume.SetMaxVolume(a.mixer, volume, reading).0)
    ensures |r.1| == |Volume.SetMaxVolume(a.mixer, volume, reading).1|
    ensures forall i :: 0 <= i < |r.1| ==> r.1[i] == Amixer(GetControl(a), Volume.SetMaxVolume(a.mixer, volume, reading).1[i])
  {
    var (m, ls) := Volume.SetMaxVolume(a.mixer, volume, reading);
    (a.(mixer := m), seq(|ls|, i requires 0 <= i < |ls| => Amixer(GetControl(a), ls[i])))
  }

  /** `change_volume`: the shared rule on the control the corrected `GetControl` gives; a valid direction ends with `feedback` sent to the supervisor. */
  function ChangeVolume(a: Alsa, dir: string, step: Option<int>, volume: int, reading: int): (r: (Alsa, Option<Amixer>, seq<string>))
    ensures Direction(dir).None? ==> r == (a, None, [])
    ensures Direction(dir).Some? ==>
              && r.0 == a.(mixer := a.mixer.(current := reading))
              && r.1 == Some(Amixer(GetControl(a), ChangeLevel(a.mixer.max, Direction(dir).value, step.GetOr(a.mixer.step), volume)))
              && r.2 == ["feedback"]
  {
    match Volume.ChangeVolume(a.mixer, dir, step, volume, reading)
    case (_, None) => (a, None, [])
    case (m, Some(l)) => (a.(mixer := m), Some(Amixer(GetControl(a), l)), ["feedback"])
  }

  /**
   * `toggle_profile(p)`: the default profile when `p` is the current one,
   * `p` otherwise. Nothing records the activated profile, so the plugin
   * keeps its state.
   */
  function ToggleProfile(a: Alsa, p: string): (r: (Alsa, string))
    ensures r.0 == a
    ensures r.1 == a.defaultProfile <==> p == a.currentProfile || p == a.defaultProfile
    ensures r.1 != a.defaultProfile ==> r.1 == p
  {
    (a, if p == a.currentProfile then a.defaultProfile else p)
  }

  /** `on_toggle_alsa_profile`: toggles the first value, defined or not; without a value nothing happens. */
  function OnToggleProfile(a: Alsa, values: seq<string>): (r: (Alsa, Option<string>))
    ensures r.0 == a
    ensures r.1.Some? <==> |values| > 0
    ensures r.1.Some? ==> r.1.value == ToggleProfile(a, values[0]).1
  {
    if |values| == 0 then (a, None) else (a, Some(ToggleProfile(a, values[0]).1))
  }

  /**
   * Since the current profile is never updated, it stays the default one:
   * toggling another profile activates it every time and never switches
   * back to the default.
   */
  lemma ToggleNeverSwitchesBack(max: int, step: int, card: int, controls: map<int, string>,
                                profiles: map<string, string>, defaultProfile: string, p: string)
    requires p != defaultProfile
    ensures var a := Init(max, step, card, controls, profiles, defaultProfile);
            var (a1, first) := ToggleProfile(a, p);
            first == p && ToggleProfile(a1, p).1 == p
  {
  }
}

=== FILE: soundpwwp.dfy ===
/**
 * The soundpwwp plugin: the shared volume rules through `wpctl`, plus
 * switching the default PipeWire sink. `wpctl` and `pw-dump` are not
 * executed: the model yields the command, and what `wpctl` reports
 * afterwards (the volume, the current sink) is a parameter.
 */
module SoundPwwp {
  import opened Wrappers
  import opened Volume

  /**
   * The mixer state, `_current_volume` (a second volume field that only
   * `on_init` writes), the configured default sink, the sink ids by name
   * and the current sink id.
   */
  datatype Pw = Pw(mixer: Mixer, currentVolume: int, defaultSink: string,
                   sinkIds: map<string, string>, currentSinkId: string)

  /** A `wpctl set-volume @DEFAULT_AUDIO_SINK@ <level>` or `wpctl set-default <id>` call. */
  datatype Wpctl = SetVolumeTo(level: Level) | SetDefault(sinkId: string)

  /** The id `wpctl` accepts for whatever sink is the default. */
  const DefaultId := "@DEFAULT_AUDIO_SINK@"

  /** `on_init`: only the `default` sink is known, and it is the current one. */
  function Init(max: int, step: int, defaultSink: string): (r: Pw)
    ensures r.sinkIds == map["default" := DefaultId] && r.currentSinkId == DefaultId
    ensures r.mixer == Mixer(max, step, 0) && r.currentVolume == 0 && r.defaultSink == defaultSink
  {
    Pw(Mixer(max, step, 0), 0, defaultSink, map["default" := DefaultId], DefaultId)
  }

  /** `set_volume`: the reading goes to `_volume_current`, not to `_current_volume`. */
  function SetVolume(p: Pw, volume: int, reading: int): (r: (Pw, Wpctl))
    ensures r.0 == p.(mixer := p.mixer.(current := reading))
    ensures r.1 == SetVolumeTo(SetLevel(p.mixer.max, volume))
  {
    var (m, l) := Volume.SetVolume(p.mixer, volume, reading);
    (p.(mixer := m), SetVolumeTo(l))
  }

  /**
   * `set_max_volume` as written: it compares the new maximum with
   * `_current_volume`, which stays 0, instead of `_volume_current`, which
   * `set_volume` and `change_volume` keep up to date.
   */
  function SetMaxVolumeAsWritten(p: Pw, volume: int, reading: int): (r: (Pw, seq<Wpctl>))
    ensures r.0.mixer.max == ClampMax(volume) && r.0.currentVolume == p.currentVolume
    ensures r.1 != [] <==> p.currentVolume > ClampMax(volume)
  {
    var max := ClampMax(volume);
    var p := p.(mixer := p.mixer.(max := max));
    if p.currentVolume > max then
      var (p', c) := SetVolume(p, max, reading);
      (p', [c])
    else (p, [])
  }

  /** From a fresh plugin on, lowering the maximum below the volume the mixer is at issues no command. */
  lemma MaxNeverLowersVolume(max: int, step: int, defaultSink: string, volume: int, reading: int, newMax: int)
    requires 0 <= newMax < volume
    ensures var (p, _, _) := ChangeVolume(Init(max, step, defaultSink), "+", None, volume, volume);
            p.mixer.current == volume && SetMaxVolumeAsWritten(p, newMax, reading).1 == []
  {
  }

  /** `set_max_volume` as evidently meant: the shared rule, comparing with the volume last read back. */
  function SetMaxVolume(p: Pw, volume: int, reading: int): (r: (Pw, seq<Wpctl>))
    ensures r.0 == p.(mixer := Volume.SetMaxVolume(p.mixer, volume, reading).0)
    ensures r.1 != [] <==> p.mixer.current > ClampMax(volume)
    ensures r.1 != [] ==> r.1 == [SetVolumeTo(Absolute(ClampMax(volume)))]
  {
    var (m, ls) := Volume.SetMaxVolume(p.mixer, volume, reading);
    (p.(mixer := m), if ls == [] then [] else [SetVolumeTo(ls[0])])
  }

  /** `change_volume`: the shared rule; a valid direction ends with `beep` sent to the supervisor. */
  function ChangeVolume(p: Pw, dir: string, step: Option<int>, volume: int, reading: int): (r: (Pw, Option<Wpctl>, seq<string>))
    ensures Direction(dir).None? ==> r == (p, None, [])
    ensures Direction(dir).Some? ==>
              && r.0 == p.(mixer := p.mixer.(current := reading))
              && r.1 == Some(SetVolumeTo(ChangeLevel(p.mixer.max, Direction(dir).value, step.GetOr(p.mixer.step), volume)))
              && r.2 == ["beep"]
  {
    match Volume.ChangeVolume(p.mixer, dir, step, volume, reading)
    case (_, None) => (p, None, [])
    case (m, Some(l)) => (p.(mixer := m), Some(SetVolumeTo(l)), ["beep"])
  }

  /**
   * `toggle_sink(sink)`: an unknown sink is logged and nothing happens.
   * Otherwise the default sink's id is chosen when the sink is already the
   * current one (a default sink without an id raises `KeyError`), the
   * sink's own id otherwise; `now` is the current sink `wpctl` reports
   * afterwards.
   */
  function ToggleSink(p: Pw, sink: string, now: string): (r: Result<(Pw, Option<Wpctl>)>)
    ensures sink !in p.sinkIds ==> r == Ok((p, None))
    ensures sink in p.sinkIds && p.sinkIds[sink] != p.currentSinkId ==>
              r == Ok((p.(currentSinkId := now), Some(SetDefault(p.sinkIds[sink]))))
    ensures sink in p.sinkIds && p.sinkIds[sink] == p.currentSinkId ==>
              r == if p.defaultSink in p.sinkIds then Ok((p.(currentSinkId := now), Some(SetDefault(p.sinkIds[p.defaultSink]))))
                   else Err(KeyError)
  {
    if sink !in p.sinkIds then Ok((p, None))
    else
      var id := p.sinkIds[sink];
      if id != p.currentSinkId then Ok((p.(currentSinkId := now), Some(SetDefault(id))))
      else if p.defaultSink !in p.sinkIds then Err(KeyError)
      else Ok((p.(currentSinkId := now), Some(SetDefault(p.sinkIds[p.defaultSink]))))
  }

  /** `on_toggle_pwwp_sink`: toggles the first value; without one nothing happens. */
  function OnToggleSink(p: Pw, values: seq<string>, now: string): (r: Result<(Pw, Option<Wpctl>)>)
    ensures |values| == 0 ==> r == Ok((p, None))
    ensures |values| > 0 ==> r == ToggleSink(p, values[0], now)
  {
    if |values| == 0 then Ok((p, None)) else ToggleSink(p, values[0], now)
  }

  /**
   * Toggling a sink twice, with `wpctl` reporting each chosen sink as
   * current, selects it and then goes back to the default sink.
   */
  lemma ToggleTwiceReturns(p: Pw, sink: string)
    requires sink in p.sinkIds && p.sinkIds[sink] != p.currentSinkId && p.defaultSink in p.sinkIds
    ensures var first := ToggleSink(p, sink, p.sinkIds[sink]);
            && first == Ok((p.(currentSinkId := p.sinkIds[sink]), Some(SetDefault(p.sinkIds[sink]))))
            && ToggleSink(first.value.0, sink, p.sinkIds[p.defaultSink]).Ok?
            && ToggleSink(first.value.0, sink, p.sinkIds[p.defaultSink]).value.1 == Some(SetDefault(p.sinkIds[p.defaultSink]))
  {
  }
}

=== FILE: statusmap.dfy ===
/**
 * The playback-status map shared by the MPD client and the PipeWire sound
 * plugin (the two copies are identical): one user map file storing, per
 * playlist or folder, the track position and the elapsed time.
 */
module StatusMap {
  import opened Wrappers
  import opened Text
  import opened KeyMap
  import opened MapFile

  /** The status of a playlist or folder; `state` is never written to the map. */
  datatype Status = Status(key: string, position: string, elapsed: string, state: string)

  /** `Status()`: the defaults used when nothing usable is stored. */
  const Default: Status := Status("", "0", "0.000", "n/a")

  /** `load` after `reset`: the map is exactly what the user's map file holds. */
  function Load(user: string, d: char): (r: Map)
    ensures forall k :: k in r <==> DefinedIn(ReadLines(user), d, k)
  {
    var lines := ReadLines(user);
    LoadedKeysAll(lines, d);
    LoadLines(lines, d)
  }

  /**
   * `get_status`: the first two stored values are the position and the
   * elapsed time, the state the default; fewer than two values (a missing
   * key included) give the default status with an empty key.
   */
  function GetStatus(m: Map, key: string): (r: Status)
    ensures key in m && |m[key].values| >= 2 ==>
              r == Status(key, m[key].values[0], m[key].values[1], Default.state)
    ensures !(key in m && |m[key].values| >= 2) ==> r == Default
  {
    var item := Get(m, key);
    if |item.values| < 2 then Default
    else Status(key, item.values[0], item.values[1], Default.state)
  }

  /** `update_status`: key, position and elapsed time go to the user's map; the state does not. Built on the corrected `UpdateText`. */
  function UpdateStatus(user: string, s: Status, d: char): string
  {
    UpdateText(user, s.key, [s.position, s.elapsed], [], d)
  }

  /** `remove_status`: `remove` on the user's map. */
  function RemoveStatus(user: string, s: Status, d: char): string
  {
    RemoveText(user, s.key, d)
  }

  /** Storing a status and reloading gives it back, except the state, which comes back as the default. */
  lemma UpdateStatusThenGet(user: string, s: Status, d: char)
    requires LineOk(s.key, [s.position, s.elapsed], [], d) && NoNewline(s.key, [s.position, s.elapsed], [])
    requires OnlyFirstDefines(user, s.key, d)
    ensures GetStatus(Load(UpdateStatus(user, s, d), d), s.key) == s.(state := Default.state)
  {
    TextUpdateThenLoad(user, s.key, [s.position, s.elapsed], [], d);
  }

  /** After `remove_status` and a reload the default status comes back. */
  lemma RemoveStatusThenGet(user: string, s: Status, d: char)
    requires OnlyFirstDefines(user, s.key, d)
    ensures GetStatus(Load(RemoveStatus(user, s, d), d), s.key) == Default
  {
    TextRemoveThenLoad(user, s.key, d);
  }
}

=== FILE: supervisor.dfy ===
/**
 * The plapperkasten supervisor (`Plapperkasten`): the busy counter, the
 * terminate and shutdown flags, the `on_` handlers it runs for events of
 * those names, and the translate/filter/re-emit rule of `process_event`.
 *
 * A handler's effect is split in two: the counter and flags it leaves, and
 * the names it emits (with no values or params), in order. Emitting does
 * not read the counter or the flags, so applying the emits after the
 * update is the same as interleaving them as the handlers do.
 */
module Supervisor {
  import opened Wrappers
  import opened Events
  import opened Registry
  import opened Dispatch
  import KeyMap
  import EventMap

  /** The busy counter and the two flags. */
  datatype Flags = Flags(busy: int, terminate: bool, shutdown: bool)

  /** The supervisor's state while its main loop runs. */
  datatype State = State(hub: Hub<Event>, flags: Flags)

  /** What a handler does: the flags it leaves and the names it emits, in order. */
  datatype Effect = Effect(flags: Flags, emits: seq<string>)

  /** `run` sets the counter to 0 and both flags to false before anything else. */
  const Initial: Flags := Flags(0, false, false)

  /** `emit` of each name in turn, with no values or params. */
  function NotifyAll(h: Hub<Event>, names: seq<string>): Hub<Event>
    decreases |names|
  {
    if |names| == 0 then h
    else NotifyAll(Notify(h, names[0]), names[1..])
  }

  /** Carry out a handler's effect. */
  function Apply(s: State, e: Effect): (r: State)
    ensures r.flags == e.flags
    ensures e.emits == [] ==> r.hub == s.hub
  {
    State(NotifyAll(s.hub, e.emits), e.flags)
  }

  /** `on_busy`: one more busy plugin; `busy` goes out only when the first one reports. */
  function OnBusy(f: Flags): (r: Effect)
    ensures r.flags == f.(busy := f.busy + 1)
    ensures r.emits == if f.busy == 0 then ["busy"] else []
  {
    var busy := f.busy + 1;
    Effect(f.(busy := busy), if busy == 1 then ["busy"] else [])
  }

  /** `all_idle`: emits `idle` and answers true whenever the counter is not positive, negative included. */
  function AllIdle(f: Flags): (r: (Effect, bool))
    ensures r.0.flags == f
    ensures r.1 <==> f.busy <= 0
    ensures r.0.emits == if f.busy <= 0 then ["idle"] else []
  {
    if f.busy > 0 then (Effect(f, []), false)
    else (Effect(f, ["idle"]), true)
  }

  /** `on_idle`: one busy plugin fewer (the counter may drop below 0, which is only logged), then `all_idle`. */
  function OnIdle(f: Flags): (r: Effect)
    ensures r.flags == f.(busy := f.busy - 1)
    ensures r.emits == if f.busy <= 1 then ["idle"] else []
  {
    AllIdle(f.(busy := f.busy - 1)).0
  }

  /** `on_interrupt`: tells the plugins to terminate and ends the main loop; it does not arm the shutdown. */
  function OnInterrupt(f: Flags): (r: Effect)
    ensures r.flags == f.(terminate := true)
    ensures r.emits == ["terminate"]
  {
    Effect(f.(terminate := true), ["terminate"])
  }

  /** `on_shutdown`: `shutdown` then `terminate` go to the plugins, and both flags are set. */
  function OnShutdown(f: Flags): (r: Effect)
    ensures r.flags == f.(terminate := true, shutdown := true)
    ensures r.emits == ["shutdown", "terminate"]
  {
    Effect(f.(shutdown := true, terminate := true), ["shutdown", "terminate"])
  }

  /**
   * `run` up to the main loop: `finished_loading` is emitted and then
   * `all_idle` emits `idle`, the counter being 0.
   */
  function Start(hub: Hub<Event>): (r: State)
    ensures r.flags == Initial
    ensures r.hub == NotifyAll(hub, ["finished_loading", "idle"])
  {
    var loaded := State(Notify(hub, "finished_loading"), Initial);
    var r := Apply(loaded, AllIdle(Initial).0);
    assert ["finished_loading", "idle"][1..] == ["idle"];
    assert ["idle"][1..] == [];
    r
  }

  /** The power-off command `shutdown` issues: `sudo shutdown -P <minutes>`. */
  datatype Command = PowerOff(minutes: int)

  /** `shutdown`: a power-off only when both flags are set and debugging is off. */
  function Shutdown(f: Flags, minutes: int, debug: bool): (r: Option<Command>)
    ensures r.Some? <==> f.shutdown && f.terminate && !debug
    ensures r.Some? ==> r.value == PowerOff(minutes)
  {
    if !f.shutdown || !f.terminate then None
    else if debug then None
    else Some(PowerOff(minutes))
  }

  /**
   * Whether `on_interrupt(signal_num, frame)` accepts the event's values as
   * positional and its params as keyword arguments: at most two positional
   * ones, and the keywords name exactly the parameters they leave open.
   */
  predicate InterruptBinds(values: seq<string>, params: map<string, string>) {
    if |values| >= 2 then |values| == 2 && params.Keys == {}
    else if |values| == 1 then params.Keys == {"frame"}
    else params.Keys == {"signal_num", "frame"}
  }

  /**
   * The `on_` handler of the event's name, if the supervisor has one,
   * called as a bound method: `on_busy`, `on_idle` and `on_shutdown` take
   * any arguments but a keyword `self`, `on_interrupt` raises `TypeError`
   * when the arguments do not bind. No other name has a handler.
   */
  function Handler(f: Flags, e: Event): (r: Result<Effect>)
    ensures r.Err? <==> || (e.name in {"busy", "idle", "shutdown"} && "self" in e.params)
                        || (e.name == "interrupt" && !InterruptBinds(e.values, e.params))
    ensures r.Err? ==> r.fault == TypeError
    ensures r.Ok? ==> r.value.flags.terminate == (f.terminate || e.name in {"shutdown", "interrupt"})
    ensures r.Ok? ==> r.value.flags.shutdown == (f.shutdown || e.name == "shutdown")
    ensures r.Ok? ==> r.value.flags.busy == f.busy + (if e.name == "busy" then 1 else if e.name == "idle" then -1 else 0)
    ensures e.name !in {"busy", "idle", "shutdown", "interrupt"} ==> r == Ok(Effect(f, []))
  {
    if e.name in {"busy", "idle", "shutdown"} && !FreeOf(e.params, {"self"}) then Err(TypeError)
    else if e.name == "busy" then Ok(OnBusy(f))
    else if e.name == "idle" then Ok(OnIdle(f))
    else if e.name == "shutdown" then Ok(OnShutdown(f))
    else if e.name == "interrupt" then
      if InterruptBinds(e.values, e.params) then Ok(OnInterrupt(f)) else Err(TypeError)
    else Ok(Effect(f, []))
  }

  /**
   * The first half of `process_event`: a `raw` event is replaced by the
   * event map's event for its first value (no value raises `IndexError`)
   * and marked new; any other event passes unchanged.
   */
  function Translate(e: Event, m: KeyMap.Map): (r: Result<(Event, bool)>)
    ensures e.name != "raw" ==> r == Ok((e, false))
    ensures e.name == "raw" && |e.values| == 0 ==> r == Err(IndexError)
    ensures e.name == "raw" && |e.values| > 0 ==>
              match EventMap.GetEvent(m, e.values[0])
              case Ok(x) => r == Ok((x, true))
              case Err(f) => r == Err(f)
  {
    if e.name != "raw" then Ok((e, false))
    else if |e.values| == 0 then Err(IndexError)
    else match EventMap.GetEvent(m, e.values[0])
      case Ok(x) => Ok((x, true))
      case Err(f) => Err(f)
  }

  /** `emit` of the event itself, with its values and params. */
  function Reemit(s: State, e: Event): (r: Result<State>)
    ensures r.Ok? ==> r.value.flags == s.flags
    ensures r.Ok? ==> r.value.hub.table.Keys == s.hub.table.Keys + {e.name} && r.value.hub.queues.Keys <= s.hub.queues.Keys
    ensures r.Err? ==> r.fault == TypeError && ("event" in e.params || "name" in e.params || "self" in e.params)
    ensures "event" !in e.params && "name" !in e.params && "self" !in e.params ==> r.Ok?
  {
    match Emit(s.hub, e.name, e.values, e.params)
    case Err(f) => Err(f)
    case Ok(h) => Ok(State(h, s.flags))
  }

  /**
   * Re-emitting an event whose subscribers all have a live queue with room
   * puts the event itself at the end of each of those queues and changes
   * nothing else, flags included.
   */
  lemma ReemitDelivers(s: State, e: Event)
    requires "event" !in e.params && "name" !in e.params && "self" !in e.params
    requires NoDup(Touch(s.hub.table, e.name)[e.name])
    requires forall w :: w in Touch(s.hub.table, e.name)[e.name] ==> w in s.hub.queues && HasRoom(s.hub.queues[w])
    ensures var subs := Touch(s.hub.table, e.name)[e.name];
            Reemit(s, e) == Ok(State(Hub(Touch(s.hub.table, e.name), Broadcast(s.hub.queues, subs, e)), s.flags))
  {
    EmitDelivers(s.hub, e.name, e.values, e.params);
    assert Event(e.name, e.values, e.params) == e;
  }

  /**
   * `process_event`: translate, drop the empty event, run the `on_` handler,
   * never re-emit `busy` or `idle`, and re-emit anything else when it is new
   * or its name is NOT in the passthrough list. The code tests
   * `not in passthrough`, the opposite of what the docstring describes.
   */
  function ProcessEvent(s: State, e: Event, m: KeyMap.Map, passthrough: seq<string>): (r: Result<State>)
    ensures r.Err? ==> r.fault == IndexError || r.fault == TypeError
    ensures r.Ok? && Translate(e, m).Ok? ==>
              var ev := Translate(e, m).value.0;
              var f := r.value.flags;
              && f.terminate == (s.flags.terminate || ev.name in {"shutdown", "interrupt"})
              && f.shutdown == (s.flags.shutdown || ev.name == "shutdown")
              && f.busy == s.flags.busy + (if ev.name == "busy" then 1 else if ev.name == "idle" then -1 else 0)
  {
    match Translate(e, m)
    case Err(f) => Err(f)
    case Ok((ev, isNew)) =>
      if ev.name == "" then Ok(s)
      else match Handler(s.flags, ev)
        case Err(f) => Err(f)
        case Ok(effect) =>
          var s1 := Apply(s, effect);
          if ev.name == "busy" || ev.name == "idle" then Ok(s1)
          else if isNew || ev.name !in passthrough then Reemit(s1, ev)
          else Ok(s1)
  }

  /**
   * The main loop over the events that arrive from the plugins: it runs
   * until the terminate flag is set. The source enters it only when at
   * least one plugin is loaded. Any error other than an empty or closed
   * queue ends `run` altogether. Returns the state and the events not yet
   * taken from the queue.
   */
  function Run(s: State, inbox: seq<Event>, m: KeyMap.Map, passthrough: seq<string>): (r: Result<(State, seq<Event>)>)
    ensures s.flags.terminate ==> r == Ok((s, inbox))
    ensures r.Ok? ==> r.value.0.flags.terminate || r.value.1 == []
    ensures r.Ok? ==> |r.value.1| <= |inbox| && r.value.1 == inbox[|inbox| - |r.value.1|..]
    ensures r.Ok? && s.flags.shutdown ==> r.value.0.flags.shutdown
    decreases |inbox|
  {
    if s.flags.terminate || |inbox| == 0 then Ok((s, inbox))
    else match ProcessEvent(s, inbox[0], m, passthrough)
      case Err(f) => Err(f)
      case Ok(s1) => Run(s1, inbox[1..], m, passthrough)
  }

  /** Events with no `on_` handler and not from the event map are re-emitted exactly when their name is not in the passthrough list. */
  lemma PlainEventRouting(s: State, e: Event, m: KeyMap.Map, passthrough: seq<string>)
    requires e.name !in {"raw", "", "busy", "idle", "shutdown", "interrupt"}
    ensures e.name in passthrough ==> ProcessEvent(s, e, m, passthrough) == Ok(s)
    ensures e.name !in passthrough ==> ProcessEvent(s, e, m, passthrough) == Reemit(s, e)
  {
  }

  /** An event from the event map is re-emitted whatever the passthrough list says. */
  lemma MappedEventRouting(s: State, e: Event, m: KeyMap.Map, passthrough: seq<string>, x: Event)
    requires e.name == "raw" && |e.values| > 0 && EventMap.GetEvent(m, e.values[0]) == Ok(x)
    requires x.name !in {"", "busy", "idle", "shutdown", "interrupt"}
    ensures ProcessEvent(s, e, m, passthrough) == Reemit(s, x)
  {
  }

  /**
   * `busy` and `idle`, whether sent by a plugin or mapped from a key, only
   * drive the counter and are never re-emitted; a keyword `self` makes their
   * handler raise `TypeError`.
   */
  lemma BusyIdleNotReemitted(s: State, e: Event, m: KeyMap.Map, passthrough: seq<string>)
    requires Translate(e, m).Ok? && Translate(e, m).value.0.name in {"busy", "idle"}
    ensures "self" !in Translate(e, m).value.0.params ==>
              ProcessEvent(s, e, m, passthrough)
              == Ok(Apply(s, if Translate(e, m).value.0.name == "busy" then OnBusy(s.flags) else OnIdle(s.flags)))
    ensures "self" in Translate(e, m).value.0.params ==> ProcessEvent(s, e, m, passthrough) == Err(TypeError)
  {
  }

  /** The empty event (an unmapped key among them) changes nothing. */
  lemma EmptyEventDropped(s: State, e: Event, m: KeyMap.Map, passthrough: seq<string>)
    requires Translate(e, m).Ok? && Translate(e, m).value.0.name == ""
    ensures ProcessEvent(s, e, m, passthrough) == Ok(s)
  {
  }

  /** `n` calls of `on_busy`, their emits in order. */
  function Busies(f: Flags, n: nat): Effect
    decreases n
  {
    if n == 0 then Effect(f, [])
    else
      var first := OnBusy(f);
      var rest := Busies(first.flags, n - 1);
      Effect(rest.flags, first.emits + rest.emits)
  }

  /** `n` calls of `on_idle`, their emits in order. */
  function Idles(f: Flags, n: nat): Effect
    decreases n
  {
    if n == 0 then Effect(f, [])
    else
      var first := OnIdle(f);
      var rest := Idles(first.flags, n - 1);
      Effect(rest.flags, first.emits + rest.emits)
  }

  lemma {:induction false} BusiesWhileBusy(f: Flags, n: nat)
    requires f.busy >= 1
    ensures Busies(f, n) == Effect(f.(busy := f.busy + n), [])
    decreases n
  {
    if n > 0 {
      BusiesWhileBusy(OnBusy(f).flags, n - 1);
    }
  }

  lemma {:induction false} IdlesDownTo(f: Flags, n: nat)
    requires n >= 1 && f.busy == n
    ensures Idles(f, n) == Effect(f.(busy := 0), ["idle"])
    decreases n
  {
    if n > 1 {
      IdlesDownTo(OnIdle(f).flags, n - 1);
    }
  }

  /**
   * `n` plugins going busy and then idle again: the counter is back at its
   * start, and the plugins were told `busy` once, by the first, and `idle`
   * once, by the last.
   */
  lemma {:induction false} BusyIdleRound(f: Flags, n: nat)
    requires f.busy == 0 && n >= 1
    ensures Busies(f, n) == Effect(f.(busy := n), ["busy"])
    ensures Idles(Busies(f, n).flags, n) == Effect(f, ["idle"])
  {
    BusiesWhileBusy(OnBusy(f).flags, n - 1);
    IdlesDownTo(f.(busy := n), n);
  }

  /** Only `on_shutdown` arms the power-off: after an interrupt alone `shutdown` does nothing. */
  lemma ShutdownNeedsBothFlags(f: Flags, minutes: int, debug: bool)
    requires !f.shutdown
    ensures Shutdown(OnInterrupt(f).flags, minutes, debug) == None
    ensures Shutdown(OnShutdown(f).flags, minutes, debug) == if debug then None else Some(PowerOff(minutes))
  {
  }
}

=== FILE: text.dfy ===
/**
 * The handful of Python string operations the map files rely on:
 * `str.strip()`, `str.split(sep)` with a one-character separator,
 * `sep.join(...)` and prefix tests.
 */
module Text {
  import opened Wrappers

  /** The characters Python's `str.isspace()` (and so `str.strip()`) treats as whitespace. */
  predicate IsSpace(c: char) {
    || c == ' ' || '\t' <= c <= '\r' || '\U{001C}' <= c <= '\U{001F}'
    || c == '\U{0085}' || c == '\U{00A0}' || c == '\U{1680}' || '\U{2000}' <= c <= '\U{200A}'
    || c == '\U{2028}' || c == '\U{2029}' || c == '\U{202F}' || c == '\U{205F}' || c == '\U{3000}'
  }

  /** A string that `strip()` leaves alone: empty, or starting and ending with non-whitespace. */
  predicate Clean(s: string) {
    |s| == 0 || (!IsSpace(s[0]) && !IsSpace(s[|s| - 1]))
  }

  function TrimStart(s: string): (r: string)
    ensures |r| <= |s| && r == s[|s| - |r|..]
    ensures forall i :: 0 <= i < |s| - |r| ==> IsSpace(s[i])
    ensures |r| == 0 || !IsSpace(r[0])
  {
    if |s| > 0 && IsSpace(s[0]) then TrimStart(s[1..]) else s
  }

  function TrimEnd(s: string): (r: string)
    ensures |r| <= |s| && r == s[..|r|]
    ensures forall i :: |r| <= i < |s| ==> IsSpace(s[i])
    ensures |r| == 0 || !IsSpace(r[|r| - 1])
  {
    if |s| > 0 && IsSpace(s[|s| - 1]) then TrimEnd(s[..|s| - 1]) else s
  }

  /** A non-empty sequence is its front followed by its last element. */
  lemma SnocLast<T>(s: seq<T>)
    requires |s| > 0
    ensures s[..|s| - 1] + [s[|s| - 1]] == s
  {
  }

  /** Python's `str.strip()`: the longest infix with no whitespace at either end. */
  function Strip(s: string): (r: string)
    ensures Clean(r)
    ensures |r| <= |s|
    ensures |r| == 0 ==> forall i :: 0 <= i < |s| ==> IsSpace(s[i])
  {
    var t := TrimStart(s);
    var r := TrimEnd(t);
    assert |r| == 0 ==> forall i :: 0 <= i < |s| ==> IsSpace(s[i]) by {
      if |r| == 0 {
        assert |t| == 0;
      }
    }
    r
  }

  /** `strip()` returns the part of the line between its leading and its trailing whitespace. */
  lemma StripInfix(s: string)
    ensures exists i, j :: 0 <= i <= j <= |s| && Strip(s) == s[i..j]
              && (forall k :: 0 <= k < i ==> IsSpace(s[k])) && (forall k :: j <= k < |s| ==> IsSpace(s[k]))
  {
    var t := TrimStart(s);
    var r := TrimEnd(t);
    var i := |s| - |t|;
    var j := i + |r|;
    assert s[i..j] == r;
    forall k | j <= k < |s| ensures IsSpace(s[k]) {
      assert s[k] == t[k - i];
    }
  }

  lemma StripClean(s: string)
    requires Clean(s)
    ensures Strip(s) == s
  {
  }

  /** A clean, non-empty line read back with its newline terminator strips to itself. */
  lemma StripNewline(s: string)
    requires Clean(s) && |s| > 0
    ensures Strip(s + "\n") == s
  {
    var t := s + "\n";
    assert TrimStart(t) == t;
    assert t[..|t| - 1] == s;
    assert TrimEnd(t) == TrimEnd(s);
  }

  /** `Strip` is idempotent. */
  lemma StripIdempotent(s: string)
    ensures Strip(Strip(s)) == Strip(s)
  {
    StripClean(Strip(s));
  }

  lemma {:induction false} TrimStartSnoc(s: string, c: char)
    ensures TrimStart(s + [c]) == if |TrimStart(s)| == 0 then TrimStart([c]) else TrimStart(s) + [c]
    decreases |s|
  {
    if |s| > 0 {
      assert (s + [c])[0] == s[0];
      assert (s + [c])[1..] == s[1..] + [c];
      TrimStartSnoc(s[1..], c);
    } else {
      assert s + [c] == [c];
    }
  }

  /** Appending whitespace (a line terminator, say) does not change what `strip()` returns. */
  lemma StripSnocSpace(s: string, c: char)
    requires IsSpace(c)
    ensures Strip(s + [c]) == Strip(s)
  {
    TrimStartSnoc(s, c);
    var t := TrimStart(s);
    if |t| > 0 {
      assert (t + [c])[..|t|] == t;
    }
  }

  /** A character that is neither the separator nor in any field is not in the joined line. */
  lemma {:induction false} JoinFree(fields: seq<string>, d: char, c: char)
    requires c != d
    requires forall i :: 0 <= i < |fields| ==> c !in fields[i]
    ensures c !in Join(fields, d)
    decreases |fields|
  {
    if |fields| > 1 {
      JoinFree(fields[1..], d, c);
    }
  }

  predicate StartsWith(s: string, prefix: string) {
    |prefix| <= |s| && s[..|prefix|] == prefix
  }

  /** Index of the first occurrence of `c`, as Python's `str.find` returns it (absent: `None`). */
  function IndexOf(s: string, c: char): (r: Option<nat>)
    ensures r.None? <==> c !in s
    ensures r.Some? ==> r.value < |s| && s[r.value] == c && c !in s[..r.value]
  {
    if |s| == 0 then None
    else if s[0] == c then Some(0)
    else match IndexOf(s[1..], c)
      case None => None
      case Some(i) =>
        assert s[1..][..i] == s[1..i + 1];
        Some(i + 1)
  }

  /** The first occurrence of `c` is the one at `k` when no earlier character is `c`. */
  lemma IndexOfAt(s: string, c: char, k: nat)
    requires k < |s| && s[k] == c && c !in s[..k]
    ensures IndexOf(s, c) == Some(k)
  {
  }

  /** Python's `s.split(d)` for a one-character separator `d`. */
  function Split(s: string, d: char): (r: seq<string>)
    ensures |r| >= 1
    ensures forall i :: 0 <= i < |r| ==> d !in r[i]
    decreases |s|
  {
    match IndexOf(s, d)
    case None => [s]
    case Some(i) => [s[..i]] + Split(s[i + 1..], d)
  }

  /** Python's `d.join(fields)`. */
  function Join(fields: seq<string>, d: char): string
  {
    if |fields| == 0 then ""
    else if |fields| == 1 then fields[0]
    else fields[0] + [d] + Join(fields[1..], d)
  }

  lemma {:induction false} JoinNonEmpty(fields: seq<string>, d: char)
    requires |fields| >= 2
    ensures |Join(fields, d)| > 0
    ensures Join(fields, d)[0] == if |fields[0]| > 0 then fields[0][0] else d
  {
  }

  lemma {:induction false} JoinLast(fields: seq<string>, d: char)
    requires |fields| >= 2
    ensures |Join(fields, d)| > 0
    ensures var j := Join(fields, d);
            var f := fields[|fields| - 1];
            j[|j| - 1] == if |f| > 0 then f[|f| - 1] else d
    decreases |fields|
  {
    if |fields| > 2 {
      JoinLast(fields[1..], d);
      assert fields[1..][|fields[1..]| - 1] == fields[|fields| - 1];
    }
  }

  /** Splitting a joined line gives the fields back when no field holds the separator. */
  lemma {:induction false} SplitJoin(fields: seq<string>, d: char)
    requires |fields| >= 1
    requires forall i :: 0 <= i < |fields| ==> d !in fields[i]
    ensures Split(Join(fields, d), d) == fields
    decreases |fields|
  {
    if |fields| == 1 {
      assert IndexOf(fields[0], d).None?;
    } else {
      var j := Join(fields, d);
      var f := fields[0];
      var rest := Join(fields[1..], d);
      assert j == f + [d] + rest;
      assert j[|f|] == d;
      assert j[..|f|] == f;
      assert IndexOf(j, d) == Some(|f|);
      assert j[|f| + 1..] == rest;
      SplitJoin(fields[1..], d);
    }
  }

  /** Joining the pieces of a split gives the original string back. */
  lemma {:induction false} JoinSplit(s: string, d: char)
    ensures Join(Split(s, d), d) == s
    decreases |s|
  {
    match IndexOf(s, d)
    case None =>
    case Some(i) =>
      JoinSplit(s[i + 1..], d);
      var tail := Split(s[i + 1..], d);
      assert Split(s, d) == [s[..i]] + tail;
      assert ([s[..i]] + tail)[1..] == tail;
      assert s == s[..i] + [d] + s[i + 1..];
  }
}

=== FILE: volume.dfy ===
/**
 * The volume rules the three mixer plugins (volumealsa, soundalsa and
 * soundpwwp) share: clamping the maximum, choosing the level `set_volume`
 * and `change_volume` ask the mixer for, and reading the new maximum from a
 * `volume_max` event. A level stands for the mixer's argument (`55%`,
 * `5%+`); what the mixer reports afterwards is a parameter (`reading`).
 */
module Volume {
  import opened Wrappers

  /** An absolute level in percent, or a relative step up (`+`) or down (`-`). */
  datatype Level = Absolute(percent: int) | Relative(step: int, up: bool)

  /** A plugin's maximum, step and last read volume. */
  datatype Mixer = Mixer(max: int, step: int, current: int)

  function Min(a: int, b: int): int { if a <= b then a else b }

  function Max(a: int, b: int): int { if a >= b then a else b }

  /** The volume the mixer is left at after being given `l` at volume `volume`. */
  function After(volume: int, l: Level): int {
    match l
    case Absolute(p) => p
    case Relative(s, up) => if up then volume + s else volume - s
  }

  /** The two directions `change_volume` accepts. */
  function Direction(dir: string): (r: Option<bool>)
    ensures r.Some? <==> dir == "+" || dir == "-"
    ensures r.Some? ==> (r.value <==> dir == "+")
  {
    if dir == "+" then Some(true) else if dir == "-" then Some(false) else None
  }

  /** `set_max_volume`'s sanity check: the new maximum is forced into 0..100. */
  function ClampMax(volume: int): (r: int)
    ensures 0 <= r <= 100
    ensures 0 <= volume <= 100 ==> r == volume
    ensures volume > 100 ==> r == 100
    ensures volume < 0 ==> r == 0
  {
    if volume > 100 then 100 else if volume < 0 then 0 else volume
  }

  /**
   * `set_volume`'s choice: the maximum at or above it, 0% at or below zero,
   * the volume itself otherwise; with a non-negative maximum this clamps
   * the volume into 0..max.
   */
  function SetLevel(max: int, volume: int): (r: Level)
    ensures r.Absolute?
    ensures volume >= max ==> r.percent == max
    ensures 0 <= max ==> r.percent == Min(Max(volume, 0), max)
  {
    if volume >= max then Absolute(max)
    else if volume <= 0 then Absolute(0)
    else Absolute(volume)
  }

  /**
   * `change_volume`'s choice for a valid direction: 0% when a step down
   * would reach zero, the maximum when a step up would reach it, the
   * relative step otherwise. The mixer ends at the step saturated at 0
   * going down and at the maximum going up.
   */
  function ChangeLevel(max: int, up: bool, step: int, volume: int): (r: Level)
    ensures After(volume, r) == (if up then Min(volume + step, max) else Max(volume - step, 0))
    ensures r.Absolute? <==> (if up then volume + step >= max else volume - step <= 0)
    ensures r.Relative? ==> r.step == step && r.up == up
  {
    if !up && volume - step <= 0 then Absolute(0)
    else if up && volume + step >= max then Absolute(max)
    else Relative(step, up)
  }

  /** `set_volume`: asks for `SetLevel` and then reads the volume back. */
  function SetVolume(m: Mixer, volume: int, reading: int): (r: (Mixer, Level))
    ensures r.0 == m.(current := reading)
    ensures r.1 == SetLevel(m.max, volume)
  {
    (m.(current := reading), SetLevel(m.max, volume))
  }

  /**
   * `set_max_volume`: stores the clamped maximum, and lowers the volume to
   * it exactly when the last read volume is above it.
   */
  function SetMaxVolume(m: Mixer, volume: int, reading: int): (r: (Mixer, seq<Level>))
    ensures r.0.max == ClampMax(volume) && r.0.step == m.step
    ensures r.1 != [] <==> m.current > ClampMax(volume)
    ensures r.1 != [] ==> r.1 == [Absolute(ClampMax(volume))] && r.0.current == reading
    ensures r.1 == [] ==> r.0.current == m.current
  {
    var max := ClampMax(volume);
    var m := m.(max := max);
    if m.current > max then
      var (m', l) := SetVolume(m, max, reading);
      (m', [l])
    else (m, [])
  }

  /**
   * `change_volume(direction, step)`: an unknown direction does nothing;
   * otherwise a missing step is the configured one, `volume` is the reading
   * taken first and `reading` the one taken after the change.
   */
  function ChangeVolume(m: Mixer, dir: string, step: Option<int>, volume: int, reading: int): (r: (Mixer, Option<Level>))
    ensures Direction(dir).None? ==> r == (m, None)
    ensures Direction(dir).Some? ==>
              r.0 == m.(current := reading) && r.1 == Some(ChangeLevel(m.max, Direction(dir).value, step.GetOr(m.step), volume))
  {
    match Direction(dir)
    case None => (m, None)
    case Some(up) => (m.(current := reading), Some(ChangeLevel(m.max, up, step.GetOr(m.step), volume)))
  }

  /** With a maximum in 0..100 and a non-negative step, a change never leaves the mixer outside 0..max. */
  lemma ChangeStaysInRange(m: Mixer, dir: string, step: Option<int>, volume: int, reading: int)
    requires 0 <= m.max && 0 <= step.GetOr(m.step) && 0 <= volume <= m.max
    ensures var l := ChangeVolume(m, dir, step, volume, reading).1;
            l.Some? ==> 0 <= After(volume, l.value) <= m.max
  {
  }

  /**
   * `on_volume_max` as written: `values[0]` of an event without values
   * raises `IndexError`, which the handler's `except KeyError` does not
   * catch; a value `int()` rejects is logged.
   */
  function MaxRequestAsWritten(values: seq<string>, parse: string -> Option<int>): (r: Result<Option<int>>)
    ensures r.Err? <==> |values| == 0
    ensures r.Err? ==> r.fault == IndexError
    ensures r.Ok? ==> r.value == parse(values[0])
  {
    if |values| == 0 then Err(IndexError) else Ok(parse(values[0]))
  }

  /** An event without values makes the plugin's loop stop with `IndexError`. */
  lemma VolumeMaxWithoutValueCrashes(parse: string -> Option<int>)
    ensures MaxRequestAsWritten([], parse) == Err(IndexError)
  {
  }

  /** `on_volume_max` as its handler evidently means it: a missing value is logged like an unparsable one. */
  function MaxRequest(values: seq<string>, parse: string -> Option<int>): (r: Option<int>)
    ensures r.Some? <==> |values| > 0 && parse(values[0]).Some?
    ensures r.Some? ==> r == parse(values[0])
    ensures MaxRequestAsWritten(values, parse).Ok? ==> r == MaxRequestAsWritten(values, parse).value
  {
    if |values| == 0 then None else parse(values[0])
  }

  /** `on_volume_max` with the corrected `MaxRequest`: the parsed value becomes the new maximum; without one nothing happens. */
  function OnVolumeMax(m: Mixer, values: seq<string>, parse: string -> Option<int>, reading: int): (r: (Mixer, seq<Level>))
    ensures MaxRequest(values, parse).None? ==> r == (m, [])
    ensures MaxRequest(values, parse).Some? ==> r == SetMaxVolume(m, MaxRequest(values, parse).value, reading)
  {
    match MaxRequest(values, parse)
    case None => (m, [])
    case Some(v) => SetMaxVolume(m, v, reading)
  }
}

=== FILE: worker.dfy ===
/**
 * The plugin side of plapperkasten (`Plugin` in plugin.py): the state every
 * plugin process keeps, the messages it sends to the supervisor and one turn
 * of its event loop. The queue to the supervisor is a `Registry.Queue`; the
 * plugin's own event handlers are an abstract table supplied by the
 * subclass.
 */
module Worker {
  import opened Wrappers
  import opened Events
  import opened Registry

  /** The base plugin's fields: its name, tick interval, terminate flag, wanted events and busy flag. */
  datatype Plugin = Plugin(name: string, tick: int, terminate: bool, registered: seq<string>, busy: bool)

  /** The constructor: not busy, not terminating, ticking every second, no events wanted yet. */
  function Init(name: string): (r: Plugin)
    ensures r.name == name && r.tick == 1
    ensures !r.terminate && !r.busy && r.registered == []
  {
    Plugin(name, 1, false, [], false)
  }

  /**
   * `send_to_main`: `put_nowait` of a new event. A full queue drops it (the
   * `queue.Full` is only logged); a closed queue raises `ValueError` and a
   * param called `name` or `self` raises `TypeError`, neither of which is caught.
   */
  function SendToMain(out: Queue<Event>, name: string, values: seq<string>, params: map<string, string>): (r: Result<Queue<Event>>)
    ensures r.Err? <==> "name" in params || "self" in params || out.Closed?
    ensures r.Err? ==> r.fault == (if "name" in params || "self" in params then TypeError else ValueError)
    ensures r.Ok? && HasRoom(out) ==> r.value == Append(out, Event(name, values, params))
    ensures r.Ok? && !HasRoom(out) ==> r.value == out
  {
    match Make(name, values, params)
    case None => Err(TypeError)
    case Some(e) =>
      if out.Closed? then Err(ValueError)
      else if HasRoom(out) then Ok(Append(out, e))
      else Ok(out)
  }

  /** What `send_busy` (`wantBusy`) or `send_idle` decides: the new flag and the name it sends, if any. */
  function Signal(busy: bool, wantBusy: bool): (r: (bool, Option<string>))
    ensures r.0 == wantBusy
    ensures r.1.Some? <==> busy != wantBusy
    ensures r.1.Some? ==> r.1.value == (if wantBusy then "busy" else "idle")
  {
    if busy == wantBusy then (busy, None)
    else (wantBusy, Some(if wantBusy then "busy" else "idle"))
  }

  /**
   * `send_busy` / `send_idle`: on a change of the flag the name is sent
   * first and the flag set afterwards, so a dropped message still flips the
   * flag while an escaping error leaves it as it was.
   */
  function SendBusy(p: Plugin, out: Queue<Event>, wantBusy: bool): (r: Result<(Plugin, Queue<Event>)>)
    ensures p.busy == wantBusy ==> r == Ok((p, out))
    ensures r.Err? <==> p.busy != wantBusy && out.Closed?
    ensures r.Ok? ==> r.value.0 == p.(busy := wantBusy)
    ensures r.Ok? && p.busy != wantBusy ==>
              r.value.1 == (if HasRoom(out) then Append(out, Event(if wantBusy then "busy" else "idle", [], map[])) else out)
  {
    var (busy, msg) := Signal(p.busy, wantBusy);
    match msg
    case None => Ok((p, out))
    case Some(name) =>
      match SendToMain(out, name, [], map[])
      case Err(f) => Err(f)
      case Ok(q) => Ok((p.(busy := busy), q))
  }

  /** The names a run of `send_busy` (true) / `send_idle` (false) calls sends, and the final flag. */
  function Signals(busy: bool, calls: seq<bool>): (bool, seq<string>)
    decreases |calls|
  {
    if |calls| == 0 then (busy, [])
    else
      var (b, msg) := Signal(busy, calls[0]);
      var (b', rest) := Signals(b, calls[1..]);
      (b', (if msg.Some? then [msg.value] else []) + rest)
  }

  /** `busy` and `idle` take turns, starting with `busy` if `busyFirst` and with `idle` otherwise. */
  predicate Alternating(s: seq<string>, busyFirst: bool)
    decreases |s|
  {
    |s| == 0 || (s[0] == (if busyFirst then "busy" else "idle") && Alternating(s[1..], !busyFirst))
  }

  lemma {:induction false} SignalsAlternate(busy: bool, calls: seq<bool>)
    ensures var (b, s) := Signals(busy, calls);
            Alternating(s, !busy) && b == (if |s| % 2 == 0 then busy else !busy)
    decreases |calls|
  {
    if |calls| > 0 {
      var (b, msg) := Signal(busy, calls[0]);
      SignalsAlternate(b, calls[1..]);
      var (_, rest) := Signals(b, calls[1..]);
      if msg.Some? {
        assert ([msg.value] + rest)[1..] == rest;
      } else {
        assert [] + rest == rest;
      }
    }
  }

  /**
   * Whatever sequence of `send_busy` and `send_idle` calls a fresh plugin
   * makes, the messages it sends alternate strictly, starting with `busy`,
   * and it ends busy exactly when it has sent an odd number of them.
   */
  lemma BusyIdleAlternate(calls: seq<bool>)
    ensures var (b, s) := Signals(Init("").busy, calls);
            Alternating(s, true) && (b <==> |s| % 2 == 1)
  {
    SignalsAlternate(false, calls);
  }

  /** A message lost to a full queue still flips the flag, so the next `send_busy` sends nothing. */
  lemma DroppedBusyStillFlips(p: Plugin, items: seq<Event>, capacity: nat)
    requires !p.busy && capacity > 0 && |items| >= capacity
    ensures SendBusy(p, Live(items, capacity), true) == Ok((p.(busy := true), Live(items, capacity)))
    ensures SendBusy(p.(busy := true), Live(items, capacity), true) == Ok((p.(busy := true), Live(items, capacity)))
  {
  }

  /** `register_for`: appends, without checking for duplicates. */
  function RegisterFor(p: Plugin, ev: string): (r: Plugin)
    ensures r == p.(registered := p.registered + [ev])
  {
    p.(registered := p.registered + [ev])
  }

  /** `get_registered_events`: a copy of the list, so the caller cannot change the plugin through it. */
  function GetRegisteredEvents(p: Plugin): (r: seq<string>)
    ensures r == p.registered
  {
    p.registered
  }

  function RegisterAll(p: Plugin, evs: seq<string>): Plugin
    decreases |evs|
  {
    if |evs| == 0 then p else RegisterAll(RegisterFor(p, evs[0]), evs[1..])
  }

  lemma {:induction false} RegisterAllAppends(p: Plugin, evs: seq<string>)
    ensures RegisterAll(p, evs) == p.(registered := p.registered + evs)
    decreases |evs|
  {
    if |evs| > 0 {
      RegisterAllAppends(RegisterFor(p, evs[0]), evs[1..]);
      assert p.registered + [evs[0]] + evs[1..] == p.registered + evs;
    }
  }

  /**
   * A fresh plugin that calls `register_for` on each name in turn reports
   * exactly those names, in that order and with repetitions kept.
   */
  lemma RegisteredInOrder(name: string, evs: seq<string>)
    ensures GetRegisteredEvents(RegisterAll(Init(name), evs)) == evs
  {
    RegisterAllAppends(Init(name), evs);
  }

  /** `on_terminate` (any values and params) and `on_interrupt`: both only set the terminate flag. */
  function OnTerminate(p: Plugin, values: seq<string>, params: map<string, string>): (r: Result<Plugin>)
    ensures r.Ok? && r.value.terminate
    ensures r.value.(terminate := p.terminate) == p
  {
    Ok(p.(terminate := true))
  }

  function OnInterrupt(p: Plugin): (r: Plugin)
    ensures r.terminate && r.(terminate := p.terminate) == p
  {
    p.(terminate := true)
  }

  /** An `on_<name>` method of the plugin, called with the event's values and params. */
  type Handler = (Plugin, seq<string>, map<string, string>) -> Result<Plugin>

  /** The plugin's `on_<name>` methods by event name: the subclass's, plus the inherited `on_terminate`. */
  function Handlers(own: map<string, Handler>): (r: map<string, Handler>)
    ensures r.Keys == own.Keys + {"terminate"}
    ensures forall k :: k in own ==> r[k] == own[k]
  {
    if "terminate" in own then own else own["terminate" := OnTerminate]
  }

  /** What the blocking `get` with a timeout gives back. */
  datatype Received = Got(e: Event) | TimedOut | QueueClosed

  /**
   * The body of `run` after `on_tick`: an event with a handler calls it, one
   * without is logged and ignored; a timeout (`queue.Empty`), a closed queue
   * or a handler raising `ValueError` are logged and the loop goes on; any
   * other error from a handler escapes.
   */
  function Step(p: Plugin, rcv: Received, handlers: map<string, Handler>): (r: Result<Plugin>)
    ensures !rcv.Got? ==> r == Ok(p)
    ensures rcv.Got? && rcv.e.name !in handlers ==> r == Ok(p)
    ensures rcv.Got? && rcv.e.name in handlers ==>
              var h := handlers[rcv.e.name](p, rcv.e.values, rcv.e.params);
              r == (if h.Err? && h.fault == ValueError then Ok(p) else h)
  {
    if !rcv.Got? || rcv.e.name !in handlers then Ok(p)
    else match handlers[rcv.e.name](p, rcv.e.values, rcv.e.params)
      case Ok(p') => Ok(p')
      case Err(f) => if f == ValueError then Ok(p) else Err(f)
  }

  /**
   * `run`'s `while not self._terminate_signal` loop over what the queue
   * delivers, with `tick` standing for `on_tick`. It stops only once the
   * terminate flag is set; returns the plugin and what was not received.
   */
  function Run(p: Plugin, rcvs: seq<Received>, tick: Plugin -> Plugin, handlers: map<string, Handler>): (r: Result<(Plugin, seq<Received>)>)
    ensures p.terminate ==> r == Ok((p, rcvs))
    ensures r.Ok? ==> |r.value.1| <= |rcvs| && r.value.1 == rcvs[|rcvs| - |r.value.1|..]
    ensures r.Ok? && |r.value.1| > 0 ==> r.value.0.terminate
    decreases |rcvs|
  {
    if p.terminate || |rcvs| == 0 then Ok((p, rcvs))
    else match Step(tick(p), rcvs[0], handlers)
      case Err(f) => Err(f)
      case Ok(p') =>
        var r := Run(p', rcvs[1..], tick, handlers);
        if r.Ok? then
          assert rcvs[1..][|rcvs[1..]| - |r.value.1|..] == rcvs[|rcvs| - |r.value.1|..];
          r
        else r
  }

  /** A `terminate` event stops the loop right after it, unless the subclass overrides `on_terminate`. */
  lemma TerminateStopsLoop(p: Plugin, values: seq<string>, params: map<string, string>, rest: seq<Received>,
                           tick: Plugin -> Plugin, own: map<string, Handler>)
    requires !p.terminate && !tick(p).terminate && "terminate" !in own
    ensures Run(p, [Got(Event("terminate", values, params))] + rest, tick, Handlers(own))
            == Ok((tick(p).(terminate := true), rest))
  {
    var rcvs := [Got(Event("terminate", values, params))] + rest;
    assert rcvs[0] == Got(Event("terminate", values, params)) && rcvs[1..] == rest;
  }

  /** A timeout, a closed queue or an unhandled event leaves the loop running on the rest. */
  lemma NothingReceivedContinues(p: Plugin, rcv: Received, rest: seq<Received>,
                                 tick: Plugin -> Plugin, handlers: map<string, Handler>)
    requires !p.terminate
    requires !rcv.Got? || rcv.e.name !in handlers
    ensures Run(p, [rcv] + rest, tick, handlers) == Run(tick(p), rest, tick, handlers)
  {
    var rcvs := [rcv] + rest;
    assert rcvs[0] == rcv && rcvs[1..] == rest;
  }
}

=== FILE: wrappers.dfy ===
/**
 * Small failure-carrying datatypes used throughout the model.
 *
 * `Option` stands for "a value or nothing"; `Result` for "a value or the
 * Python exception that the modelled code lets escape".
 */
module Wrappers {

  datatype Option<+T> = None | Some(value: T) {
    function GetOr(default: T): T {
      match this
      case Some(v) => v
      case None => default
    }
  }

  /** The Python exceptions that escape from the modelled code. */
  datatype Fault = KeyError | IndexError | TypeError | ValueError | AttributeError

  datatype Result<+T> = Ok(value: T) | Err(fault: Fault)
}
